=== FILE: README.md ===
# C-CPP course exercises: verified model of the containers and text tools

This project is a Dafny model of the algorithmic core of five C and C++ exercises:

- **ex4: a generic growable vector and a chained hash map.**
  - The vector (`vector.c`) owns its elements and rejects duplicates. It doubles its capacity when the load factor passes 0.75 and halves it when the load factor drops below 0.25. It rolls back `size` when an allocation fails.
  - The hash map (`hashmap.c`) keeps an array of optional vectors of key/value pairs. A key goes to bucket `hash(key) & (capacity - 1)`. The map rehashes the whole table to twice or half the capacity around insert and erase. `hashmap_apply_if` updates the selected values in place.
- **ex6: a small-buffer-optimised vector, `vl_vector`, and a NUL-terminated string, `vl_string`, built on it.** The vector moves between its static array and a heap array by the `cap_c` capacity formula. The string keeps its trailing `'\0'`.
- **ex2: the student-record tool.** It validates ids and numbers, checks the fields of a record line, and has two in-place sorts: a bubble sort by grade and a Lomuto quicksort by age.
- **ex1: the Caesar cipher.** Letters are shifted by `k` within their own case and every other character is copied. Decode is encode with `-k`.
- **ex3: the tweet generator's dictionary.** It is a linked list of word records. Each record carries its occurrence count and the successor words counted after it on the same line.

Files:

- `sizing.dfy`: powers of two, the mask-is-modulo lemma, and the load-factor thresholds as integer comparisons.
- `vector.dfy`: the pure vector specification `Vec`, and the class `Vector` over an array.
- `hashmap.dfy`: the class `HashMap`, whose buckets are vector values.
- `hashmap_scenarios.dfy`: the resize scenarios of `ex4/test_suite.c`, and the erase discrepancy.
- `vl_vector.dfy`, `vl_string.dfy`: the two template classes.
- `students.dfy`, `cipher.dfy`, `tweets.dfy`: the other three exercises.
- `wrappers.dfy`: `Option` and `Result`.

Allocation outcomes are boolean parameters throughout. For example, `growOk` says whether the realloc of a push succeeds. The hash function is a parameter `K -> nat`.

## Model

| member | source | states |
|---|---|---|
| Sizing.MaskIsMod | ex4/hashmap.c:38-40 | for a power-of-two capacity, masking the hash with capacity - 1 gives the hash modulo capacity |
| Sizing.LoadFactorThresholds | ex4/vector.c:119-121 | 4·size > 3·capacity holds exactly when size/capacity > 0.75, and 4·size < capacity exactly when size/capacity < 0.25 |
| Sizing.LoadFactorBounds | ex4/vector.c:143-148 | under the maximum-load invariant the load factor is in [0, 0.75], and it is 0 exactly for an empty container |
| Vector.EmptyValid | ex4/vector.c:44-45 | a fresh vector (no elements, initial capacity 16) satisfies the vector invariant |
| Vector.PushBackDuplicate | ex4/vector.c:115-117 | pushing a value already present returns failure and leaves elements and capacity unchanged |
| Vector.PushBackAppends | ex4/vector.c:118-135 | a push succeeds iff the value is new, the copy succeeds and any needed growth succeeds; on success the value lands at index old size and earlier elements are kept; on failure the elements are unchanged |
| Vector.PushBackCapacity | ex4/vector.c:118-124 | the capacity doubles exactly when a new value pushes the load factor past 0.75 and the realloc succeeds |
| Vector.PushBackValid | ex4/vector.c:114-136 | push keeps size ≤ capacity, a power-of-two capacity, load ≤ 0.75 and distinct elements, whatever the allocations do |
| Vector.EraseRemoves | ex4/vector.c:158-185 | erase succeeds iff the index is live and any needed shrink succeeds; it removes exactly that element and keeps the order of the rest; on failure nothing changes |
| Vector.EraseCapacity | ex4/vector.c:162-168 | the capacity halves exactly when a successful erase leaves the load factor below 0.25 |
| Vector.EraseValid | ex4/vector.c:158-185 | erase keeps the vector invariant; in particular the capacity never reaches 0 |
| Vector.ClearIdempotent | ex4/vector.c:191-200 | clear leaves no elements and the same capacity, and clearing twice is clearing once |
| Vector.Vector.constructor | ex4/vector.c:40-54 | a new vector is empty, valid and has VECTOR_INITIAL_CAP slots |
| Vector.Vector.UpdateCapacity | ex4/vector.c:10-21 | a failed realloc restores the old capacity and buffer and returns 0; a successful one installs a buffer of the new capacity that keeps the first min(old, new) slots |
| Vector.Vector.At | ex4/vector.c:81-86 | returns the live element at ind when ind < size, and None (NULL) otherwise |
| Vector.Vector.LoadFactor | ex4/vector.c:143-148 | the load factor lies in [0, 0.75] and is 0 exactly for an empty vector |
| Vector.Vector.Find | ex4/vector.c:96-106 | returns the smallest index holding the value, or -1 exactly when the value is absent |
| Vector.Vector.PushBack | ex4/vector.c:114-136 | the new elements, capacity and result are those of VecPushBack, and the vector stays valid |
| Vector.Vector.PushNew | ex4/vector.c:118-135 | the same for a value known to be absent: speculative size++, growth, copy, rollback |
| Vector.Vector.ShiftDown | ex4/vector.c:173-183 | the shift loop removes slot ind from the first last+1 slots and leaves later slots alone |
| Vector.Vector.Erase | ex4/vector.c:158-185 | the new elements, capacity and result are those of VecErase, and the vector stays valid |
| Vector.Vector.EraseAt | ex4/vector.c:162-184 | the same for a live index: speculative size--, shrink, rollback, shift |
| Vector.Vector.Clear | ex4/vector.c:191-200 | elements become empty, capacity and buffer unchanged |
| Vector.Alloc | ex4/vector.c:33-55 | NULL exactly when a callback is missing or allocation fails; otherwise an empty valid vector of capacity VECTOR_INITIAL_CAP |
| HashMap.BucketIndexIsMask | ex4/hashmap.c:137-138 | the slot of a key, hash % capacity, is the C expression hash & (capacity - 1) for a power-of-two capacity |
| HashMap.EmptyTableOk | ex4/hashmap.c:80-81 | a table of NULL slots represents the empty mapping |
| HashMap.InSlot | ex4/hashmap.c:166-180 | a stored key's pair is found in the slot of its hash, with the mapped value |
| HashMap.TableInsert | ex4/hashmap.c:137-151 | pushing a new key's pair onto its slot's vector gives a table for the mapping extended with that key |
| HashMap.TableRemove | ex4/hashmap.c:213-228 | erasing a key's pair from its slot's vector gives a table for the mapping without that key |
| HashMap.SlotStep | ex4/hashmap.c:33-53 | moving the next pair of a slot during rehash moves a key not yet moved, and the progress covers it |
| HashMap.SlotDone | ex4/hashmap.c:31-56 | once every pair of slot i is moved, every slot below i + 1 is moved |
| HashMap.MovedAll | ex4/hashmap.c:57-59 | once every slot is moved, the new table holds the whole mapping |
| HashMap.TableApply | ex4/hashmap.c:271-281 | updating every bucket in place gives a table for the mapping with the selected values transformed |
| HashMap.SelectedKeysIn | ex4/hashmap.c:275-277 | a key is counted exactly when some pair has it and the predicate holds for it |
| HashMap.HashMap.constructor | ex4/hashmap.c:77-81 | a new map has capacity 16, size 0, every slot NULL and the empty mapping |
| HashMap.HashMap.LoadFactor | ex4/hashmap.c:239-244 | the load factor lies in [0, 0.75] and is 0 exactly for an empty map |
| HashMap.HashMap.At | ex4/hashmap.c:162-182 | returns the value stored with the key, and None (NULL) for an absent key |
| HashMap.HashMap.Rebuild | ex4/hashmap.c:28-56 | builds a table of the new capacity holding every pair in the slot of its hash under the new capacity; fails only when it must allocate and allocation fails |
| HashMap.HashMap.Rehash | ex4/hashmap.c:28-60 | on success the new table represents the same mapping at the new capacity; on failure the old buckets are untouched |
| HashMap.HashMap.RehashSlot | ex4/hashmap.c:32-55 | the inner loop moves the pairs of one slot, extending the rebuilt table's mapping by exactly those pairs |
| HashMap.HashMap.AddToSlot | ex4/hashmap.c:137-151 | with separate outcomes for vector_alloc, the bucket's growth and the pair copy: succeeds exactly when a NULL slot's vector is allocated, the copy succeeds and any growth the push needs succeeds; only that slot changes; on failure the table still represents the old mapping, and the slot holds what the C code leaves there: NULL when vector_alloc failed, otherwise the old pairs in a vector whose capacity has doubled if its growth succeeded |
| HashMap.SlotReplaced | ex4/hashmap.c:146-151 | replacing a slot's vector by a valid vector with the same pairs, as a failed push leaves it, keeps the table representing the same mapping |
| HashMap.HashMap.Insert | ex4/hashmap.c:116-153 | inserts only an absent key, only when the pair copy and any needed rehash succeed, and always when additionally the bucket's allocation and growth succeed; contents become old[key := value] with size + 1; the capacity doubles exactly when the new size passes 0.75 of it and the rehash succeeds, and stays doubled after a later failure; on failure contents and size are unchanged; a present key or a failed rehash leaves the table untouched; when no rehash is due, success is exactly PushSucceeds on the key's old slot, every other slot is unchanged, and a failure leaves in the key's slot what FailedPushLeaves describes (NULL only when vector_alloc failed, otherwise the old pairs in a vector that may have grown) |
| HashMap.HashMap.InsertAbsent | ex4/hashmap.c:123-152 | for an absent key, the same promises as Insert: the size step, the rehash when the new size passes 0.75 of the capacity, and the slot step, with the table untouched after a failed rehash and, when no rehash is due, success exactly PushSucceeds on the old slot and the leftover FailedPushLeaves on failure |
| HashMap.HashMap.Erase | ex4/hashmap.c:191-232 | erases only a present key; contents lose exactly that key and size drops by 1; capacity halves exactly when the new size is below 0.25 of it; on failure contents, size and capacity are unchanged |
| HashMap.HashMap.RemoveFromSlot | ex4/hashmap.c:213-229 | erases the key's pair from its slot's vector; succeeds unless that vector must shrink and allocation fails; only that slot changes |
| HashMap.HashMap.ApplyIf | ex4/hashmap.c:264-283 | -1 with nothing changed when a function is missing; otherwise returns the number of keys satisfying the predicate and transforms exactly their values, with keys, size, capacity and placement unchanged |
| HashMap.HashMap.ApplyAll | ex4/hashmap.c:270-282 | the count is the number of keys selected by the predicate, and contents and table are the transformed ones |
| HashMap.HashMap.ApplyToSlots | ex4/hashmap.c:271-281 | the outer loop updates every slot in place and counts the selected keys |
| HashMap.HashMap.ApplyToSlot | ex4/hashmap.c:272-280 | one slot is updated in place and the count grows by its selected keys |
| HashMap.ApplyToPairs | ex4/hashmap.c:273-279 | the inner loop transforms each selected pair, keeps the others, and counts the selected keys |
| HashMap.Alloc | ex4/hashmap.c:68-87 | NULL exactly when the hash function is missing or allocation fails; otherwise an empty valid map of capacity 16 whose load factor is 0 |
| HashMapScenarios.InsertsNoGrow | ex4/hashmap.c:123-136 | inserts that keep the load at or below 0.75 never grow the table |
| HashMapScenarios.InsertsThenGrow | ex4/hashmap.c:123-136 | the first insert that passes 0.75 doubles the capacity |
| HashMapScenarios.ErasesNoShrink | ex4/hashmap.c:195-207 | erases that keep the load at or above 0.25 never shrink the table |
| HashMapScenarios.ErasesThenShrink | ex4/hashmap.c:195-207 | the first erase that drops below 0.25 halves the capacity |
| HashMapScenarios.LoadFactorScenario | ex4/test_suite.c:166-209 | from (0, 16): 18 inserts give capacity 32, 32 more give 128, erasing 20 gives 64, erasing the other 30 gives 2 |
| HashMapScenarios.LoadFactorValues | ex4/test_suite.c:180-202 | the load factors at the checkpoints are 0.5625, 0.390625 and 0.46875 |
| HashMapScenarios.InsertNew | ex4/hashmap.c:116-153 | inserting the new key k into a map with keys 0..k-1, every allocation succeeding, adds it, so the keys become 0..k, and moves the counters by AfterInsert |
| HashMapScenarios.ErasePresent | ex4/hashmap.c:191-232 | erasing the present key k from a map with keys k..hi-1, every allocation succeeding, removes it, so the keys become k+1..hi-1, and moves the counters by AfterErase |
| HashMapScenarios.InsertKeys | ex4/test_suite.c:173-191 | inserting keys from..to-1 moves the counters by that many inserts |
| HashMapScenarios.EraseKeys | ex4/test_suite.c:197-207 | erasing keys from..to-1 moves the counters by that many erases |
| HashMapScenarios.RunLoadFactorScenario | ex4/test_suite.c:166-209 | on the HashMap class with keys 0..49, the capacities at the checkpoints are 16, 32, 128, 64, 2 and the load factors 0, 0.5625, 0.390625, 0.46875, 0 |
| HashMapScenarios.EraseAsWritten | ex4/hashmap.c:191-232 | erase as written: an absent key leaves the size and fails, and a present key behaves as AfterErase |
| HashMapScenarios.AbsentErasesAsWritten | ex4/hashmap.c:195-231 | repeated erases of an absent key, as written, keep the size |
| HashMapScenarios.AbsentEraseReachesCapacityZero | ex4/hashmap.c:195-208 | from one pair at capacity 16, each absent-key erase halves the capacity, and the fifth asks for capacity 0 |
| HashMapScenarios.RunAbsentEraseScenario | ex4/hashmap.c:195-231 | with the corrected erase, five erases of an absent key fail and leave size 1 and capacity 16 |
| HashMapScenarios.RunEraseTest | ex4/test_suite.c:120-140 | eighteen keys inserted and erased again, then every erase of a key absent from the emptied map fails and the size stays 0 |
| VlVectors.VlVector.ToIncrease | ex6/vl_vector.h:30-36 | true when k more elements exceed the current capacity, which then means they exceed StaticCapacity; false means the buffer in use holds them |
| VlVectors.VlVector.ToDecrease | ex6/vl_vector.h:91-98 | for k <= size, true exactly when the vector is on the heap and size - k fits StaticCapacity; false when k > size, where the size_t difference wraps |
| VlVectors.VlVector.CapC | ex6/vl_vector.h:43-49 | StaticCapacity when size + k fits it, otherwise at least size + k and below twice it (floor of 3(size+k)/2) |
| VlVectors.VlVector.Capacity | ex6/vl_vector.h:238-243 | capacity is at least size, and above StaticCapacity exactly when the storage is on the heap |
| VlVectors.VlVector.constructor | ex6/vl_vector.h:137-143 | no elements, static storage, capacity StaticCapacity |
| VlVectors.VlVector.FromRange | ex6/vl_vector.h:176-199 | holds the elements of the range, on the heap with capacity cap_c(0, n) when they exceed StaticCapacity |
| VlVectors.VlVector.Clone | ex6/vl_vector.h:149-168 | the copy has the same elements and capacity |
| VlVectors.VlVector.CopyToHeap | ex6/vl_vector.h:56-84 | moves the elements unchanged into a fresh heap array of the new capacity |
| VlVectors.VlVector.CopyToStack | ex6/vl_vector.h:117-125 | moves the elements unchanged back into the static array |
| VlVectors.VlVector.Reserve | ex6/vl_vector.h:305-308 | the growth step of insert, push_back and +=: the elements are unchanged and k more fit; to the heap with cap_c(size, k) exactly when they did not fit, otherwise storage is unchanged |
| VlVectors.VlVector.Size | ex6/vl_vector.h:230-232 | the number of elements |
| VlVectors.VlVector.Empty | ex6/vl_vector.h:249-251 | true exactly when there is no element |
| VlVectors.VlVector.At | ex6/vl_vector.h:257-280 | element index when index < size, the out_of_range error otherwise |
| VlVectors.VlVector.PushBack | ex6/vl_vector.h:286-295 | elem appended after the others; moves to the heap with capacity cap_c(size, 1) exactly when it does not fit, else storage is unchanged |
| VlVectors.VlVector.Insert | ex6/vl_vector.h:303-316 | elem at index location, the earlier elements kept and the later ones one place right; returns location; grows by cap_c(size, 1) when needed |
| VlVectors.VlVector.InsertRange | ex6/vl_vector.h:326-346 | the range spliced in order at location; returns location; grows by cap_c(size, n) when needed |
| VlVectors.VlVector.PopBack | ex6/vl_vector.h:351-362 | no-op when empty, otherwise drops the last element; storage returns to static, with heap capacity 0, exactly when size goes from StaticCapacity + 1 to StaticCapacity; otherwise the storage, heap array and capacity are unchanged |
| VlVectors.VlVector.Erase | ex6/vl_vector.h:369-382 | removes the element at location, keeping the order of the rest; returns location; returns to static storage exactly when pop_back would, and otherwise keeps the storage, heap array and capacity |
| VlVectors.VlVector.Clear | ex6/vl_vector.h:411-418 | no elements, static storage, capacity StaticCapacity; the heap capacity field is left as it was |
| VlVectors.VlVector.Contains | ex6/vl_vector.h:433-441 | true exactly when some element equals elem |
| VlVectors.VlVector.Equals | ex6/vl_vector.h:600-610 | true exactly when the sizes and all elements agree |
| VlVectors.ShiftRight | ex6/vl_vector.h:336-338 | the shift loop moves a[location..size] n places right and keeps a[..location] |
| VlVectors.ShiftLeft | ex6/vl_vector.h:372-374 | the shift loop moves a[location+1..size] one place left and keeps a[..location] |
| VlVectors.CopyInto | ex6/vl_vector.h:339-343 | the copy loop writes src from location on and leaves everything else alone |
| VlStrings.CStrSearch | ex6/vl_string.h:51-54 | searching the C string of a terminated text finds only runs of the text, and every run when the text holds no '\0' |
| VlStrings.VlString.Terminated | ex6/vl_string.h:56-58 | the buffer in use is the text followed by '\0' |
| VlStrings.VlString.constructor | ex6/vl_string.h:26-29 | the empty string, with '\0' at index 0 |
| VlStrings.VlString.FromCString | ex6/vl_string.h:42-44 | the characters of str followed by '\0', so size() == strlen(str) |
| VlStrings.VlString.Clone | ex6/vl_string.h:35-37 | the copy has the same text |
| VlStrings.VlString.Size | ex6/vl_string.h:56-58 | the length of the text, which is the vector's element count minus one |
| VlStrings.VlString.Empty | ex6/vl_string.h:64-66 | true exactly when the text is empty |
| VlStrings.VlString.Contains | ex6/vl_string.h:51-54 | true only when str occurs in the text, and exactly then when the text holds no '\0'; the empty str is always found |
| VlStrings.VlString.PushBack | ex6/vl_string.h:72-79 | the text gains c at the end and the terminator follows it; moves to the heap with cap_c(size, 1) when needed |
| VlStrings.VlString.DeleteLast | ex6/vl_string.h:17-20 | the terminator moves over the last character |
| VlStrings.VlString.PopBack | ex6/vl_string.h:84-95 | no-op on the empty string, otherwise the text loses its last character and stays terminated; the vector returns to static storage exactly when its size goes from StaticCapacity + 1 down, and otherwise keeps its storage, heap array and capacity |
| VlStrings.VlString.Clear | ex6/vl_string.h:136-146 | the empty string in static storage, '\0' at index 0 |
| VlStrings.VlString.AppendCString | ex6/vl_string.h:153-166 | the text gains every character of str, size() grows by strlen(str), and the terminator is kept |
| VlStrings.AppendedText | ex6/vl_string.h:159-165 | a buffer holding the text, then str and '\0', holds the text followed by str and then the terminator |
| VlStrings.VlString.AppendChar | ex6/vl_string.h:173-176 | the text gains c |
| VlStrings.VlString.PlusCString | ex6/vl_string.h:201-215 | a fresh string holding the text followed by str |
| VlStrings.VlString.PlusChar | ex6/vl_string.h:222-226 | a fresh string holding the text followed by c |
| Students.CheckId | ex2/manageStudents.c:81-97 | 0 exactly for an id of ten digits not starting with '0', 1 otherwise |
| Students.StrToInt | ex2/manageStudents.c:71-74 | the decimal value of an all-digit string, 0 for a string not starting with a digit, and below 10^n for n leading digits |
| Students.CheckNum | ex2/manageStudents.c:104-113 | -1 exactly when one of the first size - 1 characters is not a digit, 0 exactly when all of them are digits |
| Students.LeadingDigits | ex2/manageStudents.c:71-74 | the leading run of digits: a prefix made of digits, stopped by a non-digit or the end |
| Students.LeadingDigitsOfDigits | ex2/manageStudents.c:71-74 | a string made of digits is its own leading run |
| Students.DigitsValueBelow | ex2/manageStudents.c:71-74 | a string of n digits has a value below 10^n |
| Students.DigitsValueAtLeast | ex2/manageStudents.c:71-74 | a string of n ≥ 1 digits not starting with '0' has a value of at least 10^(n-1) |
| Students.ValidIdRange | ex2/manageStudents.c:81-97 | a well-formed id converts to a number in [10^9, 10^10) |
| Students.ParseRecord | ex2/manageStudents.c:120-169 | an accepted line has exactly three fields, a well-formed id, a grade in [0, 100] and an age in [18, 120] |
| Students.ParsedIdRange | ex2/manageStudents.c:141-167 | an accepted record's id is a ten-digit number |
| Students.CheckInput | ex2/manageStudents.c:120-169 | 1 for more than three fields; -1 exactly when the line is accepted, and then s[j] is the parsed record and nothing else changes; 1 leaves s untouched |
| Students.Swap | ex2/manageStudents.c:176-180 | exchanges the records at i and j and changes nothing else |
| Students.BubbleSort | ex2/manageStudents.c:218-228 | the records end sorted by non-decreasing grade and are a permutation of the input |
| Students.BubblePass | ex2/manageStudents.c:220-226 | one pass permutes a[..m] in place and carries the largest grade of a[..m] to index m - 1 |
| Students.BubbleStep | ex2/manageStudents.c:221-224 | an adjacent exchange that puts the larger grade second carries the maximum one place right |
| Students.BubblePassDone | ex2/manageStudents.c:218-228 | after a pass the sorted tail grows by one place and the array is still a permutation |
| Students.SwapPermutes | ex2/manageStudents.c:176-180 | an exchange inside a range keeps it a permutation of the original |
| Students.PartitionSwapStep | ex2/manageStudents.c:240-243 | after the scan's exchange, the region below the pivot and the region at least the pivot each move one place right |
| Students.Partition | ex2/manageStudents.c:236-247 | returns p in the range such that every earlier record has an age below a[p]'s and every later one at least it; the range is permuted and the rest unchanged |
| Students.PartitionScan | ex2/manageStudents.c:239-244 | one scan iteration keeps the two regions and the permutation |
| Students.ScanSwap | ex2/manageStudents.c:240-243 | the scan's exchange keeps the pivot last, extends both regions by one place and permutes the range |
| Students.PlacePivot | ex2/manageStudents.c:245-246 | the closing exchange puts the pivot between the two regions |
| Students.PivotSwap | ex2/manageStudents.c:245 | the closing exchange leaves smaller ages before p, larger-or-equal ages after it, and permutes the range |
| Students.PartitionFinalSwap | ex2/manageStudents.c:245-246 | the closing exchange puts the pivot at p with smaller ages before it and larger-or-equal after it |
| Students.BoundsSurvivePermutation | ex2/manageStudents.c:254-261 | permuting a range keeps every age bound that held for all of its records |
| Students.QuickSort | ex2/manageStudents.c:254-261 | the range ends sorted by non-decreasing age, as a permutation of itself, the rest unchanged |
| Students.QuickSortGlue | ex2/manageStudents.c:254-261 | sorting both sides of a partition sorts and permutes the whole range |
| Students.GluePermuted | ex2/manageStudents.c:256-260 | the recursive sorts of the two sides permute the whole range and leave the pivot in place |
| Students.GlueSorted | ex2/manageStudents.c:256-260 | two sorted sides around a pivot no older than the right side and older than the left side form a sorted range |
| Cipher.CRem | ex1/cipher.c:32 | C's truncating remainder: sign of the dividend, magnitude below 26, congruent to the dividend |
| Cipher.EncodeChar | ex1/cipher.c:33-44 | every character that is not a letter is copied unchanged |
| Cipher.ShiftUpper | ex1/cipher.c:34-37 | for a shift in [0, 26) an upper-case c becomes 'A' + (c - 'A' + k) mod 26, still upper-case |
| Cipher.ShiftLower | ex1/cipher.c:38-41 | for a shift in [0, 26) a lower-case c becomes 'a' + (c - 'a' + k) mod 26, still lower-case |
| Cipher.ShiftBack | ex1/cipher.c:30-45 | shifting by k and then by (-k) mod 26 gives back every character |
| Cipher.Caesar | ex1/cipher.c:31-45 | output of the same length, position i depending only on input position i |
| Cipher.DecodeEncode | ex1/cipher.c:121-126 | decoding with k what was encoded with k gives back the text, for every k |
| Cipher.NegMod | ex1/cipher.c:121-126 | -k and -(k mod 26) have the same remainder, so decoding shifts back by the encoding's shift |
| Cipher.CaesarKeepsClasses | ex1/cipher.c:33-44 | letters keep their case and every other character is copied |
| Cipher.Encode | ex1/cipher.c:30-45 | the buffer's first len(source) slots hold the cipher of the line with shift k mod 26; later slots are unchanged |
| Cipher.Decode | ex1/cipher.c:124-126 | the buffer holds the cipher of the line with -k |
| Cipher.ShiftAsWritten | ex1/cipher.c:32 | the shift at each position is in (-26, 26), and k mod 26 from the second position on |
| Cipher.SecondShift | ex1/cipher.c:32 | the second normalisation of k always yields k mod 26, for every k |
| Cipher.EncodeAsWritten | ex1/cipher.c:30-45 | the line as encode writes it with C's remainder, of the same length |
| Cipher.AsWrittenIsCaesar | ex1/cipher.c:32 | for k ≥ -2600000 the first shift is already k mod 26 and encode as written is the intended cipher |
| Cipher.AsWrittenDecodeFails | ex1/cipher.c:121-126 | with k = 2600001, decoding the encoding of "Z" gives "@" |
| Tweets.IndexOf | ex3/tweetsGenerator.c:318-333 | the index of the first record holding w, None exactly when no record holds it |
| Tweets.SuccIndex | ex3/tweetsGenerator.c:199-207 | the index of the first successor entry for v, None exactly when there is none |
| Tweets.Bump | ex3/tweetsGenerator.c:185-224 | the count for v grows by 1 and every other word's count is unchanged; the list grows by one entry exactly when v had none |
| Tweets.BumpInPlace | ex3/tweetsGenerator.c:199-207 | raising the count of v's entry moves no entry, so every word is found at the same index |
| Tweets.BumpAppend | ex3/tweetsGenerator.c:208-222 | appending an entry for a word with none puts it last and moves no other word's entry |
| Tweets.AddOccurrenceFacts | ex3/tweetsGenerator.c:234-258 | an unseen word gets a new record with count 1 at the end; a seen word's count grows by 1; nothing else changes |
| Tweets.LinkFacts | ex3/tweetsGenerator.c:185-224 | linking w after p changes only p's successor counts, by one more w |
| Tweets.DistinctFacts | ex3/tweetsGenerator.c:270-310 | the distinct words hold each word read exactly once |
| Tweets.StepFacts | ex3/tweetsGenerator.c:286-305 | record by record: w's record counts one more occurrence, or a new record (w, 1, no successors) is appended; only the previous word's record gets one more w; no other record changes |
| Tweets.StepShape | ex3/tweetsGenerator.c:288-306 | reading one word keeps one record per distinct word in order of first appearance |
| Tweets.StepCounts | ex3/tweetsGenerator.c:288-306 | reading one word keeps each record's count equal to its word's occurrences |
| Tweets.StepSuccs | ex3/tweetsGenerator.c:288-306 | reading one word keeps each successor count equal to the number of times that word followed on the same line |
| Tweets.FillLineDict | ex3/tweetsGenerator.c:280-306 | reading a line word by word, with the previous-word flag reset at its start, keeps the dictionary of the words read |
| Tweets.FillIsDict | ex3/tweetsGenerator.c:270-310 | after reading the lines: one record per distinct word in order of first appearance, its count the number of occurrences, its successor counts the same-line pair counts, and no duplicate words |
| Tweets.EmptyLine | ex3/tweetsGenerator.c:288-306 | an empty line adds nothing |
| Tweets.LimitBound | ex3/tweetsGenerator.c:273-284 | with a budget of n words at most n words are read, each line read being a prefix of its line |
| Tweets.LimitCount | ex3/tweetsGenerator.c:273-284 | with a budget of n words exactly min(n, word count) words are read |
| Tweets.LimitAll | ex3/tweetsGenerator.c:265-267 | a budget of at least the word count reads every line whole |
| Tweets.TakenBound | ex3/tweetsGenerator.c:265-284 | words_to_read == -1 reads every word, and so does a words_to_read at least the file's word count; a non-negative words_to_read reads exactly min(words_to_read, word count) words, a negative one other than -1 none |
| Tweets.Dictionary.constructor | ex3/tweetsGenerator.c:62-79 | the empty list |
| Tweets.Dictionary.Add | ex3/tweetsGenerator.c:62-79 | the node is linked at the tail and size grows by 1; first becomes the node when the list was empty and is unchanged otherwise; returns 0, or 1 with no change when allocation fails |
| Tweets.Dictionary.IsNodeExist | ex3/tweetsGenerator.c:318-333 | the first node whose word equals w, and None when the list is empty or no node holds it |
| Tweets.Dictionary.AddWordToProbabilityList | ex3/tweetsGenerator.c:185-224 | only the first word's successor list changes, by one more occurrence of second; returns 0 when second had an entry, 1 when one was appended |
| Tweets.Dictionary.FillDictionaryHelper | ex3/tweetsGenerator.c:234-258 | the list becomes AddOccurrence of the word: a new record with count 1 returned as the new node, or one more occurrence of the existing node |
| Tweets.Dictionary.ReadWord | ex3/tweetsGenerator.c:288-306 | one word read: the occurrence is recorded and, after a line's first word, the word is linked to the previous one; returns the word's node |
| Tweets.Dictionary.ReadLine | ex3/tweetsGenerator.c:280-308 | the word loop over one line: the list becomes the line's prefix read word by word, the whole line for -1 and otherwise until the count reaches words_to_read |
| Tweets.Dictionary.FillDictionary | ex3/tweetsGenerator.c:270-310 | the list is the dictionary of the words read under words_to_read, so FillIsDict and TakenBound describe it |
| Tweets.IndexOfAppended | ex3/tweetsGenerator.c:62-79 | a record appended for a word with no record is found at the end |
| Tweets.AddOccurrenceKeepsIndex | ex3/tweetsGenerator.c:234-258 | recording an occurrence does not move the record of any word that already has one |
| Tweets.ReadWordIsStep | ex3/tweetsGenerator.c:288-306 | reading word wi of a line is the Step of the word-by-word specification |
| Tweets.NextLineTaken | ex3/tweetsGenerator.c:273-284 | the line cut where the word loop stopped is the next line of Taken |

## Left out

- Memory management is not modelled. This covers `vector_free`, `free_bucket`, `hashmap_free`, `free_dictionary`, the destructors, the element free callbacks and leaked copies. Elements are values, so a copy equals its original.
- Pointers to caller data are not modelled. NULL maps, vectors, keys, values and pairs are left out; the NULL callbacks that the source tests are modelled as `Option` or boolean parameters.
- Allocation is an outcome parameter, not an allocator. `HashMap.HashMap.Rebuild` is given one flag for all of its allocations, so its allocations either all succeed or all fail.
- HashMap.HashMap.Insert: when a rehash is due, states success as a necessary condition (the key is absent, the copy succeeds, any needed rehash succeeds) and a sufficient one (all of that, plus the bucket's allocation and growth). Whether the bucket's vector must grow depends on that vector after the rehash, which the contract does not name, nor does it name the rehashed table that such a failure leaves; AddToSlot states the exact condition and leftover for the slot step.
- HashMap.HashMap.InsertAbsent: has the same gap as Insert, whose body after the lookup it is: when a rehash is due, success is bracketed by the same necessary and sufficient conditions, and the rehashed table a failed slot step leaves is not named.
- The `exit(EXIT_FAILURE)` on allocation failure in `fill_dictionary_helper` and `add_word_to_probability_list` (ex3/tweetsGenerator.c:189-191, 212-214, 239-252) is not modelled: the process ending is outside the model, so their callers pass a succeeding allocation.
- Buckets are `Vec` values in a sequence field rather than pointers to vectors. There is no aliasing between buckets.
- The `double` load factors are exact rationals, and the resize tests are the equivalent integer comparisons (`Sizing.LoadFactorThresholds`).
- Some constants live in headers that are not part of this model and are taken as follows:
  - VECTOR_INITIAL_CAP = 16;
  - HASH_MAP_INITIAL_CAP = 16, which agrees with ex4/test_suite.c:169;
  - growth factor 2;
  - maximum load 0.75;
  - minimum load 0.25.
- `hashmap_erase` on an empty map wraps `size_t` and then restores it. It is modelled by its observable effect: 0 and no change.
- HashMap.HashMap.Erase: it does not reproduce the source's order of shrink before lookup; see Findings. It also does not keep the halved, rehashed table when a present key's `vector_erase` fails after the shrink (ex4/hashmap.c:196-206, 223-226), as the source does; it promises the old capacity and buckets on every failure. The kept table can have a load factor above 0.75 (one pair at capacity 1), which the class invariant excludes.
- `vl_vector` allocation failure (`new (nothrow)`) is not modelled.
- `vl_vector` heap arrays are exactly `capacity` long. The source allocates `n * sizeof (T)` elements for a heap capacity n (ex6/vl_vector.h:58, 72, 182), which is exactly n only when T is `char`; the extra slots are never read within the size.
- VlVectors.VlVector.Insert: follows the intended shift of the elements at location..size-1. The source's loop starts one slot further (ex6/vl_vector.h:310), which writes past the current size.
- Vector.Vector.EraseAt: the copy inside the shift loop (`elem_copy_func` at ex4/vector.c:179-181) is taken to succeed. The source stores its result unchecked, so a failed copy leaves NULL in a live slot while `vector_erase` still returns 1. Elements are values with no NULL, so that state is not represented. Vector.Vector.ShiftDown, Vector.EraseRemoves and the bucket erase of HashMap.HashMap.RemoveFromSlot rest on the same assumption.
- VlVectors.VlVector.Erase: requires location < size, following the documented element to erase (ex6/vl_vector.h:365-366). For `erase(end())`, with location == size, the source's loop does not run and the last element is dropped; that case is not modelled. Separately, the source's loop reads `arr[size]` at i = size - 1 (ex6/vl_vector.h:372-374) for every location; the model does not make that read.
- VlVectors.VlVector.Clone: takes a heap buffer as large as the heap capacity. The source allocates `_size * sizeof (T)` elements (exactly `size` for `char`) while keeping the heap capacity (ex6/vl_vector.h:156), so the buffer can be shorter than the capacity.
- The range `erase` of `vl_vector` is not modelled. Its loop condition reads past the size.
- `vl_vector` iterators, `data`, `operator[]`, `operator=`, `operator!=` and the count-value constructor are not modelled.
- `find_position` is not modelled: positions are indices.
- Three `vl_string` operations are not modelled because their source is broken:
  - single `erase` reads past the terminator;
  - range `erase` has no return;
  - `+=` and `+` taking a `vl_string` overwrite a character before splicing.
- `vl_string` is modelled at the default StaticCapacity 16, the capacity of the `vl_string<>` copies that `operator+` makes.
- Tokenising a student line with `strtok` and the `fgets` reading are abstracted: `Students.CheckInput` receives the comma-separated fields.
  - Students.CheckInput: requires at least three fields, because with fewer the source reads uninitialised pointers.
  - The error messages printed on rejection are not modelled.
- Students.StrToInt: models `strtol` as the value of the leading digit run. Signs and leading blanks are not modelled, because `check_num` has already rejected them for the id and the grade. The `long` range is not modelled: a ten-digit id fits.
- `best_average`, `best_student`, `print_struct`, `get_input` and `main` of the student tool are not modelled. They are float arithmetic and I/O.
- `size_of_struct` of the student tool is not modelled. It counts records by pointer arithmetic (the end pointer minus the start over `sizeof(Student)`); in the model the record count is the length of the array.
- Cipher.Encode: models one line of the input. The source loops to `i <= LENGTH`, past the string and past `charArr` (ex1/cipher.c:31).
- The cipher's file output (`fputs`) is not modelled, nor are `check`, `encryption`'s file handling, `check_args` and `main`.
- Cipher.ShiftAsWritten: requires LENGTH·26 + k to be within `int` range; signed overflow beyond it is undefined in C.
- The tweet generator's file reading is abstracted to a sequence of lines of words: `fgets`, `sscanf`, `strtok`, `check_args`, `str_to_int` and `main` are left out.
- The random sentence generation (`get_random_number`, `get_first_random_word`, `get_next_random_word`, `generate_sentence`) is not modelled.
- `probability` and the `WordProbability.probability` field are not modelled: they are floats.
- A successor entry is keyed by the successor word's text rather than by a pointer to its record.
- Tweets.Dictionary.Add: the list is a sequence, so `first` and `last` are its first and last elements rather than separate pointers.

## Findings

| source | as written | input that shows it | evidently intended | confidence | as-written member | corrected member |
|---|---|---|---|---|---|---|
| ex4/hashmap.c:195-231 | `hashmap_erase` lowers the size and runs the shrink rehash before it looks the key up. An erase of an absent key therefore still halves the capacity; it then restores the size and returns 0. | A map holding one pair at capacity 16, then five erases of an absent key. The capacity goes 8, 4, 2, 1, and the fifth erase rehashes to capacity 0 while a pair is stored. The mask capacity - 1 then wraps, and the pair is written outside the zero-length table. | An erase that fails leaves the map unchanged, and the capacity never drops below 1. | not executed | HashMapScenarios.EraseAsWritten / HashMapScenarios.AbsentEraseReachesCapacityZero | HashMap.HashMap.Erase / HashMapScenarios.RunAbsentEraseScenario |
| ex1/cipher.c:32 | The shift is normalised with C's truncating `%` of LENGTH·26 + k. That remainder is negative when k < -2600000. Decode passes -k, so this happens for every decode key above 2600000. | Encode "Z" with k = 2600001, which gives "A". Then decode with k = 2600001: the first character shifts by -1 and gives "@" instead of "Z". | The shift is k mod 26 in [0, 26) for every k, so that decoding inverts encoding. | not executed | Cipher.EncodeAsWritten / Cipher.AsWrittenDecodeFails | Cipher.Encode / Cipher.DecodeEncode |

=== FILE: cipher.dfy ===
/**
 * ex1/cipher.c: the Caesar cipher. encode shifts every letter of a line by k
 * places within its own alphabet (upper or lower case) and copies every other
 * character; decode is encode with -k. Characters are Dafny chars whose
 * codes the arithmetic works on, as the C code works on the char's int value.
 */
module Cipher {
  const LENGTH: int := 100000
  const MOD: int := 26
  const CAPITAL_START: int := 65
  const CAPITAL_END: int := 90
  const SHORT_START: int := 97
  const SHORT_END: int := 122
  const INT_MIN: int := -0x8000_0000
  const INT_MAX: int := 0x7fff_ffff

  /** C's a % MOD on int: the remainder of the quotient truncated toward zero. */
  function CRem(a: int): (r: int)
    ensures a >= 0 ==> 0 <= r < MOD
    ensures a < 0 ==> -MOD < r <= 0
    ensures (a - r) % MOD == 0
  {
    if a >= 0 then a % MOD else -((-a) % MOD)
  }

  predicate IsUpper(c: char)
  {
    CAPITAL_START <= c as int <= CAPITAL_END
  }

  predicate IsLower(c: char)
  {
    SHORT_START <= c as int <= SHORT_END
  }

  /**
   * One iteration of encode's loop on the character c with the shift k
   * already normalised: the upper-case test and shift, then the lower-case
   * test and shift on the resulting value, each with C's remainder.
   */
  function EncodeChar(c: char, k: int): (r: char)
    requires -MOD < k < MOD
    ensures !IsUpper(c) && !IsLower(c) ==> r == c
  {
    var val := c as int;
    var val1 := if CAPITAL_START <= val <= CAPITAL_END then CRem(val + k - CAPITAL_START) + CAPITAL_START else val;
    var val2 := if SHORT_START <= val1 <= SHORT_END then CRem(val1 + k - SHORT_START) + SHORT_START else val1;
    val2 as char
  }

  /** With a shift in [0, MOD), an upper-case letter moves k places round the upper-case alphabet. */
  lemma ShiftUpper(c: char, k: int)
    requires 0 <= k < MOD && IsUpper(c)
    ensures EncodeChar(c, k) as int == CAPITAL_START + (c as int - CAPITAL_START + k) % MOD
    ensures IsUpper(EncodeChar(c, k))
  {
  }

  /** With a shift in [0, MOD), a lower-case letter moves k places round the lower-case alphabet. */
  lemma ShiftLower(c: char, k: int)
    requires 0 <= k < MOD && IsLower(c)
    ensures EncodeChar(c, k) as int == SHORT_START + (c as int - SHORT_START + k) % MOD
    ensures IsLower(EncodeChar(c, k))
  {
  }

  /** Shifting by k and then by (-k) mod MOD gives back the character. */
  lemma ShiftBack(c: char, k: int)
    requires 0 <= k < MOD
    ensures EncodeChar(EncodeChar(c, k), (-k) % MOD) == c
  {
    if IsUpper(c) {
      ShiftUpper(c, k);
      ShiftUpper(EncodeChar(c, k), (-k) % MOD);
      ModSum(c as int - CAPITAL_START, k);
    } else if IsLower(c) {
      ShiftLower(c, k);
      ShiftLower(EncodeChar(c, k), (-k) % MOD);
      ModSum(c as int - SHORT_START, k);
    }
  }

  /** Adding k and then (-k) mod MOD to an offset in [0, MOD), both mod MOD, gives the offset. */
  lemma ModSum(x: int, k: int)
    requires 0 <= x < MOD && 0 <= k < MOD
    ensures ((x + k) % MOD + (-k) % MOD) % MOD == x
  {
    if k == 0 {
      assert (-k) % MOD == 0;
    } else {
      assert (-k) % MOD == MOD - k;
      if x + k < MOD {
        assert (x + k) % MOD == x + k;
      } else {
        assert (x + k) % MOD == x + k - MOD;
      }
    }
  }

  /** The intended cipher: every character shifted by k mod MOD, a floor remainder in [0, MOD). */
  function Caesar(s: seq<char>, k: int): (r: seq<char>)
    ensures |r| == |s|
    ensures forall i :: 0 <= i < |s| ==> r[i] == EncodeChar(s[i], k % MOD)
  {
    seq(|s|, i requires 0 <= i < |s| => EncodeChar(s[i], k % MOD))
  }

  /** Decoding with k what was encoded with k gives back the text. */
  lemma {:induction false} DecodeEncode(s: seq<char>, k: int)
    ensures Caesar(Caesar(s, k), -k) == s
  {
    var t := Caesar(s, k);
    NegMod(k);
    forall i | 0 <= i < |s|
      ensures Caesar(t, -k)[i] == s[i]
    {
      ShiftBack(s[i], k % MOD);
    }
  }

  /** -k and -(k mod MOD) have the same remainder. */
  lemma NegMod(k: int)
    ensures (-k) % MOD == (-(k % MOD)) % MOD
  {
    var q, r := k / MOD, k % MOD;
    assert k == q * MOD + r;
    assert -k == (-q) * MOD + (-r);
    ModAddMultiple(-r, -q);
  }

  /** Adding a multiple of MOD does not change the remainder. */
  lemma ModAddMultiple(x: int, q: int)
    ensures (q * MOD + x) % MOD == x % MOD
  {
  }

  /** Letters stay in their case, and every other character is copied, by the intended cipher. */
  lemma CaesarKeepsClasses(s: seq<char>, k: int, i: int)
    requires 0 <= i < |s|
    ensures IsUpper(s[i]) ==> IsUpper(Caesar(s, k)[i])
    ensures IsLower(s[i]) ==> IsLower(Caesar(s, k)[i])
    ensures !IsUpper(s[i]) && !IsLower(s[i]) ==> Caesar(s, k)[i] == s[i]
  {
    if IsUpper(s[i]) {
      ShiftUpper(s[i], k % MOD);
    } else if IsLower(s[i]) {
      ShiftLower(s[i], k % MOD);
    }
  }

  /**
   * encode: the loop over the characters of the line, normalising k at
   * every iteration and writing the shifted character to charArr[i]. The
   * normalisation adds LENGTH * MOD and takes the floor remainder, so the
   * shift is k mod MOD at every position, for every k.
   */
  method Encode(source: seq<char>, k: int, charArr: array<char>)
    requires |source| <= charArr.Length
    modifies charArr
    ensures charArr[..|source|] == Caesar(source, k)
    ensures charArr[|source|..] == old(charArr[|source|..])
  {
    var shift := k;
    ModAddMultiple(k, LENGTH);
    ModAddMultiple(k % MOD, LENGTH);
    for i := 0 to |source|
      invariant i > 0 ==> shift == k % MOD
      invariant i == 0 ==> shift == k
      invariant forall j :: 0 <= j < i ==> charArr[j] == EncodeChar(source[j], k % MOD)
      invariant charArr[|source|..] == old(charArr[|source|..])
    {
      shift := (LENGTH * MOD + shift) % MOD;
      charArr[i] := EncodeChar(source[i], shift);
    }
  }

  /** decode: encode with -k. */
  method Decode(source: seq<char>, k: int, charArr: array<char>)
    requires |source| <= charArr.Length
    modifies charArr
    ensures charArr[..|source|] == Caesar(source, -k)
    ensures charArr[|source|..] == old(charArr[|source|..])
  {
    Encode(source, -k, charArr);
  }

  /**
   * The shift the loop of encode as written uses at position i: C's
   * truncating remainder of LENGTH * MOD + k at the first iteration, and of
   * LENGTH * MOD plus that value at the later ones.
   */
  function ShiftAsWritten(k: int, i: nat): (r: int)
    requires INT_MIN <= LENGTH * MOD + k <= INT_MAX
    ensures -MOD < r < MOD
    ensures i > 0 ==> r == k % MOD
  {
    var first := CRem(LENGTH * MOD + k);
    SecondShift(k);
    if i == 0 then first else CRem(LENGTH * MOD + first)
  }

  /** The second normalisation of encode as written always yields k mod MOD. */
  lemma SecondShift(k: int)
    ensures CRem(LENGTH * MOD + CRem(LENGTH * MOD + k)) == k % MOD
  {
    var a := LENGTH * MOD + k;
    var first := CRem(a);
    CongruentMod(a, first);
    ModAddMultiple(k, LENGTH);
    ModAddMultiple(first, LENGTH);
  }

  /** Numbers whose difference is a multiple of MOD have the same remainder. */
  lemma CongruentMod(a: int, b: int)
    requires (a - b) % MOD == 0
    ensures a % MOD == b % MOD
  {
    var q := (a - b) / MOD;
    assert a == q * MOD + b;
    ModAddMultiple(b, q);
  }

  /** The line as encode writes it with C's remainder. */
  function EncodeAsWritten(s: seq<char>, k: int): (r: seq<char>)
    requires INT_MIN <= LENGTH * MOD + k <= INT_MAX
    ensures |r| == |s|
  {
    seq(|s|, i requires 0 <= i < |s| => EncodeChar(s[i], ShiftAsWritten(k, i)))
  }

  /** For k >= -LENGTH * MOD the first shift is already k mod MOD, so encode as written is the intended cipher. */
  lemma AsWrittenIsCaesar(s: seq<char>, k: int)
    requires -LENGTH * MOD <= k && LENGTH * MOD + k <= INT_MAX
    ensures ShiftAsWritten(k, 0) == k % MOD
    ensures EncodeAsWritten(s, k) == Caesar(s, k)
  {
    assert (LENGTH * MOD + k) % MOD == k % MOD;
  }

  /**
   * Below -LENGTH * MOD the first remainder is negative: decoding the
   * encoding of "Z" with k = LENGTH * MOD + 1 turns its first character into
   * '@' instead of 'Z'.
   */
  lemma AsWrittenDecodeFails()
    ensures EncodeAsWritten(['Z'], LENGTH * MOD + 1) == ['A']
    ensures EncodeAsWritten(EncodeAsWritten(['Z'], LENGTH * MOD + 1), -(LENGTH * MOD + 1)) == ['@']
  {
    assert ShiftAsWritten(LENGTH * MOD + 1, 0) == 1;
    assert ShiftAsWritten(-(LENGTH * MOD + 1), 0) == -1;
    assert EncodeChar('Z', 1) == 'A';
    assert EncodeChar('A', -1) == '@';
  }
}

=== FILE: hashmap.dfy ===
/**
 * The chained hash map of ex4/hashmap.c.
 *
 * The table is an array of optional buckets; a bucket is a duplicate-free
 * vector of key/value pairs (a `Vec` of the Vector module). A key lives in
 * bucket hash(key) & (capacity - 1), which for the power-of-two capacities
 * the map keeps equals hash(key) % capacity (Sizing.MaskIsMod). The map
 * doubles its table when an insertion would lift the load factor above
 * 0.75 and halves it when an erase drops it below 0.25, rehashing every
 * pair. Allocation outcomes are parameters (`allocOk`, `rehashOk`).
 *
 * The ghost map `Contents` is the abstract key-to-value mapping the table
 * represents; `TableOk` ties the two together.
 */
module HashMap {
  import opened Wrappers
  import opened Sizing
  import opened Vector

  const HASH_MAP_INITIAL_CAP: nat := 16

  datatype Pair<K, V> = Pair(key: K, value: V)

  /** A table slot: NULL or a vector of pairs. */
  type Bucket<K, V> = Option<Vec<Pair<K, V>>>

  /** The slot a hash value selects in a table of `capacity` slots. */
  function BucketIndex(h: nat, capacity: nat): (r: nat)
    requires capacity > 0
    ensures r < capacity
  {
    h % capacity
  }

  /** For a power-of-two capacity the slot is the C expression hash & (capacity - 1). */
  lemma BucketIndexIsMask(h: nat, capacity: nat)
    requires IsPow2(capacity)
    ensures BucketIndex(h, capacity) == BitAnd(h, capacity - 1)
  {
    MaskIsMod(h, capacity);
  }

  /** The pairs a slot holds; a NULL slot holds none. */
  function Elems<K, V>(b: Bucket<K, V>): seq<Pair<K, V>>
  {
    if b.Some? then b.value.elems else []
  }

  /** The vector a slot holds, or the vector vector_alloc would create for it. */
  function VecOf<K, V>(b: Bucket<K, V>): Vec<Pair<K, V>>
  {
    if b.Some? then b.value else Empty()
  }

  /**
   * Whether the slot step of hashmap_insert succeeds on a slot holding
   * `slot`: a NULL slot needs vector_alloc, and vector_push_back of a new
   * pair needs its copy and any growth the push calls for.
   */
  predicate PushSucceeds<K, V>(slot: Bucket<K, V>, vecAllocOk: bool, growOk: bool, copyOk: bool)
  {
    (slot.Some? || vecAllocOk) && copyOk && (growOk || !AboveMaxLoad(|Elems(slot)| + 1, VecOf(slot).capacity))
  }

  /**
   * What a failed slot step leaves in a slot that held `slot`: NULL only
   * when vector_alloc failed; otherwise the old pairs, in a vector whose
   * capacity has doubled if its growth was due and succeeded.
   */
  ghost predicate FailedPushLeaves<K, V>(slot: Bucket<K, V>, slot': Bucket<K, V>, vecAllocOk: bool, growOk: bool)
  {
    (slot'.None? <==> slot.None? && !vecAllocOk)
    && (slot'.Some? ==> slot'.value.elems == Elems(slot)
                        && slot'.value.capacity ==
                             if AboveMaxLoad(|Elems(slot)| + 1, VecOf(slot).capacity) && growOk
                             then 2 * VecOf(slot).capacity else VecOf(slot).capacity)
  }

  /** Every non-NULL slot holds a valid vector. */
  ghost predicate BucketsValid<K, V>(b: seq<Bucket<K, V>>)
  {
    forall i {:trigger VecValid(b[i].value)} :: 0 <= i < |b| && b[i].Some? ==> VecValid(b[i].value)
  }

  /** Every stored pair sits in the slot of its key's hash and agrees with m. */
  ghost predicate Placed<K, V>(b: seq<Bucket<K, V>>, hash: K -> nat, m: map<K, V>)
  {
    forall i, p :: 0 <= i < |b| && p in Elems(b[i]) ==>
      BucketIndex(hash(p.key), |b|) == i && p.key in m && m[p.key] == p.value
  }

  /** Every entry of m is stored in the slot of its key's hash. */
  ghost predicate Complete<K, V>(b: seq<Bucket<K, V>>, hash: K -> nat, m: map<K, V>)
    requires |b| > 0
  {
    forall k {:trigger Stored(b, hash, k, m[k])} :: k in m ==> Stored(b, hash, k, m[k])
  }

  /** The pair (k, v) is in the slot of k's hash. */
  ghost predicate Stored<K, V>(b: seq<Bucket<K, V>>, hash: K -> nat, k: K, v: V)
    requires |b| > 0
  {
    Pair(k, v) in Elems(b[BucketIndex(hash(k), |b|)])
  }

  /** The table b represents the mapping m. */
  ghost predicate TableOk<K, V>(b: seq<Bucket<K, V>>, hash: K -> nat, m: map<K, V>)
  {
    |b| > 0 && BucketsValid(b) && Placed(b, hash, m) && Complete(b, hash, m)
  }

  /** A table of NULL slots represents the empty mapping. */
  lemma EmptyTableOk<K, V>(b: seq<Bucket<K, V>>, hash: K -> nat)
    requires |b| > 0
    requires forall i :: 0 <= i < |b| ==> b[i] == None
    ensures TableOk(b, hash, map[])
  {
  }

  /** Within one bucket of a well-formed table, a key occurs at one index only. */
  lemma KeyUnique<K, V>(b: seq<Bucket<K, V>>, hash: K -> nat, m: map<K, V>, i: nat, s: nat, t: nat)
    requires TableOk(b, hash, m)
    requires i < |b| && s < |Elems(b[i])| && t < |Elems(b[i])|
    requires Elems(b[i])[s].key == Elems(b[i])[t].key
    ensures s == t
  {
    var e := Elems(b[i]);
    assert e[s] in Elems(b[i]) && e[t] in Elems(b[i]);
    assert e[s] == e[t];
    assert VecValid(b[i].value);
  }

  /** A key's pair, when stored, is found in the slot of its hash. */
  lemma InSlot<K, V>(b: seq<Bucket<K, V>>, hash: K -> nat, m: map<K, V>, k: K)
    requires TableOk(b, hash, m) && k in m
    ensures Stored(b, hash, k, m[k])
    ensures Pair(k, m[k]) in Elems(b[BucketIndex(hash(k), |b|)])
  {
  }

  /**
   * Pushing a new key's pair onto the vector of its slot yields a table for
   * the mapping extended with that key.
   */
  lemma TableInsert<K, V>(b: seq<Bucket<K, V>>, hash: K -> nat, m: map<K, V>,
                          k: K, v: V, w: Vec<Pair<K, V>>, growOk: bool, copyOk: bool)
    requires TableOk(b, hash, m) && k !in m
    requires VecPushBack(VecOf(b[BucketIndex(hash(k), |b|)]), Pair(k, v), growOk, copyOk) == (w, true)
    ensures TableOk(b[BucketIndex(hash(k), |b|) := Some(w)], hash, m[k := v])
  {
    var idx := BucketIndex(hash(k), |b|);
    var old_v := VecOf(b[idx]);
    if b[idx].None? {
      EmptyValid<Pair<K, V>>();
    }
    PushBackValid(old_v, Pair(k, v), growOk, copyOk);
    assert w.elems == Elems(b[idx]) + [Pair(k, v)];
    InsertPlaced(b, hash, m, k, v, w);
    InsertComplete(b, hash, m, k, v, w);
  }

  /** Replacing a slot's vector by a valid one with the same pairs keeps the table. */
  lemma SlotReplaced<K, V>(b: seq<Bucket<K, V>>, hash: K -> nat, m: map<K, V>, i: nat, w: Vec<Pair<K, V>>)
    requires TableOk(b, hash, m) && i < |b|
    requires VecValid(w) && w.elems == Elems(b[i])
    ensures TableOk(b[i := Some(w)], hash, m)
  {
    ReplacedValid(b, i, w);
    ReplacedPlaced(b, hash, m, i, w);
    ReplacedComplete(b, hash, m, i, w);
  }

  lemma ReplacedValid<K, V>(b: seq<Bucket<K, V>>, i: nat, w: Vec<Pair<K, V>>)
    requires BucketsValid(b) && i < |b| && VecValid(w)
    ensures BucketsValid(b[i := Some(w)])
  {
    var b' := b[i := Some(w)];
    forall j | 0 <= j < |b'| && b'[j].Some? ensures VecValid(b'[j].value) {
      if j != i {
        assert b'[j] == b[j];
      }
    }
  }

  lemma ReplacedPlaced<K, V>(b: seq<Bucket<K, V>>, hash: K -> nat, m: map<K, V>, i: nat, w: Vec<Pair<K, V>>)
    requires Placed(b, hash, m) && i < |b| && w.elems == Elems(b[i])
    ensures Placed(b[i := Some(w)], hash, m)
  {
    var b' := b[i := Some(w)];
    forall j, p | 0 <= j < |b'| && p in Elems(b'[j])
      ensures BucketIndex(hash(p.key), |b'|) == j && p.key in m && m[p.key] == p.value
    {
      assert Elems(b'[j]) == Elems(b[j]);
    }
  }

  lemma ReplacedComplete<K, V>(b: seq<Bucket<K, V>>, hash: K -> nat, m: map<K, V>, i: nat, w: Vec<Pair<K, V>>)
    requires |b| > 0 && Complete(b, hash, m) && i < |b| && w.elems == Elems(b[i])
    ensures Complete(b[i := Some(w)], hash, m)
  {
    var b' := b[i := Some(w)];
    forall k | k in m ensures Stored(b', hash, k, m[k]) {
      assert Stored(b, hash, k, m[k]);
      assert Elems(b'[BucketIndex(hash(k), |b|)]) == Elems(b[BucketIndex(hash(k), |b|)]);
    }
  }

  lemma InsertPlaced<K, V>(b: seq<Bucket<K, V>>, hash: K -> nat, m: map<K, V>, k: K, v: V, w: Vec<Pair<K, V>>)
    requires |b| > 0 && Placed(b, hash, m) && k !in m
    requires w.elems == Elems(b[BucketIndex(hash(k), |b|)]) + [Pair(k, v)]
    ensures Placed(b[BucketIndex(hash(k), |b|) := Some(w)], hash, m[k := v])
  {
    var idx := BucketIndex(hash(k), |b|);
    var b' := b[idx := Some(w)];
    var m' := m[k := v];
    forall i, p | 0 <= i < |b'| && p in Elems(b'[i])
      ensures BucketIndex(hash(p.key), |b'|) == i && p.key in m' && m'[p.key] == p.value
    {
      if i == idx && p !in Elems(b[i]) {
        assert p == Pair(k, v);
      } else {
        assert p in Elems(b[i]);
      }
    }
  }

  lemma InsertComplete<K, V>(b: seq<Bucket<K, V>>, hash: K -> nat, m: map<K, V>, k: K, v: V, w: Vec<Pair<K, V>>)
    requires |b| > 0 && Complete(b, hash, m)
    requires w.elems == Elems(b[BucketIndex(hash(k), |b|)]) + [Pair(k, v)]
    ensures Complete(b[BucketIndex(hash(k), |b|) := Some(w)], hash, m[k := v])
  {
    var idx := BucketIndex(hash(k), |b|);
    var b' := b[idx := Some(w)];
    var m' := m[k := v];
    forall k' | k' in m' ensures Pair(k', m'[k']) in Elems(b'[BucketIndex(hash(k'), |b'|)]) {
      if k' != k {
        assert Stored(b, hash, k', m[k']);
      }
    }
  }

  /**
   * Erasing the pair of key k from its slot's vector yields a table for the
   * mapping without k.
   */
  lemma TableRemove<K, V>(b: seq<Bucket<K, V>>, hash: K -> nat, m: map<K, V>,
                          k: K, ind: nat, w: Vec<Pair<K, V>>, shrinkOk: bool)
    requires TableOk(b, hash, m) && k in m
    requires ind < |Elems(b[BucketIndex(hash(k), |b|)])|
    requires Elems(b[BucketIndex(hash(k), |b|)])[ind].key == k
    requires VecErase(VecOf(b[BucketIndex(hash(k), |b|)]), ind, shrinkOk) == (w, true)
    ensures TableOk(b[BucketIndex(hash(k), |b|) := Some(w)], hash, m - {k})
  {
    var idx := BucketIndex(hash(k), |b|);
    var e := Elems(b[idx]);
    assert b[idx].Some?;
    EraseValid(VecOf(b[idx]), ind, shrinkOk);
    assert w.elems == e[..ind] + e[ind + 1..];
    forall t | 0 <= t < |e| && e[t].key == k ensures t == ind {
      KeyUnique(b, hash, m, idx, t, ind);
    }
    RemovePlaced(b, hash, m, k, ind, w);
    RemoveComplete(b, hash, m, k, ind, w);
  }

  lemma RemovePlaced<K, V>(b: seq<Bucket<K, V>>, hash: K -> nat, m: map<K, V>, k: K, ind: nat, w: Vec<Pair<K, V>>)
    requires |b| > 0 && Placed(b, hash, m)
    requires var e := Elems(b[BucketIndex(hash(k), |b|)]);
      && ind < |e| && w.elems == e[..ind] + e[ind + 1..]
      && forall t :: 0 <= t < |e| && e[t].key == k ==> t == ind
    ensures Placed(b[BucketIndex(hash(k), |b|) := Some(w)], hash, m - {k})
  {
    var idx := BucketIndex(hash(k), |b|);
    var e := Elems(b[idx]);
    var b' := b[idx := Some(w)];
    var m' := m - {k};
    forall i, p | 0 <= i < |b'| && p in Elems(b'[i])
      ensures BucketIndex(hash(p.key), |b'|) == i && p.key in m' && m'[p.key] == p.value
    {
      if i == idx {
        var t :| 0 <= t < |w.elems| && w.elems[t] == p;
        var t' := if t < ind then t else t + 1;
        assert e[t'] == p;
        assert p in Elems(b[i]);
      } else {
        assert p in Elems(b[i]);
      }
    }
  }

  lemma RemoveComplete<K, V>(b: seq<Bucket<K, V>>, hash: K -> nat, m: map<K, V>, k: K, ind: nat, w: Vec<Pair<K, V>>)
    requires |b| > 0 && Complete(b, hash, m)
    requires var e := Elems(b[BucketIndex(hash(k), |b|)]);
      && ind < |e| && e[ind].key == k && w.elems == e[..ind] + e[ind + 1..]
    ensures Complete(b[BucketIndex(hash(k), |b|) := Some(w)], hash, m - {k})
  {
    var idx := BucketIndex(hash(k), |b|);
    var e := Elems(b[idx]);
    var b' := b[idx := Some(w)];
    var m' := m - {k};
    forall k' | k' in m' ensures Pair(k', m'[k']) in Elems(b'[BucketIndex(hash(k'), |b'|)]) {
      var p := Pair(k', m[k']);
      assert Stored(b, hash, k', m[k']);
      if BucketIndex(hash(k'), |b|) == idx {
        var t :| 0 <= t < |e| && e[t] == p;
        if t < ind {
          assert w.elems[t] == p;
        } else {
          assert w.elems[t - 1] == p;
        }
      }
    }
  }

  /** The map a successful erase leaves has one entry fewer. */
  lemma RemoveCard<K, V>(m: map<K, V>, k: K)
    requires k in m
    ensures |m - {k}| == |m| - 1
  {
    var m' := m - {k};
    assert m == m'[k := m[k]];
  }

  /** The map a successful insert leaves has one entry more. */
  lemma AddCard<K, V>(m: map<K, V>, k: K, v: V)
    requires k !in m
    ensures |m[k := v]| == |m| + 1
  {
    assert m[k := v] - {k} == m;
    RemoveCard(m[k := v], k);
  }

  /** Two maps over the same keys have the same number of entries. */
  lemma SameKeysCard<K, V>(m: map<K, V>, m': map<K, V>)
    requires m.Keys == m'.Keys
    ensures |m| == |m'|
  {
    assert |m| == |m.Keys| && |m'| == |m'.Keys|;
  }

  /**
   * The progress of a rehash over a table of cap slots: moved holds
   * exactly the entries of m whose slot is below i, plus those among the
   * pairs done so far of slot i.
   */
  ghost predicate MovedUpTo<K, V>(moved: map<K, V>, m: map<K, V>, hash: K -> nat, cap: nat, i: nat, done: seq<Pair<K, V>>)
  {
    && cap > 0
    && (forall k :: k in moved ==>
          k in m && moved[k] == m[k] && (BucketIndex(hash(k), cap) < i || Pair(k, m[k]) in done))
    && (forall k :: k in m && (BucketIndex(hash(k), cap) < i || Pair(k, m[k]) in done) ==> k in moved)
  }

  /** Moving the next pair of slot i: its key is not yet moved, and afterwards the progress covers it. */
  lemma SlotStep<K, V>(b: seq<Bucket<K, V>>, hash: K -> nat, m: map<K, V>, i: nat, j: nat, moved: map<K, V>)
    requires TableOk(b, hash, m) && i < |b| && j < |Elems(b[i])|
    requires MovedUpTo(moved, m, hash, |b|, i, Elems(b[i])[..j])
    ensures Elems(b[i])[j].key !in moved
    ensures MovedUpTo(moved[Elems(b[i])[j].key := Elems(b[i])[j].value], m, hash, |b|, i, Elems(b[i])[..j + 1])
  {
    var e := Elems(b[i]);
    var p := e[j];
    assert p in Elems(b[i]);
    if p.key in moved {
      var t :| 0 <= t < j && e[..j][t] == Pair(p.key, m[p.key]);
      KeyUnique(b, hash, m, i, t, j);
      assert false;
    }
    assert e[..j + 1] == e[..j] + [p];
  }

  /** Once every pair of slot i is moved, the progress covers every slot below i + 1. */
  lemma SlotDone<K, V>(b: seq<Bucket<K, V>>, hash: K -> nat, m: map<K, V>, i: nat, moved: map<K, V>)
    requires TableOk(b, hash, m) && i < |b|
    requires MovedUpTo(moved, m, hash, |b|, i, Elems(b[i]))
    ensures MovedUpTo(moved, m, hash, |b|, i + 1, [])
  {
    forall k | k in m && BucketIndex(hash(k), |b|) == i ensures k in moved {
      InSlot(b, hash, m, k);
    }
  }

  /** Once every slot is moved, the new table holds the whole mapping. */
  lemma MovedAll<K, V>(moved: map<K, V>, m: map<K, V>, hash: K -> nat, cap: nat)
    requires MovedUpTo(moved, m, hash, cap, cap, [])
    ensures moved == m
  {
    assert moved.Keys == m.Keys;
  }

  /** What hashmap_apply_if does to one pair. */
  function ApplyToPair<K, V>(p: Pair<K, V>, keyPred: K -> bool, valFunc: V -> V): (r: Pair<K, V>)
    ensures r.key == p.key
    ensures r.value == if keyPred(p.key) then valFunc(p.value) else p.value
  {
    if keyPred(p.key) then Pair(p.key, valFunc(p.value)) else p
  }

  /** What hashmap_apply_if does to one slot: the same slot, every pair updated in place. */
  function ApplyToBucket<K, V>(b: Bucket<K, V>, keyPred: K -> bool, valFunc: V -> V): (r: Bucket<K, V>)
    ensures r.Some? == b.Some?
    ensures b.Some? ==> r.value.capacity == b.value.capacity
    ensures |Elems(r)| == |Elems(b)|
    ensures forall t :: 0 <= t < |Elems(r)| ==> Elems(r)[t] == ApplyToPair(Elems(b)[t], keyPred, valFunc)
  {
    match b
    case None => None
    case Some(v) =>
      Some(Vec(seq(|v.elems|, t requires 0 <= t < |v.elems| => ApplyToPair(v.elems[t], keyPred, valFunc)), v.capacity))
  }

  /** The abstract effect of hashmap_apply_if: keys kept, selected values transformed. */
  function ApplyToMap<K, V>(m: map<K, V>, keyPred: K -> bool, valFunc: V -> V): (r: map<K, V>)
    ensures r.Keys == m.Keys
    ensures forall k :: k in m && keyPred(k) ==> r[k] == valFunc(m[k])
    ensures forall k :: k in m && !keyPred(k) ==> r[k] == m[k]
  {
    map k | k in m :: if keyPred(k) then valFunc(m[k]) else m[k]
  }

  /** The table after hashmap_apply_if: every slot updated in place. */
  function ApplyToTable<K, V>(b: seq<Bucket<K, V>>, keyPred: K -> bool, valFunc: V -> V): (r: seq<Bucket<K, V>>)
    ensures |r| == |b|
    ensures forall i :: 0 <= i < |b| ==> r[i] == ApplyToBucket(b[i], keyPred, valFunc)
  {
    seq(|b|, i requires 0 <= i < |b| => ApplyToBucket(b[i], keyPred, valFunc))
  }

  /** Updating every bucket in place yields a table for the updated mapping. */
  lemma TableApply<K, V>(b: seq<Bucket<K, V>>, hash: K -> nat, m: map<K, V>, keyPred: K -> bool, valFunc: V -> V)
    requires TableOk(b, hash, m)
    ensures TableOk(ApplyToTable(b, keyPred, valFunc), hash, ApplyToMap(m, keyPred, valFunc))
  {
    var b' := ApplyToTable(b, keyPred, valFunc);
    forall i | 0 <= i < |b'| && b'[i].Some? ensures VecValid(b'[i].value) {
      ApplyBucketValid(b, hash, m, i, keyPred, valFunc);
    }
    ApplyPlaced(b, hash, m, keyPred, valFunc);
    ApplyComplete(b, hash, m, keyPred, valFunc);
  }

  lemma ApplyPlaced<K, V>(b: seq<Bucket<K, V>>, hash: K -> nat, m: map<K, V>, keyPred: K -> bool, valFunc: V -> V)
    requires Placed(b, hash, m)
    ensures Placed(ApplyToTable(b, keyPred, valFunc), hash, ApplyToMap(m, keyPred, valFunc))
  {
    var b' := ApplyToTable(b, keyPred, valFunc);
    var m' := ApplyToMap(m, keyPred, valFunc);
    forall i, p | 0 <= i < |b'| && p in Elems(b'[i])
      ensures BucketIndex(hash(p.key), |b'|) == i && p.key in m' && m'[p.key] == p.value
    {
      var t :| 0 <= t < |Elems(b'[i])| && Elems(b'[i])[t] == p;
      var q := Elems(b[i])[t];
      assert q in Elems(b[i]);
      assert p == ApplyToPair(q, keyPred, valFunc);
    }
  }

  lemma ApplyComplete<K, V>(b: seq<Bucket<K, V>>, hash: K -> nat, m: map<K, V>, keyPred: K -> bool, valFunc: V -> V)
    requires |b| > 0 && Complete(b, hash, m)
    ensures Complete(ApplyToTable(b, keyPred, valFunc), hash, ApplyToMap(m, keyPred, valFunc))
  {
    var b' := ApplyToTable(b, keyPred, valFunc);
    var m' := ApplyToMap(m, keyPred, valFunc);
    forall k | k in m' ensures Pair(k, m'[k]) in Elems(b'[BucketIndex(hash(k), |b'|)]) {
      var idx := BucketIndex(hash(k), |b|);
      assert Stored(b, hash, k, m[k]);
      var t :| 0 <= t < |Elems(b[idx])| && Elems(b[idx])[t] == Pair(k, m[k]);
      assert Elems(b'[idx])[t] == ApplyToPair(Pair(k, m[k]), keyPred, valFunc);
    }
  }

  lemma ApplyBucketValid<K, V>(b: seq<Bucket<K, V>>, hash: K -> nat, m: map<K, V>, i: nat,
                               keyPred: K -> bool, valFunc: V -> V)
    requires TableOk(b, hash, m) && i < |b| && b[i].Some?
    ensures VecValid(ApplyToBucket(b[i], keyPred, valFunc).value)
  {
    var e := Elems(b[i]);
    var r := ApplyToBucket(b[i], keyPred, valFunc);
    var e' := Elems(r);
    assert VecValid(b[i].value);
    forall s, t | 0 <= s < t < |e'| ensures e'[s] != e'[t] {
      if e'[s] == e'[t] {
        assert e[s].key == e[t].key;
        KeyUnique(b, hash, m, i, s, t);
      }
    }
  }

  class HashMap<K(==), V(==)> {
    var capacity: nat
    var size: nat
    const hash: K -> nat
    /**
     * The slot table. hash_map_update replaces it by a new one; insert,
     * erase and apply_if update single slots.
     */
    var buckets: seq<Bucket<K, V>>
    /** The key-to-value mapping the table stands for. */
    ghost var Contents: map<K, V>

    /** The table represents Contents at the current capacity, a power of two. */
    ghost predicate TableValid()
      reads this
    {
      |buckets| == capacity && IsPow2(capacity) && TableOk(buckets, hash, Contents)
    }

    /** TableValid, plus: size counts the entries and the load factor is at most 0.75. */
    ghost predicate Valid()
      reads this
    {
      TableValid() && size == |Contents| && 4 * size <= 3 * capacity
    }

    /** hashmap_alloc once its allocations succeed: HASH_MAP_INITIAL_CAP NULL slots. */
    constructor (hash: K -> nat)
      ensures Valid()
      ensures this.hash == hash && size == 0 && capacity == HASH_MAP_INITIAL_CAP && Contents == map[]
      ensures forall i :: 0 <= i < |buckets| ==> buckets[i] == None
    {
      this.hash := hash;
      capacity := HASH_MAP_INITIAL_CAP;
      size := 0;
      buckets := seq(HASH_MAP_INITIAL_CAP, _ => None);
      Contents := map[];
      new;
      assert IsPow2(2) && IsPow2(4) && IsPow2(8);
      EmptyTableOk(buckets, hash);
    }

    /** hashmap_get_load_factor: size / capacity, which the map keeps at most 0.75. */
    function LoadFactor(): (r: real)
      reads this
      requires Valid()
      ensures 0.0 <= r <= MAX_LOAD_FACTOR
      ensures r == 0.0 <==> Contents == map[]
    {
      LoadFactorBounds(size, capacity);
      Sizing.LoadFactor(size, capacity)
    }

    /** hashmap_at: the value stored with key, or None (NULL) when the key is absent. */
    method At(key: K) returns (r: Option<V>)
      requires TableValid()
      ensures r == if key in Contents then Some(Contents[key]) else None
    {
      var index := BucketIndex(hash(key), capacity);
      var bucket := buckets[index];
      if key in Contents {
        InSlot(buckets, hash, Contents, key);
      }
      if bucket.None? {
        return None;
      }
      var e := bucket.value.elems;
      var i := 0;
      while i < |e|
        invariant 0 <= i <= |e|
        invariant forall t :: 0 <= t < i ==> e[t].key != key
      {
        if e[i].key == key {
          assert e[i] in Elems(buckets[index]);
          return Some(e[i].value);
        }
        i := i + 1;
      }
      return None;
    }

    /**
     * hash_map_update up to, but not including, installing the result: a
     * new table of newCapacity slots holding every pair. It fails only
     * when it must allocate (the map is not empty) and allocOk says
     * allocation fails.
     */
    method Rebuild(newCapacity: nat, allocOk: bool) returns (ok: bool, table: seq<Bucket<K, V>>)
      requires TableValid() && IsPow2(newCapacity)
      ensures |table| == newCapacity
      ensures ok <==> allocOk || Contents == map[]
      ensures ok ==> TableOk(table, hash, Contents)
    {
      table := seq(newCapacity, _ => None);
      EmptyTableOk(table, hash);
      ghost var moved: map<K, V> := map[];
      var i := 0;
      while i < capacity
        invariant 0 <= i <= capacity
        invariant |table| == newCapacity
        invariant TableOk(table, hash, moved)
        invariant MovedUpTo(moved, Contents, hash, capacity, i, [])
        invariant !allocOk ==> moved == map[]
      {
        var slotOk;
        slotOk, table, moved := RehashSlot(table, i, allocOk, moved);
        if !slotOk {
          return false, table;
        }
        i := i + 1;
      }
      MovedAll(moved, Contents, hash, capacity);
      return true, table;
    }

    /** hash_map_update: rebuild the table at newCapacity and install it; the capacity field is left to the caller. */
    method Rehash(newCapacity: nat, allocOk: bool) returns (ok: bool)
      requires TableValid() && IsPow2(newCapacity)
      modifies this`buckets
      ensures ok <==> allocOk || Contents == map[]
      ensures ok ==> |buckets| == newCapacity && TableOk(buckets, hash, Contents)
      ensures !ok ==> buckets == old(buckets)
    {
      var table;
      ok, table := Rebuild(newCapacity, allocOk);
      if ok {
        buckets := table;
      }
    }

    /** The inner loop of hash_map_update: move the pairs of slot i into table. */
    method RehashSlot(table: seq<Bucket<K, V>>, i: nat, allocOk: bool, ghost moved: map<K, V>)
      returns (ok: bool, table': seq<Bucket<K, V>>, ghost moved': map<K, V>)
      requires TableValid() && i < capacity && |table| > 0
      requires TableOk(table, hash, moved) && MovedUpTo(moved, Contents, hash, capacity, i, [])
      requires !allocOk ==> moved == map[]
      ensures |table'| == |table|
      ensures !ok ==> !allocOk && Contents != map[]
      ensures ok ==> TableOk(table', hash, moved') && MovedUpTo(moved', Contents, hash, capacity, i + 1, [])
      ensures ok && !allocOk ==> moved' == map[]
    {
      table' := table;
      moved' := moved;
      ok := true;
      var e := Elems(buckets[i]);
      var j := 0;
      while j < |e|
        invariant 0 <= j <= |e|
        invariant |table'| == |table|
        invariant TableOk(table', hash, moved') && MovedUpTo(moved', Contents, hash, capacity, i, e[..j])
        invariant !allocOk ==> moved' == map[]
      {
        var p := e[j];
        SlotStep(buckets, hash, Contents, i, j, moved');
        ok, table' := AddToSlot(table', p.key, p.value, allocOk, allocOk, allocOk, moved');
        if !ok {
          assert p in Elems(buckets[i]);
          return;
        }
        moved' := moved'[p.key := p.value];
        j := j + 1;
      }
      assert e[..j] == e;
      SlotDone(buckets, hash, Contents, i, moved');
    }

    /**
     * The slot step of hashmap_insert and of hash_map_update: a NULL slot
     * first gets a fresh vector (vector_alloc, vecAllocOk), which is stored
     * in the slot at once; then the pair is pushed onto the slot's vector
     * (vector_push_back: growOk for its growth, copyOk for the copy of the
     * pair). Only that slot changes. A failed push leaves what the C code
     * leaves: the fresh empty vector, or the old pairs in a vector whose
     * growth already took place.
     */
    method AddToSlot(table: seq<Bucket<K, V>>, key: K, value: V, vecAllocOk: bool, growOk: bool, copyOk: bool,
                     ghost m: map<K, V>)
      returns (ok: bool, table': seq<Bucket<K, V>>)
      requires |table| > 0 && TableOk(table, hash, m) && key !in m
      ensures |table'| == |table|
      ensures forall j :: 0 <= j < |table| && j != BucketIndex(hash(key), |table|) ==> table'[j] == table[j]
      ensures ok <==> PushSucceeds(table[BucketIndex(hash(key), |table|)], vecAllocOk, growOk, copyOk)
      ensures ok ==> TableOk(table', hash, m[key := value])
                     && Pair(key, value) in Elems(table'[BucketIndex(hash(key), |table|)])
      ensures !ok ==> TableOk(table', hash, m)
      ensures !ok ==> FailedPushLeaves(table[BucketIndex(hash(key), |table|)], table'[BucketIndex(hash(key), |table|)],
                                       vecAllocOk, growOk)
    {
      var index := BucketIndex(hash(key), |table|);
      var target := table[index];
      if target.None? && !vecAllocOk {
        return false, table;
      }
      var vec := VecOf(target);
      if target.None? {
        EmptyValid<Pair<K, V>>();
      }
      assert Pair(key, value) !in vec.elems;
      var (pushed, pushOk) := VecPushBack(vec, Pair(key, value), growOk, copyOk);
      PushBackAppends(vec, Pair(key, value), growOk, copyOk);
      PushBackCapacity(vec, Pair(key, value), growOk, copyOk);
      if !pushOk {
        PushBackValid(vec, Pair(key, value), growOk, copyOk);
        SlotReplaced(table, hash, m, index, pushed);
        return false, table[index := Some(pushed)];
      }
      TableInsert(table, hash, m, key, value, pushed, growOk, copyOk);
      assert Pair(key, value) in pushed.elems;
      return true, table[index := Some(pushed)];
    }

    /**
     * hashmap_insert. A key already present is refused (hashmap_at is
     * consulted first). Otherwise the size grows by one; if the load factor
     * then exceeds 0.75 the table is rehashed to twice the capacity (failure:
     * size rolled back, 0). The pair is then added to its slot by AddToSlot
     * (failure: size rolled back, 0, the larger table and whatever the slot
     * step left in the slot kept). Success needs the copy of the pair, and
     * follows when every allocation succeeds.
     */
    method Insert(key: K, value: V, rehashOk: bool, vecAllocOk: bool, growOk: bool, copyOk: bool)
      returns (inserted: bool)
      requires Valid()
      modifies this
      ensures Valid()
      ensures inserted ==> key !in old(Contents) && copyOk
                           && (!AboveMaxLoad(old(size) + 1, old(capacity)) || rehashOk || old(Contents) == map[])
      ensures (key !in old(Contents) && vecAllocOk && growOk && copyOk
               && (!AboveMaxLoad(old(size) + 1, old(capacity)) || rehashOk || old(Contents) == map[])) ==> inserted
      ensures inserted ==> Contents == old(Contents)[key := value] && size == old(size) + 1
                           && Pair(key, value) in Elems(buckets[BucketIndex(hash(key), capacity)])
      ensures !inserted ==> Contents == old(Contents) && size == old(size)
      ensures capacity == if key !in old(Contents) && AboveMaxLoad(old(size) + 1, old(capacity))
                                && (rehashOk || old(Contents) == map[])
                             then 2 * old(capacity) else old(capacity)
      ensures key in old(Contents) || (AboveMaxLoad(old(size) + 1, old(capacity)) && !rehashOk && old(Contents) != map[])
              ==> !inserted && buckets == old(buckets)
      ensures key !in old(Contents) && !AboveMaxLoad(old(size) + 1, old(capacity)) ==>
                var i := BucketIndex(hash(key), old(capacity));
                (inserted <==> PushSucceeds(old(buckets)[i], vecAllocOk, growOk, copyOk))
                && (forall j :: 0 <= j < old(capacity) && j != i ==> buckets[j] == old(buckets)[j])
                && (!inserted ==> FailedPushLeaves(old(buckets)[i], buckets[i], vecAllocOk, growOk))
    {
      var found := At(key);
      if found.Some? {
        return false;
      }
      inserted := InsertAbsent(key, value, rehashOk, vecAllocOk, growOk, copyOk);
    }

    /** hashmap_insert once the key is known to be absent: the size step, the rehash and the slot step. */
    method InsertAbsent(key: K, value: V, rehashOk: bool, vecAllocOk: bool, growOk: bool, copyOk: bool)
      returns (inserted: bool)
      requires Valid() && key !in Contents
      modifies this
      ensures Valid()
      ensures inserted ==> copyOk && (!AboveMaxLoad(old(size) + 1, old(capacity)) || rehashOk || old(Contents) == map[])
      ensures (vecAllocOk && growOk && copyOk
               && (!AboveMaxLoad(old(size) + 1, old(capacity)) || rehashOk || old(Contents) == map[])) ==> inserted
      ensures inserted ==> Contents == old(Contents)[key := value] && size == old(size) + 1
                           && Pair(key, value) in Elems(buckets[BucketIndex(hash(key), capacity)])
      ensures !inserted ==> Contents == old(Contents) && size == old(size)
      ensures capacity == if AboveMaxLoad(old(size) + 1, old(capacity)) && (rehashOk || old(Contents) == map[])
                          then 2 * old(capacity) else old(capacity)
      ensures AboveMaxLoad(old(size) + 1, old(capacity)) && !rehashOk && old(Contents) != map[]
              ==> !inserted && buckets == old(buckets)
      ensures !AboveMaxLoad(old(size) + 1, old(capacity)) ==>
                var i := BucketIndex(hash(key), old(capacity));
                (inserted <==> PushSucceeds(old(buckets)[i], vecAllocOk, growOk, copyOk))
                && (forall j :: 0 <= j < old(capacity) && j != i ==> buckets[j] == old(buckets)[j])
                && (!inserted ==> FailedPushLeaves(old(buckets)[i], buckets[i], vecAllocOk, growOk))
    {
      size := size + 1;
      if AboveMaxLoad(size, capacity) {
        Pow2Double(capacity);
        var rehashed := Rehash(capacity * VECTOR_GROWTH_FACTOR, rehashOk);
        if !rehashed {
          size := size - 1;
          return false;
        }
        capacity := capacity * VECTOR_GROWTH_FACTOR;
      }
      var table;
      inserted, table := AddToSlot(buckets, key, value, vecAllocOk, growOk, copyOk, Contents);
      buckets := table;
      if !inserted {
        size := size - 1;
        return false;
      }
      AddCard(Contents, key, value);
      Contents := Contents[key := value];
    }

    /**
     * hashmap_erase, corrected: the key is looked up first and an absent key
     * fails with the map unchanged. Then, as in the C code, the table is
     * rehashed to half the capacity if one pair fewer would leave the load
     * factor below 0.25, and the pair is erased from its slot's vector
     * (whose own shrink may need an allocation, allocOk). The halved table
     * is installed only once that erase succeeded, so a failed erase
     * changes nothing.
     */
    method Erase(key: K, rehashOk: bool, allocOk: bool) returns (erased: bool)
      requires Valid()
      modifies this
      ensures Valid()
      ensures erased ==> key in old(Contents) && (rehashOk || !BelowMinLoad(old(size) - 1, old(capacity)))
      ensures key in old(Contents) && allocOk && (rehashOk || !BelowMinLoad(old(size) - 1, old(capacity))) ==> erased
      ensures erased ==> Contents == old(Contents) - {key} && size == old(size) - 1
      ensures !erased ==> Contents == old(Contents) && size == old(size) && capacity == old(capacity)
                          && buckets == old(buckets)
      ensures erased ==> capacity == if BelowMinLoad(old(size) - 1, old(capacity)) then old(capacity) / 2 else old(capacity)
    {
      var found := At(key);
      if found.None? {
        return false;
      }
      var newCapacity := capacity;
      var table := buckets;
      if BelowMinLoad(size - 1, capacity) {
        if capacity == 1 {
          assert false;
        }
        Pow2Half(capacity);
        newCapacity := capacity / VECTOR_GROWTH_FACTOR;
        var rebuilt;
        rebuilt, table := Rebuild(newCapacity, rehashOk);
        if !rebuilt {
          return false;
        }
      }
      var removed;
      removed, table := RemoveFromSlot(table, key, allocOk, Contents);
      if !removed {
        return false;
      }
      RemoveCard(Contents, key);
      buckets := table;
      capacity := newCapacity;
      Contents := Contents - {key};
      size := size - 1;
      return true;
    }

    /**
     * The bucket part of hashmap_erase: find key's pair in its slot's
     * vector and erase it there. Only that slot changes, and only when the
     * vector erase succeeds.
     */
    method RemoveFromSlot(table: seq<Bucket<K, V>>, key: K, allocOk: bool, ghost m: map<K, V>)
      returns (ok: bool, table': seq<Bucket<K, V>>)
      requires TableOk(table, hash, m) && key in m
      ensures |table'| == |table|
      ensures ok <==> allocOk || !BucketMustShrink(table, hash, key)
      ensures ok ==> TableOk(table', hash, m - {key})
                     && forall j :: 0 <= j < |table| && j != BucketIndex(hash(key), |table|) ==> table'[j] == table[j]
      ensures !ok ==> table' == table
    {
      var index := BucketIndex(hash(key), |table|);
      var target := table[index];
      InSlot(table, hash, m, key);
      var e := target.value.elems;
      var i := 0;
      while i < |e| && e[i].key != key
        invariant 0 <= i <= |e|
        invariant forall t :: 0 <= t < i ==> e[t].key != key
      {
        i := i + 1;
      }
      if i == |e| {
        assert false;
      }
      var (shrunk, eraseOk) := VecErase(target.value, i, allocOk);
      if !eraseOk {
        return false, table;
      }
      TableRemove(table, hash, m, key, i, shrunk, allocOk);
      return true, table[index := Some(shrunk)];
    }

    /**
     * hashmap_apply_if: -1 when either function is missing (NULL);
     * otherwise every value whose key satisfies keyPred is replaced by
     * valFunc of it, and the number of such pairs is returned. Keys, size,
     * capacity and placement are unchanged.
     */
    method ApplyIf(keyPred: Option<K -> bool>, valFunc: Option<V -> V>) returns (count: int)
      requires Valid()
      modifies this`Contents, this`buckets
      ensures Valid()
      ensures keyPred.None? || valFunc.None? ==> count == -1 && Contents == old(Contents) && buckets == old(buckets)
      ensures keyPred.Some? && valFunc.Some? ==>
        && count == |set k | k in old(Contents) && keyPred.value(k)|
        && Contents == ApplyToMap(old(Contents), keyPred.value, valFunc.value)
        && buckets == ApplyToTable(old(buckets), keyPred.value, valFunc.value)
    {
      if keyPred.None? || valFunc.None? {
        return -1;
      }
      count := ApplyAll(keyPred.value, valFunc.value);
    }

    /** hashmap_apply_if once both functions are present. */
    method ApplyAll(pred: K -> bool, f: V -> V) returns (count: nat)
      requires Valid()
      modifies this`Contents, this`buckets
      ensures Valid()
      ensures count == |set k | k in old(Contents) && pred(k)|
      ensures Contents == ApplyToMap(old(Contents), pred, f)
      ensures buckets == ApplyToTable(old(buckets), pred, f)
    {
      ghost var b0 := buckets;
      ghost var m0 := Contents;
      ghost var hit;
      count, hit := ApplyToSlots(pred, f);
      TableApply(b0, hash, m0, pred, f);
      assert hit == set k | k in m0 && pred(k);
      Contents := ApplyToMap(m0, pred, f);
      SameKeysCard(m0, Contents);
    }

    /** The outer loop of hashmap_apply_if, over every slot. */
    method ApplyToSlots(pred: K -> bool, f: V -> V) returns (count: nat, ghost hit: set<K>)
      requires TableValid()
      modifies this`buckets
      ensures buckets == ApplyToTable(old(buckets), pred, f)
      ensures count == |hit|
      ensures forall k :: k in hit <==> k in Contents && pred(k)
    {
      ghost var b0 := buckets;
      hit := {};
      count := 0;
      var i := 0;
      while i < capacity
        invariant 0 <= i <= capacity == |buckets|
        invariant forall t :: 0 <= t < i ==> buckets[t] == ApplyToBucket(b0[t], pred, f)
        invariant forall t :: i <= t < capacity ==> buckets[t] == b0[t]
        invariant count == |hit|
        invariant forall k :: k in hit <==> k in Contents && pred(k) && BucketIndex(hash(k), capacity) < i
      {
        var slot, added, slotHits := ApplyToSlot(b0, buckets[i], i, pred, f);
        assert hit * slotHits == {};
        hit := hit + slotHits;
        count := count + added;
        buckets := buckets[i := slot];
        i := i + 1;
      }
      assert buckets == ApplyToTable(b0, pred, f);
    }

    /** One slot of hashmap_apply_if, the loop being ApplyToPairs. */
    method ApplyToSlot(ghost b0: seq<Bucket<K, V>>, bucket: Bucket<K, V>, i: nat, pred: K -> bool, f: V -> V)
      returns (slot: Bucket<K, V>, added: nat, ghost slotHits: set<K>)
      requires |b0| == capacity && TableOk(b0, hash, Contents)
      requires i < capacity && bucket == b0[i]
      ensures slot == ApplyToBucket(bucket, pred, f)
      ensures added == |slotHits|
      ensures forall k :: k in slotHits <==> k in Contents && pred(k) && BucketIndex(hash(k), capacity) == i
    {
      if bucket.None? {
        forall k | k in Contents && BucketIndex(hash(k), capacity) == i ensures false {
          InSlot(b0, hash, Contents, k);
        }
        return None, 0, {};
      }
      var e := bucket.value.elems;
      forall s, t | 0 <= s < t < |e| ensures e[s].key != e[t].key {
        if e[s].key == e[t].key {
          KeyUnique(b0, hash, Contents, i, s, t);
        }
      }
      var updated;
      updated, added := ApplyToPairs(e, pred, f);
      slotHits := SelectedKeys(e, pred);
      forall k ensures k in slotHits <==> k in Contents && pred(k) && BucketIndex(hash(k), capacity) == i {
        SelectedKeysIn(e, pred, k);
        if k in Contents && BucketIndex(hash(k), capacity) == i {
          InSlot(b0, hash, Contents, k);
        }
        if k in slotHits {
          var t :| 0 <= t < |e| && e[t].key == k;
          assert e[t] in Elems(b0[i]);
        }
      }
      slot := Some(Vec(updated, bucket.value.capacity));
      assert Elems(ApplyToBucket(b0[i], pred, f)) == updated;
    }
  }

  /**
   * The inner loop of hashmap_apply_if over one vector of pairs with
   * distinct keys: the updated pairs, and how many keys satisfied keyPred.
   */
  method ApplyToPairs<K, V>(e: seq<Pair<K, V>>, keyPred: K -> bool, valFunc: V -> V) returns (updated: seq<Pair<K, V>>, count: nat)
    requires forall s, t :: 0 <= s < t < |e| ==> e[s].key != e[t].key
    ensures |updated| == |e|
    ensures forall t :: 0 <= t < |e| ==> updated[t] == ApplyToPair(e[t], keyPred, valFunc)
    ensures count == |SelectedKeys(e, keyPred)|
  {
    updated := [];
    count := 0;
    var j := 0;
    while j < |e|
      invariant 0 <= j <= |e|
      invariant |updated| == j
      invariant forall t :: 0 <= t < j ==> updated[t] == ApplyToPair(e[t], keyPred, valFunc)
      invariant count == |SelectedKeys(e[..j], keyPred)|
    {
      var p := e[j];
      assert e[..j + 1][..j] == e[..j];
      if keyPred(p.key) {
        SelectedKeysIn(e[..j], keyPred, p.key);
        count := count + 1;
      }
      updated := updated + [ApplyToPair(p, keyPred, valFunc)];
      j := j + 1;
    }
    assert e[..j] == e;
  }

  /** The keys of the pairs in s that keyPred selects. */
  ghost function SelectedKeys<K, V>(s: seq<Pair<K, V>>, keyPred: K -> bool): set<K>
  {
    if |s| == 0 then {}
    else SelectedKeys(s[..|s| - 1], keyPred) + (if keyPred(s[|s| - 1].key) then {s[|s| - 1].key} else {})
  }

  /** k is selected exactly when some pair of s has key k and keyPred holds of k. */
  lemma {:induction false} SelectedKeysIn<K, V>(s: seq<Pair<K, V>>, keyPred: K -> bool, k: K)
    ensures k in SelectedKeys(s, keyPred) <==> keyPred(k) && exists t :: 0 <= t < |s| && s[t].key == k
  {
    if |s| > 0 {
      var s' := s[..|s| - 1];
      SelectedKeysIn(s', keyPred, k);
      if exists t :: 0 <= t < |s'| && s'[t].key == k {
        var t :| 0 <= t < |s'| && s'[t].key == k;
        assert s[t].key == k;
      }
      if exists t :: 0 <= t < |s| && s[t].key == k {
        var t :| 0 <= t < |s| && s[t].key == k;
        if t < |s'| {
          assert s'[t].key == k;
        }
      }
    }
  }

  /** Whether erasing key's pair would make its slot's vector shrink (and so allocate). */
  ghost predicate BucketMustShrink<K, V>(b: seq<Bucket<K, V>>, hash: K -> nat, key: K)
    requires |b| > 0
  {
    var v := VecOf(b[BucketIndex(hash(key), |b|)]);
    |v.elems| >= 1 && BelowMinLoad(|v.elems| - 1, v.capacity)
  }

  /**
   * hashmap_alloc: NULL (None here) when the hash function is missing or an
   * allocation fails; otherwise an empty map of HASH_MAP_INITIAL_CAP NULL
   * slots whose load factor is 0.
   */
  method Alloc<K(==), V(==)>(hashFunc: Option<K -> nat>, allocOk: bool) returns (m: HashMap?<K, V>)
    ensures m == null <==> hashFunc.None? || !allocOk
    ensures m != null ==> fresh(m) && m.Valid() && m.hash == hashFunc.value
                          && m.size == 0 && m.capacity == HASH_MAP_INITIAL_CAP && m.Contents == map[]
                          && (forall i :: 0 <= i < |m.buckets| ==> m.buckets[i] == None)
                          && m.LoadFactor() == 0.0
  {
    if !allocOk {
      return null;
    }
    if hashFunc.None? {
      return null;
    }
    m := new HashMap(hashFunc.value);
  }
}

=== FILE: hashmap_scenarios.dfy ===
/**
 * The resize behaviour of the ex4 hash map on its (size, capacity)
 * counters: the load-factor scenario of ex4/test_suite.c, run both on the
 * counters and on the HashMap class itself, and the erase of hashmap_erase
 * as written, whose shrink check runs before the key is looked up.
 */
module HashMapScenarios {
  import opened Sizing
  import opened HashMap

  /** The two counters of a hash map. */
  datatype Load = Load(size: nat, capacity: nat)

  /** The counters after inserting a new key, every allocation succeeding. */
  function AfterInsert(l: Load): (r: Load)
    ensures r.size == l.size + 1
  {
    if AboveMaxLoad(l.size + 1, l.capacity) then Load(l.size + 1, l.capacity * VECTOR_GROWTH_FACTOR)
    else Load(l.size + 1, l.capacity)
  }

  /** The counters after erasing a present key, every allocation succeeding. */
  function AfterErase(l: Load): (r: Load)
    requires l.size >= 1
    ensures r.size == l.size - 1
  {
    if BelowMinLoad(l.size - 1, l.capacity) then Load(l.size - 1, l.capacity / VECTOR_GROWTH_FACTOR)
    else Load(l.size - 1, l.capacity)
  }

  /** n successive inserts of new keys. */
  function Inserts(l: Load, n: nat): (r: Load)
    ensures r.size == l.size + n
    decreases n
  {
    if n == 0 then l else AfterInsert(Inserts(l, n - 1))
  }

  /** n successive erases of present keys. */
  function Erases(l: Load, n: nat): (r: Load)
    requires n <= l.size
    ensures r.size == l.size - n
    decreases n
  {
    if n == 0 then l else AfterErase(Erases(l, n - 1))
  }

  lemma InsertsStep(l: Load, n: nat)
    ensures Inserts(l, n + 1) == AfterInsert(Inserts(l, n))
  {
  }

  lemma ErasesStep(l: Load, n: nat)
    requires n < l.size
    ensures Erases(l, n + 1) == AfterErase(Erases(l, n))
  {
  }

  lemma {:induction false} InsertsSplit(l: Load, a: nat, b: nat)
    ensures Inserts(l, a + b) == Inserts(Inserts(l, a), b)
    decreases b
  {
    if b > 0 {
      InsertsSplit(l, a, b - 1);
    }
  }

  /** Inserts that keep the load at or below 0.75 never grow the table. */
  lemma {:induction false} InsertsNoGrow(l: Load, n: nat)
    requires 4 * (l.size + n) <= 3 * l.capacity
    ensures Inserts(l, n) == Load(l.size + n, l.capacity)
    decreases n
  {
    if n > 0 {
      InsertsNoGrow(l, n - 1);
    }
  }

  lemma {:induction false} ErasesSplit(l: Load, a: nat, b: nat)
    requires a + b <= l.size
    ensures Erases(l, a + b) == Erases(Erases(l, a), b)
    decreases b
  {
    if b > 0 {
      ErasesSplit(l, a, b - 1);
    }
  }

  /** Erases that keep the load at or above 0.25 never shrink the table. */
  lemma {:induction false} ErasesNoShrink(l: Load, n: nat)
    requires n <= l.size && 4 * (l.size - n) >= l.capacity
    ensures Erases(l, n) == Load(l.size - n, l.capacity)
    decreases n
  {
    if n > 0 {
      ErasesNoShrink(l, n - 1);
    }
  }

  /** n inserts without growth followed by one that doubles the capacity. */
  lemma InsertsThenGrow(l: Load, n: nat)
    requires 4 * (l.size + n) <= 3 * l.capacity < 4 * (l.size + n + 1)
    ensures Inserts(l, n + 1) == Load(l.size + n + 1, 2 * l.capacity)
  {
    InsertsNoGrow(l, n);
  }

  /** n erases without shrinking followed by one that halves the capacity. */
  lemma ErasesThenShrink(l: Load, n: nat)
    requires n < l.size && 4 * (l.size - n - 1) < l.capacity <= 4 * (l.size - n)
    ensures Erases(l, n + 1) == Load(l.size - n - 1, l.capacity / 2)
  {
    ErasesNoShrink(l, n);
  }

  /**
   * test_hash_map_get_load_factor on the counters: from the initial
   * counters l, 18 inserts give capacity 32 and 32 more give 128; erasing
   * 20 keys then gives 64 and erasing the other 30 gives 2.
   */
  lemma LoadFactorScenario(l: Load)
    requires l == Load(0, HASH_MAP_INITIAL_CAP)
    ensures Inserts(l, 18) == Load(18, 32)
    ensures Inserts(Inserts(l, 18), 32) == Load(50, 128)
    ensures Erases(Inserts(Inserts(l, 18), 32), 20) == Load(30, 64)
    ensures Erases(Erases(Inserts(Inserts(l, 18), 32), 20), 30) == Load(0, 2)
  {
    InsertsThenGrow(l, 12);
    var a := Inserts(l, 13);
    InsertsNoGrow(a, 5);
    InsertsSplit(l, 13, 5);

    var b := Inserts(l, 18);
    InsertsThenGrow(b, 6);
    var c := Inserts(b, 7);
    InsertsThenGrow(c, 23);
    InsertsSplit(b, 7, 24);
    var d := Inserts(b, 31);
    InsertsNoGrow(d, 1);
    InsertsSplit(b, 31, 1);

    var e := Inserts(b, 32);
    ErasesThenShrink(e, 18);
    var f := Erases(e, 19);
    ErasesNoShrink(f, 1);
    ErasesSplit(e, 19, 1);

    var g := Erases(e, 20);
    ErasesThenShrink(g, 14);
    var h := Erases(g, 15);
    ErasesThenShrink(h, 7);
    ErasesSplit(g, 15, 8);
    var i := Erases(g, 23);
    ErasesThenShrink(i, 3);
    ErasesSplit(g, 23, 4);
    var j := Erases(g, 27);
    ErasesThenShrink(j, 1);
    ErasesSplit(g, 27, 2);
    var k := Erases(g, 29);
    ErasesThenShrink(k, 0);
    ErasesSplit(g, 29, 1);
  }

  /** The load factors the test expects at its checkpoints. */
  lemma LoadFactorValues()
    ensures LoadFactor(18, 32) == 0.5625
    ensures LoadFactor(50, 128) == 0.390625
    ensures LoadFactor(30, 64) == 0.46875
  {
    assert 0.5625 * 32.0 == 18.0;
    assert 0.390625 * 128.0 == 50.0;
    assert 0.46875 * 64.0 == 30.0;
  }

  /** The keys of m are exactly lo..hi-1. */
  ghost predicate KeysAre(m: map<nat, nat>, lo: nat, hi: nat)
  {
    forall j :: j in m <==> lo <= j < hi
  }

  lemma KeysAreAdd(m: map<nat, nat>, k: nat)
    requires KeysAre(m, 0, k)
    ensures k !in m && KeysAre(m[k := k], 0, k + 1)
  {
  }

  lemma KeysAreRemove(m: map<nat, nat>, k: nat, hi: nat)
    requires k < hi && KeysAre(m, k, hi)
    ensures k in m && KeysAre(m - {k}, k + 1, hi)
  {
  }

  /**
   * The same scenario run on the HashMap class with the identity hash and
   * keys 0..49: the capacities the test checks at its checkpoints, and the
   * load factors there.
   */
  method RunLoadFactorScenario() returns (caps: seq<nat>, loads: seq<real>)
    ensures caps == [16, 32, 128, 64, 2]
    ensures loads == [0.0, 0.5625, 0.390625, 0.46875, 0.0]
  {
    LoadFactorValues();
    var m := new HashMap<nat, nat>(k => k);
    ghost var l := Load(m.size, m.capacity);
    LoadFactorScenario(l);
    var c0, l0 := m.capacity, m.LoadFactor();
    InsertKeys(m, 0, 18);
    ghost var l1 := Load(m.size, m.capacity);
    assert l1 == Inserts(l, 18) == Load(18, 32);
    var c1, lf1 := m.capacity, m.LoadFactor();
    InsertKeys(m, 18, 50);
    ghost var l2 := Load(m.size, m.capacity);
    assert l2 == Inserts(l1, 32) == Load(50, 128);
    var c2, lf2 := m.capacity, m.LoadFactor();
    EraseKeys(m, 0, 20, 50);
    ghost var l3 := Load(m.size, m.capacity);
    assert l3 == Erases(l2, 20) == Load(30, 64);
    var c3, lf3 := m.capacity, m.LoadFactor();
    EraseKeys(m, 20, 50, 50);
    ghost var l4 := Load(m.size, m.capacity);
    assert l4 == Erases(l3, 30) == Load(0, 2);
    var c4, lf4 := m.capacity, m.LoadFactor();
    caps := [c0, c1, c2, c3, c4];
    loads := [l0, lf1, lf2, lf3, lf4];
  }

  /** m is valid with keys 0..k-1, and its counters are those of n inserts from l0. */
  ghost predicate Inserted(m: HashMap<nat, nat>, k: nat, l0: Load, n: nat)
    reads m
  {
    m.Valid() && KeysAre(m.Contents, 0, k) && Load(m.size, m.capacity) == Inserts(l0, n)
  }

  /** hashmap_insert of the new key k into a map with keys 0..k-1, every allocation succeeding, on the counters. */
  method InsertNew(m: HashMap<nat, nat>, k: nat, ghost l0: Load, ghost n: nat)
    requires Inserted(m, k, l0, n)
    modifies m
    ensures m.Contents == old(m.Contents)[k := k]
    ensures Load(m.size, m.capacity) == AfterInsert(Load(old(m.size), old(m.capacity)))
    ensures Inserted(m, k + 1, l0, n + 1)
  {
    KeysAreAdd(m.Contents, k);
    InsertsStep(l0, n);
    var ok := m.Insert(k, k, true, true, true, true);
  }

  /** hashmap_erase of the present key k from a map with keys k..hi-1, every allocation succeeding, on the counters. */
  method ErasePresent(m: HashMap<nat, nat>, k: nat, hi: nat)
    requires m.Valid() && k < hi && KeysAre(m.Contents, k, hi)
    modifies m
    ensures m.Valid() && m.Contents == old(m.Contents) - {k} && KeysAre(m.Contents, k + 1, hi)
    ensures old(m.size) >= 1 && Load(m.size, m.capacity) == AfterErase(Load(old(m.size), old(m.capacity)))
  {
    KeysAreRemove(m.Contents, k, hi);
    var ok := m.Erase(k, true, true);
  }

  /** Insert the new keys from..to-1 into m, whose keys are 0..from-1. */
  method InsertKeys(m: HashMap<nat, nat>, from: nat, to: nat)
    requires m.Valid() && from <= to && KeysAre(m.Contents, 0, from)
    modifies m
    ensures m.Valid() && KeysAre(m.Contents, 0, to)
    ensures Load(m.size, m.capacity) == Inserts(Load(old(m.size), old(m.capacity)), to - from)
  {
    ghost var l0 := Load(m.size, m.capacity);
    ghost var n: nat := 0;
    var k := from;
    while k < to
      invariant from <= k <= to && n == k - from
      invariant Inserted(m, k, l0, n)
    {
      InsertNew(m, k, l0, n);
      k := k + 1;
      n := n + 1;
    }
  }

  /** Erase the present keys from..to-1 of m, whose keys are from..hi-1. */
  method EraseKeys(m: HashMap<nat, nat>, from: nat, to: nat, hi: nat)
    requires m.Valid() && from <= to <= hi && to - from <= m.size && KeysAre(m.Contents, from, hi)
    modifies m
    ensures m.Valid() && KeysAre(m.Contents, to, hi)
    ensures Load(m.size, m.capacity) == Erases(Load(old(m.size), old(m.capacity)), to - from)
  {
    ghost var l0 := Load(m.size, m.capacity);
    ghost var n: nat := 0;
    var k := from;
    while k < to
      invariant from <= k <= to && n == k - from
      invariant m.Valid() && KeysAre(m.Contents, k, hi)
      invariant Load(m.size, m.capacity) == Erases(l0, n)
    {
      ErasesStep(l0, n);
      ErasePresent(m, k, hi);
      k := k + 1;
      n := n + 1;
    }
  }

  /**
   * hashmap_erase as written, on the counters, every allocation
   * succeeding: the size is lowered and the shrink rehash runs before the
   * key is looked up, so an erase that fails for an absent key still
   * halves the capacity. On an empty map the lowered size wraps around to
   * SIZE_MAX, the load factor is then far above 0.25, and the size is
   * restored. The boolean is the function's result.
   */
  function EraseAsWritten(l: Load, present: bool): (r: (Load, bool))
    ensures !present ==> r.0.size == l.size && !r.1
    ensures present && l.size >= 1 ==> r == (AfterErase(l), true)
  {
    if l.size == 0 then (l, false)
    else
      var capacity := if BelowMinLoad(l.size - 1, l.capacity) then l.capacity / VECTOR_GROWTH_FACTOR else l.capacity;
      if present then (Load(l.size - 1, capacity), true) else (Load(l.size, capacity), false)
  }

  /** n erases of an absent key, as written. */
  function AbsentErasesAsWritten(l: Load, n: nat): (r: Load)
    ensures r.size == l.size
    decreases n
  {
    if n == 0 then l else EraseAsWritten(AbsentErasesAsWritten(l, n - 1), false).0
  }

  /**
   * The discrepancy: a map holding one pair at capacity 16 loses half its
   * capacity on every erase of an absent key, and the fifth such erase
   * asks hash_map_update for a table of capacity 0 while a pair is
   * stored, where the mask capacity - 1 wraps around and the pair is
   * written outside the zero-length table.
   */
  lemma AbsentEraseReachesCapacityZero()
    ensures EraseAsWritten(Load(1, 16), false) == (Load(1, 8), false)
    ensures AbsentErasesAsWritten(Load(1, 16), 4) == Load(1, 1)
    ensures AbsentErasesAsWritten(Load(1, 16), 5) == Load(1, 0)
  {
    assert AbsentErasesAsWritten(Load(1, 16), 1) == Load(1, 8);
    assert AbsentErasesAsWritten(Load(1, 16), 2) == Load(1, 4);
    assert AbsentErasesAsWritten(Load(1, 16), 3) == Load(1, 2);
  }

  /**
   * The corrected HashMap.Erase on the same input: after inserting one key,
   * five erases of an absent key fail and leave size 1 and capacity 16.
   */
  method RunAbsentEraseScenario() returns (size: nat, capacity: nat, anyErased: bool)
    ensures size == 1 && capacity == HASH_MAP_INITIAL_CAP && !anyErased
  {
    var m := new HashMap<nat, nat>(k => k);
    var ok := m.Insert(0, 0, true, true, true, true);
    anyErased := false;
    var i := 0;
    while i < 5
      invariant 0 <= i <= 5
      invariant m.Valid() && m.Contents == map[0 := 0] && m.capacity == HASH_MAP_INITIAL_CAP && !anyErased
    {
      var erased := m.Erase(1, true, true);
      anyErased := anyErased || erased;
      i := i + 1;
    }
    return m.size, m.capacity, anyErased;
  }

  /**
   * The erase test on the HashMap class with the identity hash: eighteen
   * keys are inserted and erased again, after which erasing each of
   * twenty-two keys from the emptied map fails and the size stays 0.
   */
  method RunEraseTest() returns (size: nat, anyErased: bool)
    ensures size == 0 && !anyErased
  {
    var m := new HashMap<nat, nat>(k => k);
    ghost var l := Load(m.size, m.capacity);
    LoadFactorScenario(l);
    InsertKeys(m, 0, 18);
    assert Load(m.size, m.capacity) == Inserts(l, 18) == Load(18, 32);
    EraseKeys(m, 0, 18, 18);
    assert m.Contents == map[];
    anyErased := false;
    var i := 18;
    while i < 40
      invariant 18 <= i <= 40
      invariant m.Valid() && m.Contents == map[] && !anyErased
    {
      var erased := m.Erase(i, true, true);
      anyErased := anyErased || erased;
      i := i + 1;
    }
    return m.size, anyErased;
  }
}

=== FILE: sizing.dfy ===
/**
 * Capacity arithmetic shared by the vector and the hash map of ex4:
 * powers of two, the bitwise mask that selects a bucket, and the load-factor
 * thresholds (0.75 to grow, 0.25 to shrink, growth factor 2) written as
 * integer comparisons.
 */
module Sizing {

  const VECTOR_GROWTH_FACTOR: nat := 2
  const MAX_LOAD_FACTOR: real := 0.75
  const MIN_LOAD_FACTOR: real := 0.25

  /** c is 1, 2, 4, 8, ... */
  predicate IsPow2(c: nat)
  {
    c == 1 || (c >= 2 && c % 2 == 0 && IsPow2(c / 2))
  }

  lemma {:induction false} Pow2Positive(c: nat)
    requires IsPow2(c)
    ensures c >= 1
  {
  }

  lemma Pow2Double(c: nat)
    requires IsPow2(c)
    ensures IsPow2(2 * c)
  {
    assert (2 * c) / 2 == c;
  }

  lemma Pow2Half(c: nat)
    requires IsPow2(c) && c >= 2
    ensures IsPow2(c / 2) && c == 2 * (c / 2)
  {
  }

  /** Bitwise AND of two non-negative integers, one bit at a time. */
  function BitAnd(a: nat, b: nat): nat
    decreases a
  {
    if a == 0 || b == 0 then 0
    else 2 * BitAnd(a / 2, b / 2) + (if a % 2 == 1 && b % 2 == 1 then 1 else 0)
  }

  /**
   * For a power-of-two capacity, masking with capacity - 1 is the remainder
   * modulo capacity: the bucket index `hash & (capacity - 1)` of the C code
   * is `hash % capacity` of this model.
   */
  lemma {:induction false} MaskIsMod(h: nat, c: nat)
    requires IsPow2(c)
    ensures BitAnd(h, c - 1) == h % c
    decreases c
  {
    if c == 1 {
    } else if h == 0 {
    } else {
      var half := c / 2;
      assert c - 1 > 0;
      assert (c - 1) / 2 == half - 1 && (c - 1) % 2 == 1;
      MaskIsMod(h / 2, half);
      assert BitAnd(h, c - 1) == 2 * ((h / 2) % half) + h % 2;
      ModOfHalves(h, half);
    }
  }

  lemma ModOfHalves(h: nat, half: nat)
    requires half >= 1
    ensures h % (2 * half) == 2 * ((h / 2) % half) + h % 2
  {
    var q := (h / 2) / half;
    var r := (h / 2) % half;
    assert h / 2 == q * half + r;
    assert h == 2 * (h / 2) + h % 2;
    assert h == q * (2 * half) + (2 * r + h % 2);
    ModUnique(h, 2 * half, q, 2 * r + h % 2);
  }

  /** The remainder is the unique r with h == q * m + r and 0 <= r < m. */
  lemma ModUnique(h: nat, m: nat, q: nat, r: nat)
    requires m >= 1 && r < m && h == q * m + r
    ensures h % m == r
  {
    var q' := h / m;
    var r' := h % m;
    assert h == q' * m + r';
    if q' > q {
      MulMonotone(q' - q, m);
      assert false;
    } else if q' < q {
      MulMonotone(q - q', m);
      assert false;
    }
  }

  lemma MulMonotone(d: nat, m: nat)
    requires d >= 1
    ensures d * m >= m
  {
  }

  /** size / capacity > VECTOR_MAX_LOAD_FACTOR, cross-multiplied. */
  predicate AboveMaxLoad(size: nat, capacity: nat)
  {
    4 * size > 3 * capacity
  }

  /** size / capacity < VECTOR_MIN_LOAD_FACTOR, cross-multiplied. */
  predicate BelowMinLoad(size: nat, capacity: nat)
  {
    4 * size < capacity
  }

  /** The load factor `size / capacity` as the exact rational the C code approximates with a double. */
  function LoadFactor(size: nat, capacity: nat): real
    requires capacity > 0
  {
    size as real / capacity as real
  }

  /** The integer comparisons decide exactly the comparisons of the load factor against 0.75 and 0.25. */
  lemma LoadFactorThresholds(size: nat, capacity: nat)
    requires capacity > 0
    ensures AboveMaxLoad(size, capacity) <==> LoadFactor(size, capacity) > MAX_LOAD_FACTOR
    ensures BelowMinLoad(size, capacity) <==> LoadFactor(size, capacity) < MIN_LOAD_FACTOR
  {
    var lf := LoadFactor(size, capacity);
    var c := capacity as real;
    assert lf * c == size as real;
    RealScale(lf, 0.75, c);
    RealScale(lf, 0.25, c);
  }

  lemma RealScale(x: real, t: real, c: real)
    requires c > 0.0
    ensures x > t <==> x * c > t * c
    ensures x < t <==> x * c < t * c
  {
  }

  /** Under the maximum-load invariant the load factor lies in [0, 0.75], and is 0 only for an empty container. */
  lemma LoadFactorBounds(size: nat, capacity: nat)
    requires capacity > 0 && 4 * size <= 3 * capacity
    ensures 0.0 <= LoadFactor(size, capacity) <= MAX_LOAD_FACTOR
    ensures LoadFactor(size, capacity) == 0.0 <==> size == 0
  {
    LoadFactorThresholds(size, capacity);
    var c := capacity as real;
    assert LoadFactor(size, capacity) * c == size as real;
  }
}

=== FILE: students.dfy ===
/**
 * ex2/manageStudents.c: validation of one "<id>,<grade>,<age>" input line and
 * the two in-place sorts of the student table, bubble sort by grade and
 * Lomuto quicksort by age. Characters are Dafny chars; the table is an array
 * of Student records.
 */
module Students {
  import opened Wrappers

  const MIN_GRADE: int := 0
  const MAX_GRADE: int := 100
  const MIN_AGE: int := 18
  const MAX_AGE: int := 120
  const MAX_ID_DIG: nat := 10

  /** One student record: id, grade and age. */
  datatype Student = Student(id: int, grade: int, age: int)

  /** The record field a sort orders by. */
  datatype Field = Grade | Age

  function Key(st: Student, f: Field): int
  {
    match f
    case Grade => st.grade
    case Age => st.age
  }

  predicate IsDigit(c: char)
  {
    '0' <= c <= '9'
  }

  /** Every character of s before index n is a digit. */
  predicate DigitsUpTo(s: seq<char>, n: int)
  {
    forall j :: 0 <= j < n && j < |s| ==> IsDigit(s[j])
  }

  /** A well-formed id: exactly ten digits, the first of which is not '0'. */
  predicate ValidId(id: seq<char>)
  {
    |id| == MAX_ID_DIG && id[0] != '0' && DigitsUpTo(id, |id|)
  }

  /** check_id: 0 for a well-formed id, 1 otherwise. */
  method CheckId(id: seq<char>) returns (r: int)
    ensures r == 0 || r == 1
    ensures r == 0 <==> ValidId(id)
  {
    if (|id| > 0 && id[0] == '0') || |id| != MAX_ID_DIG {
      return 1;
    }
    for j := 0 to |id|
      invariant DigitsUpTo(id, j)
    {
      if !IsDigit(id[j]) {
        return 1;
      }
    }
    return 0;
  }

  /**
   * check_num: -1 when one of the first size - 1 characters is not a digit,
   * 0 otherwise. The grade token is passed with size strlen + 1, so all of
   * it is scanned; the age token with size strlen, so its last character
   * (the line's newline) is not.
   */
  method CheckNum(s: seq<char>, size: int) returns (r: int)
    requires size <= |s| + 1
    ensures r == 0 || r == -1
    ensures r == -1 <==> exists j :: 0 <= j < size - 1 && !IsDigit(s[j])
    ensures r == 0 <==> DigitsUpTo(s, size - 1)
  {
    var j := 0;
    while j < size - 1
      invariant 0 <= j && (size >= 1 ==> j <= size - 1)
      invariant DigitsUpTo(s, j)
    {
      if !IsDigit(s[j]) {
        return -1;
      }
      j := j + 1;
    }
    return 0;
  }

  /** The decimal value of a string of digits. */
  function DigitsValue(s: seq<char>): (r: nat)
    requires DigitsUpTo(s, |s|)
    ensures |s| == 0 ==> r == 0
  {
    if s == [] then 0 else 10 * DigitsValue(s[..|s| - 1]) + (s[|s| - 1] as int - '0' as int)
  }

  /** The leading run of digits of s. */
  function LeadingDigits(s: seq<char>): (r: seq<char>)
    ensures |r| <= |s| && r == s[..|r|] && DigitsUpTo(r, |r|)
    ensures |r| < |s| ==> !IsDigit(s[|r|])
  {
    if s == [] || !IsDigit(s[0]) then [] else [s[0]] + LeadingDigits(s[1..])
  }

  /** A string made of digits is its own leading run. */
  lemma {:induction false} LeadingDigitsOfDigits(s: seq<char>)
    requires DigitsUpTo(s, |s|)
    ensures LeadingDigits(s) == s
  {
    if s != [] {
      LeadingDigitsOfDigits(s[1..]);
      assert s == [s[0]] + s[1..];
    }
  }

  /**
   * strtol in base 10 on a token that check_num has accepted: the value of
   * its leading digits.
   */
  function StrToInt(s: seq<char>): (r: nat)
    ensures DigitsUpTo(s, |s|) ==> r == DigitsValue(s)
    ensures s == [] || !IsDigit(s[0]) ==> r == 0
    ensures r < Pow10(|LeadingDigits(s)|)
  {
    var d := LeadingDigits(s);
    DigitsValueBelow(d);
    if DigitsUpTo(s, |s|) then
      LeadingDigitsOfDigits(s);
      DigitsValue(d)
    else
      DigitsValue(d)
  }

  function Pow10(n: nat): (r: nat)
    ensures r >= 1
  {
    if n == 0 then 1 else 10 * Pow10(n - 1)
  }

  /** A string of n digits has a value below 10^n. */
  lemma {:induction false} DigitsValueBelow(s: seq<char>)
    requires DigitsUpTo(s, |s|)
    ensures DigitsValue(s) < Pow10(|s|)
  {
    if s != [] {
      DigitsValueBelow(s[..|s| - 1]);
    }
  }

  /** A string of n >= 1 digits not starting with '0' has a value of at least 10^(n-1). */
  lemma {:induction false} DigitsValueAtLeast(s: seq<char>)
    requires DigitsUpTo(s, |s|) && |s| >= 1 && s[0] != '0'
    ensures DigitsValue(s) >= Pow10(|s| - 1)
  {
    if |s| > 1 {
      DigitsValueAtLeast(s[..|s| - 1]);
    }
  }

  /** A well-formed id is a ten-digit number. */
  lemma ValidIdRange(id: seq<char>)
    requires ValidId(id)
    ensures 1_000_000_000 <= StrToInt(id) < 10_000_000_000
  {
    LeadingDigitsOfDigits(id);
    DigitsValueBelow(id);
    DigitsValueAtLeast(id);
  }

  /**
   * The record the fields of a line describe, when the line passes every
   * check of check_input: a well-formed id, an all-digit grade in
   * [MIN_GRADE, MAX_GRADE] and an age whose characters before the last are
   * digits and whose value is in [MIN_AGE, MAX_AGE]. None for a line with
   * more than three fields or a rejected field.
   */
  function ParseRecord(fields: seq<seq<char>>): (r: Option<Student>)
    requires |fields| >= 3
    ensures r.Some? ==> |fields| == 3 && ValidId(fields[0])
    ensures r.Some? ==> MIN_GRADE <= r.value.grade <= MAX_GRADE && MIN_AGE <= r.value.age <= MAX_AGE
  {
    if |fields| > 3 then None
    else
      var id, grade, age := fields[0], fields[1], fields[2];
      if !ValidId(id) || !DigitsUpTo(grade, |grade|) || !DigitsUpTo(age, |age| - 1) then None
      else if !(MIN_GRADE <= StrToInt(grade) <= MAX_GRADE) then None
      else if !(MIN_AGE <= StrToInt(age) <= MAX_AGE) then None
      else Some(Student(StrToInt(id), StrToInt(grade), StrToInt(age)))
  }

  /** An accepted record has a ten-digit id. */
  lemma ParsedIdRange(fields: seq<seq<char>>)
    requires |fields| >= 3 && ParseRecord(fields).Some?
    ensures 1_000_000_000 <= ParseRecord(fields).value.id < 10_000_000_000
  {
    ValidIdRange(fields[0]);
  }

  /**
   * check_input on the comma-separated fields of one line: -1 and the record
   * written to s[j] when the line is accepted; 1 and s untouched otherwise.
   */
  method CheckInput(fields: seq<seq<char>>, s: array<Student>, j: nat) returns (r: int)
    requires |fields| >= 3 && j < s.Length
    modifies s
    ensures r == -1 || r == 1
    ensures |fields| > 3 ==> r == 1
    ensures r == -1 <==> ParseRecord(fields).Some?
    ensures r == -1 ==> s[..] == old(s[..])[j := ParseRecord(fields).value]
    ensures r == 1 ==> s[..] == old(s[..])
  {
    if |fields| > 3 {
      return 1;
    }
    var id, grade, age := fields[0], fields[1], fields[2];
    var checkGrade := CheckNum(grade, |grade| + 1);
    var checkAge := CheckNum(age, |age|);
    var checkId := CheckId(id);
    if checkId == 1 || checkGrade == -1 || checkAge == -1 {
      return 1;
    }
    var idInt, gradeInt, ageInt := StrToInt(id), StrToInt(grade), StrToInt(age);
    if MIN_GRADE <= gradeInt <= MAX_GRADE {
      if MIN_AGE <= ageInt <= MAX_AGE {
        s[j] := Student(idInt, gradeInt, ageInt);
        return -1;
      } else {
        return 1;
      }
    } else {
      return 1;
    }
  }

  /** swap: exchanges the records at i and j and changes nothing else. */
  method Swap(a: array<Student>, i: nat, j: nat)
    requires i < a.Length && j < a.Length
    modifies a
    ensures a[..] == old(a[..])[i := old(a[j])][j := old(a[i])]
  {
    a[i], a[j] := a[j], a[i];
  }

  /** s[lo..hi] is in non-decreasing order of field f. */
  predicate SortedBy(s: seq<Student>, f: Field, lo: int, hi: int)
    requires 0 <= lo <= hi <= |s|
  {
    forall p, q :: lo <= p < q < hi ==> Key(s[p], f) <= Key(s[q], f)
  }

  /**
   * bubble_sort: n - 1 passes, pass i carrying the largest grade of
   * a[..n - i] to index n - i - 1 by adjacent swaps.
   */
  method BubbleSort(a: array<Student>)
    modifies a
    ensures SortedBy(a[..], Grade, 0, a.Length)
    ensures multiset(a[..]) == old(multiset(a[..]))
  {
    ghost var s0 := a[..];
    var n := a.Length;
    var i := 0;
    while i < n - 1
      invariant 0 <= i <= n && (n >= 1 ==> i <= n - 1)
      invariant PermutedRange(s0, a[..], 0, n)
      invariant SortedBy(a[..], Grade, n - i, n) && GradesSplit(a[..], n - i)
    {
      ghost var s := a[..];
      BubblePass(a, n - i);
      BubblePassDone(s0, s, a[..], n - i);
      i := i + 1;
    }
    assert a[0..n] == a[..] && s0[0..n] == s0;
    if n >= 1 {
      assert SortedBy(a[..], Grade, 1, n) && GradesSplit(a[..], 1);
    }
  }

  /** Every grade in s[..m] is at most every grade in s[m..]. */
  predicate GradesSplit(s: seq<Student>, m: int)
  {
    forall p, q :: 0 <= p < m <= q < |s| ==> s[p].grade <= s[q].grade
  }

  /** No grade in s[..j + 1] is above the grade of s[j]. */
  predicate MaxGradeAt(s: seq<Student>, j: int)
    requires 0 <= j < |s|
  {
    forall p :: 0 <= p <= j ==> s[p].grade <= s[j].grade
  }

  /**
   * One pass of bubble_sort over a[..m]: afterwards a[m - 1] holds the
   * largest grade of a[..m], and a[..m] is permuted in place.
   */
  method BubblePass(a: array<Student>, m: nat)
    requires 1 <= m <= a.Length
    modifies a
    ensures PermutedRange(old(a[..]), a[..], 0, m)
    ensures MaxGradeAt(a[..], m - 1)
  {
    ghost var s0 := a[..];
    var j := 0;
    while j < m - 1
      invariant 0 <= j <= m - 1
      invariant PermutedRange(s0, a[..], 0, m)
      invariant MaxGradeAt(a[..], j)
    {
      ghost var s := a[..];
      if a[j].grade > a[j + 1].grade {
        SwapPermutes(s0, s, j, j + 1, 0, m);
        Swap(a, j, j + 1);
      }
      BubbleStep(s, a[..], j);
      j := j + 1;
    }
  }

  /** An adjacent exchange that puts the larger grade second carries the maximum one place right. */
  lemma BubbleStep(s: seq<Student>, t: seq<Student>, j: int)
    requires 0 <= j < |s| - 1 && MaxGradeAt(s, j)
    requires t == if s[j].grade > s[j + 1].grade then s[j := s[j + 1]][j + 1 := s[j]] else s
    ensures MaxGradeAt(t, j + 1)
  {
  }

  /**
   * After the pass over s[..m] that gives t, the sorted tail and the split
   * both grow by one place, and t is still a permutation of s0.
   */
  lemma BubblePassDone(s0: seq<Student>, s: seq<Student>, t: seq<Student>, m: int)
    requires 1 <= m <= |s0| == |s| == |t|
    requires PermutedRange(s0, s, 0, |s0|) && SortedBy(s, Grade, m, |s|) && GradesSplit(s, m)
    requires PermutedRange(s, t, 0, m) && MaxGradeAt(t, m - 1)
    ensures PermutedRange(s0, t, 0, |s0|)
    ensures SortedBy(t, Grade, m - 1, |t|) && GradesSplit(t, m - 1)
  {
    forall p, q | 0 <= p < m <= q < |t|
      ensures t[p].grade <= t[q].grade
    {
      assert t[p] == t[0..m][p];
      assert t[p] in multiset(s[0..m]);
      var r :| 0 <= r < m && s[0..m][r] == t[p];
      assert s[r] == t[p] && s[q] == t[q];
    }
    PermutedRangeWiden(s, t, m, |s|);
    PermutedRangeTrans(s0, s, t, 0, |s0|);
  }

  /** A permutation of s[..mid] that leaves the rest alone permutes s[..hi] too. */
  lemma PermutedRangeWiden(s: seq<Student>, t: seq<Student>, mid: int, hi: int)
    requires 0 <= mid <= hi <= |s| == |t| && PermutedRange(s, t, 0, mid)
    ensures PermutedRange(s, t, 0, hi)
  {
    assert s[0..hi] == s[0..mid] + s[mid..hi];
    assert t[0..hi] == t[0..mid] + t[mid..hi];
    assert s[mid..hi] == t[mid..hi];
  }

  /** Every record of s[lo..hi] has an age below x. */
  predicate AllBelow(s: seq<Student>, lo: int, hi: int, x: int)
    requires 0 <= lo <= hi <= |s|
  {
    forall k :: lo <= k < hi ==> s[k].age < x
  }

  /** Every record of s[lo..hi] has an age of at least x. */
  predicate AllAtLeast(s: seq<Student>, lo: int, hi: int, x: int)
    requires 0 <= lo <= hi <= |s|
  {
    forall k :: lo <= k < hi ==> s[k].age >= x
  }

  /** t[lo..hi] holds the records of s[lo..hi] in some order, and t equals s outside it. */
  predicate PermutedRange(s: seq<Student>, t: seq<Student>, lo: int, hi: int)
    requires 0 <= lo <= hi <= |s| == |t|
  {
    (forall k :: 0 <= k < |s| && !(lo <= k < hi) ==> s[k] == t[k]) && multiset(s[lo..hi]) == multiset(t[lo..hi])
  }

  lemma PermutedRangeTrans(s: seq<Student>, t: seq<Student>, u: seq<Student>, lo: int, hi: int)
    requires 0 <= lo <= hi <= |s| == |t| == |u|
    requires PermutedRange(s, t, lo, hi) && PermutedRange(t, u, lo, hi)
    ensures PermutedRange(s, u, lo, hi)
  {
  }

  /** Exchanging two records inside s[lo..hi] keeps that range a permutation of the one in s0. */
  lemma SwapPermutes(s0: seq<Student>, s: seq<Student>, i: int, j: int, lo: int, hi: int)
    requires 0 <= lo <= i < hi && lo <= j < hi && hi <= |s| == |s0|
    requires PermutedRange(s0, s, lo, hi)
    ensures PermutedRange(s0, s[i := s[j]][j := s[i]], lo, hi)
  {
    var t := s[i := s[j]][j := s[i]];
    assert t[lo..hi] == s[lo..hi][i - lo := s[j]][j - lo := s[i]];
    assert PermutedRange(s, t, lo, hi);
    PermutedRangeTrans(s0, s, t, lo, hi);
  }

  /**
   * One step of partition's scan when a[j] is below the pivot: after the
   * exchange of a[i] (the first record not below) and a[j], the region of
   * records below the pivot and the region of records at least the pivot
   * have each moved one place right.
   */
  lemma PartitionSwapStep(s: seq<Student>, lo: int, i: int, j: int, x: int)
    requires 0 <= lo <= i <= j < |s|
    requires AllBelow(s, lo, i, x) && AllAtLeast(s, i, j, x) && s[j].age < x
    ensures AllBelow(s[i := s[j]][j := s[i]], lo, i + 1, x)
    ensures AllAtLeast(s[i := s[j]][j := s[i]], i + 1, j + 1, x)
  {
  }

  /**
   * partition: the Lomuto scheme with the last record of a[lo..hi] as pivot.
   * It returns the pivot's final index p: every record before p has a
   * smaller age, every record after it an age at least as large.
   */
  method Partition(a: array<Student>, lo: nat, hi: nat) returns (p: nat)
    requires lo < hi <= a.Length
    modifies a
    ensures lo <= p < hi
    ensures PermutedRange(old(a[..]), a[..], lo, hi)
    ensures AllBelow(a[..], lo, p, a[p].age)
    ensures AllAtLeast(a[..], p + 1, hi, a[p].age)
  {
    ghost var s0 := a[..];
    ghost var pivot := a[hi - 1];
    var i: int := lo as int - 1;
    var j := lo;
    while j < hi
      invariant lo <= j <= hi
      invariant lo - 1 <= i < j && i < hi - 1
      invariant a[hi - 1] == pivot
      invariant PermutedRange(s0, a[..], lo, hi)
      invariant AllBelow(a[..], lo, i + 1, pivot.age)
      invariant AllAtLeast(a[..], i + 1, j, pivot.age)
    {
      i := PartitionScan(a, lo, hi, i, j, s0, pivot);
      j := j + 1;
    }
    PlacePivot(a, lo, hi, i + 1, s0);
    p := i + 1;
  }

  /** The closing exchange of partition: the pivot goes to index p, between the two regions. */
  method PlacePivot(a: array<Student>, lo: nat, hi: nat, p: nat, ghost s0: seq<Student>)
    requires lo <= p < hi <= a.Length == |s0|
    requires PermutedRange(s0, a[..], lo, hi)
    requires AllBelow(a[..], lo, p, a[hi - 1].age) && AllAtLeast(a[..], p, hi - 1, a[hi - 1].age)
    modifies a
    ensures PermutedRange(s0, a[..], lo, hi)
    ensures AllBelow(a[..], lo, p, a[p].age) && AllAtLeast(a[..], p + 1, hi, a[p].age)
  {
    ghost var s := a[..];
    PivotSwap(s0, s, lo, p, hi);
    Swap(a, p, hi - 1);
  }

  /** The closing exchange of partition, on the records as a sequence. */
  lemma PivotSwap(s0: seq<Student>, s: seq<Student>, lo: int, p: int, hi: int)
    requires 0 <= lo <= p < hi <= |s| == |s0|
    requires PermutedRange(s0, s, lo, hi)
    requires AllBelow(s, lo, p, s[hi - 1].age) && AllAtLeast(s, p, hi - 1, s[hi - 1].age)
    ensures PermutedRange(s0, s[p := s[hi - 1]][hi - 1 := s[p]], lo, hi)
    ensures AllBelow(s[p := s[hi - 1]][hi - 1 := s[p]], lo, p, s[p := s[hi - 1]][hi - 1 := s[p]][p].age)
    ensures AllAtLeast(s[p := s[hi - 1]][hi - 1 := s[p]], p + 1, hi, s[p := s[hi - 1]][hi - 1 := s[p]][p].age)
  {
    PartitionFinalSwap(s, lo, p, hi);
    SwapPermutes(s0, s, p, hi - 1, lo, hi);
  }

  /**
   * One iteration of partition's scan at index j: a record below the pivot
   * is exchanged with the first record of the region not below it.
   */
  method PartitionScan(a: array<Student>, lo: nat, hi: nat, i: int, j: nat, ghost s0: seq<Student>, ghost pivot: Student)
    returns (i': int)
    requires lo <= j < hi <= a.Length == |s0|
    requires lo - 1 <= i < j && i < hi - 1 && a[hi - 1] == pivot
    requires PermutedRange(s0, a[..], lo, hi)
    requires AllBelow(a[..], lo, i + 1, pivot.age) && AllAtLeast(a[..], i + 1, j, pivot.age)
    modifies a
    ensures lo - 1 <= i' <= j && i' < hi - 1 && a[hi - 1] == pivot
    ensures PermutedRange(s0, a[..], lo, hi)
    ensures AllBelow(a[..], lo, i' + 1, pivot.age) && AllAtLeast(a[..], i' + 1, j + 1, pivot.age)
  {
    i' := i;
    if a[j].age < a[hi - 1].age {
      ghost var s := a[..];
      ScanSwap(s0, s, lo, hi, i + 1, j, pivot);
      i' := i + 1;
      Swap(a, i', j);
    }
  }

  /** The exchange of partition's scan, on the records as a sequence. */
  lemma ScanSwap(s0: seq<Student>, s: seq<Student>, lo: int, hi: int, i: int, j: int, pivot: Student)
    requires 0 <= lo <= i <= j < hi <= |s| == |s0|
    requires s[hi - 1] == pivot && s[j].age < pivot.age
    requires PermutedRange(s0, s, lo, hi)
    requires AllBelow(s, lo, i, pivot.age) && AllAtLeast(s, i, j, pivot.age)
    ensures j < hi - 1 && s[i := s[j]][j := s[i]][hi - 1] == pivot
    ensures PermutedRange(s0, s[i := s[j]][j := s[i]], lo, hi)
    ensures AllBelow(s[i := s[j]][j := s[i]], lo, i + 1, pivot.age)
    ensures AllAtLeast(s[i := s[j]][j := s[i]], i + 1, j + 1, pivot.age)
  {
    var t := s[i := s[j]][j := s[i]];
    assert j < hi - 1 && t[hi - 1] == pivot;
    PartitionSwapStep(s, lo, i, j, pivot.age);
    SwapPermutes(s0, s, i, j, lo, hi);
  }

  /** The closing exchange of partition puts the pivot between the two regions. */
  lemma PartitionFinalSwap(s: seq<Student>, lo: int, p: int, hi: int)
    requires 0 <= lo <= p < hi <= |s|
    requires AllBelow(s, lo, p, s[hi - 1].age) && AllAtLeast(s, p, hi - 1, s[hi - 1].age)
    ensures AllBelow(s[p := s[hi - 1]][hi - 1 := s[p]], lo, p, s[hi - 1].age)
    ensures AllAtLeast(s[p := s[hi - 1]][hi - 1 := s[p]], p + 1, hi, s[hi - 1].age)
    ensures s[p := s[hi - 1]][hi - 1 := s[p]][p] == s[hi - 1]
  {
  }

  /** Permuting a range keeps every bound that held for all of its records. */
  lemma BoundsSurvivePermutation(s: seq<Student>, t: seq<Student>, lo: int, hi: int, x: int)
    requires 0 <= lo <= hi <= |s| == |t|
    requires multiset(t[lo..hi]) == multiset(s[lo..hi])
    ensures AllBelow(s, lo, hi, x) ==> AllBelow(t, lo, hi, x)
    ensures AllAtLeast(s, lo, hi, x) ==> AllAtLeast(t, lo, hi, x)
  {
    forall k | lo <= k < hi
      ensures exists m :: lo <= m < hi && s[m] == t[k]
    {
      assert t[k] == t[lo..hi][k - lo];
      assert t[k] in multiset(s[lo..hi]);
      var m :| 0 <= m < hi - lo && s[lo..hi][m] == t[k];
      assert s[lo + m] == t[k];
    }
  }

  /** quick_sort: partition, then sort the records before and after the pivot. */
  method QuickSort(a: array<Student>, lo: nat, hi: nat)
    requires lo <= hi <= a.Length
    modifies a
    ensures PermutedRange(old(a[..]), a[..], lo, hi)
    ensures SortedBy(a[..], Age, lo, hi)
    decreases hi - lo
  {
    if lo + 1 < hi {
      var p := Partition(a, lo, hi);
      ghost var s0 := a[..];
      QuickSort(a, lo, p);
      ghost var s1 := a[..];
      QuickSort(a, p + 1, hi);
      ghost var s2 := a[..];
      QuickSortGlue(s0, s1, s2, lo, p, hi);
    }
  }

  /**
   * Sorting the two sides of a partition around p leaves the pivot in
   * place, each side bounded by it and the whole range sorted and permuted.
   */
  lemma QuickSortGlue(s0: seq<Student>, s1: seq<Student>, s2: seq<Student>, lo: int, p: int, hi: int)
    requires 0 <= lo <= p < hi <= |s0| == |s1| == |s2|
    requires AllBelow(s0, lo, p, s0[p].age) && AllAtLeast(s0, p + 1, hi, s0[p].age)
    requires PermutedRange(s0, s1, lo, p) && SortedBy(s1, Age, lo, p)
    requires PermutedRange(s1, s2, p + 1, hi) && SortedBy(s2, Age, p + 1, hi)
    ensures PermutedRange(s0, s2, lo, hi)
    ensures SortedBy(s2, Age, lo, hi)
  {
    GluePermuted(s0, s1, s2, lo, p, hi);
    BoundsSurvivePermutation(s0, s1, lo, p, s0[p].age);
    assert s1[p + 1..hi] == s0[p + 1..hi];
    BoundsSurvivePermutation(s1, s2, p + 1, hi, s0[p].age);
    GlueSorted(s2, lo, p, hi);
  }

  /** Permuting the range before p and then the range after it permutes the whole range. */
  lemma GluePermuted(s0: seq<Student>, s1: seq<Student>, s2: seq<Student>, lo: int, p: int, hi: int)
    requires 0 <= lo <= p < hi <= |s0| == |s1| == |s2|
    requires PermutedRange(s0, s1, lo, p) && PermutedRange(s1, s2, p + 1, hi)
    ensures PermutedRange(s0, s2, lo, hi)
    ensures s2[p] == s0[p] && s2[lo..p] == s1[lo..p]
  {
    assert s1[p + 1..hi] == s0[p + 1..hi];
    assert s2[lo..p] == s1[lo..p];
    assert s0[lo..hi] == s0[lo..p] + [s0[p]] + s0[p + 1..hi];
    assert s1[lo..hi] == s1[lo..p] + [s1[p]] + s1[p + 1..hi];
    assert s2[lo..hi] == s2[lo..p] + [s2[p]] + s2[p + 1..hi];
  }

  /** Two sorted sides bounded by the record at p make the whole range sorted. */
  lemma GlueSorted(s: seq<Student>, lo: int, p: int, hi: int)
    requires 0 <= lo <= p < hi <= |s|
    requires AllBelow(s, lo, p, s[p].age) && AllAtLeast(s, p + 1, hi, s[p].age)
    requires SortedBy(s, Age, lo, p) && SortedBy(s, Age, p + 1, hi)
    ensures SortedBy(s, Age, lo, hi)
  {
  }
}

=== FILE: tweets.dfy ===
/**
 * ex3/tweetsGenerator.c: the word dictionary of the tweets generator. The
 * dictionary is a linked list of word records, first to last in order of
 * first appearance; each record counts the word's occurrences and keeps a
 * list of the words that followed it on the same line, with their counts.
 * The list's nodes are the sequence `words`; a record is replaced where the
 * C code updates it through its pointer. The input file is a sequence of
 * lines, each a sequence of words.
 */
module Tweets {
  import opened Wrappers

  /** One entry of a word's prob_list: a following word and how often it followed. */
  datatype Successor = Successor(word: string, count: nat)

  /** A WordStruct: the word, num_of_word_in_txt and prob_list. */
  datatype WordStruct = WordStruct(word: string, count: nat, probs: seq<Successor>)

  /** The index of the first record of d holding w, as is_node_exist finds it. */
  function IndexOf(d: seq<WordStruct>, w: string): (r: Option<nat>)
    ensures r.Some? ==> r.value < |d| && d[r.value].word == w
    ensures r.Some? ==> forall j :: 0 <= j < r.value ==> d[j].word != w
    ensures r.None? <==> forall j :: 0 <= j < |d| ==> d[j].word != w
  {
    if d == [] then None
    else if d[0].word == w then Some(0)
    else match IndexOf(d[1..], w)
      case None => None
      case Some(j) => Some(j + 1)
  }

  /** The index of the first entry of p for the word v, as the scan of add_word_to_probability_list finds it. */
  function SuccIndex(p: seq<Successor>, v: string): (r: Option<nat>)
    ensures r.Some? ==> r.value < |p| && p[r.value].word == v
    ensures r.Some? ==> forall j :: 0 <= j < r.value ==> p[j].word != v
    ensures r.None? <==> forall j :: 0 <= j < |p| ==> p[j].word != v
  {
    if p == [] then None
    else if p[0].word == v then Some(0)
    else match SuccIndex(p[1..], v)
      case None => None
      case Some(j) => Some(j + 1)
  }

  /** How often v has followed, by the entry for v (0 when there is none). */
  function SuccCount(p: seq<Successor>, v: string): nat
  {
    match SuccIndex(p, v)
    case None => 0
    case Some(j) => p[j].count
  }

  /** Two entry lists with the same words at every index find every word at the same index. */
  lemma SameWordsSameIndex(p: seq<Successor>, q: seq<Successor>, v: string)
    requires |p| == |q| && forall j :: 0 <= j < |p| ==> p[j].word == q[j].word
    ensures SuccIndex(p, v) == SuccIndex(q, v)
  {
    var a, b := SuccIndex(p, v), SuccIndex(q, v);
    if a.Some? && b.Some? {
      assert !(a.value < b.value) && !(b.value < a.value);
    }
  }

  /**
   * The entry list after one more occurrence of v: the count of v's entry
   * grows by one, or an entry for v with count 1 is appended.
   */
  function Bump(p: seq<Successor>, v: string): (r: seq<Successor>)
    ensures SuccCount(r, v) == SuccCount(p, v) + 1
    ensures forall u :: u != v ==> SuccCount(r, u) == SuccCount(p, u)
    ensures SuccIndex(p, v).Some? ==> |r| == |p|
    ensures SuccIndex(p, v).None? ==> |r| == |p| + 1
  {
    match SuccIndex(p, v)
    case Some(j) =>
      var r := p[j := p[j].(count := p[j].count + 1)];
      BumpInPlace(p, v, j);
      r
    case None =>
      var r := p + [Successor(v, 1)];
      BumpAppend(p, v);
      r
  }

  /** Raising the count of v's entry moves no entry. */
  lemma BumpInPlace(p: seq<Successor>, v: string, j: nat)
    requires SuccIndex(p, v) == Some(j)
    ensures forall u :: SuccIndex(p[j := p[j].(count := p[j].count + 1)], u) == SuccIndex(p, u)
  {
    forall u {
      SameWordsSameIndex(p[j := p[j].(count := p[j].count + 1)], p, u);
    }
  }

  /** Appending an entry for a word with none puts it last and moves no other entry. */
  lemma BumpAppend(p: seq<Successor>, v: string)
    requires SuccIndex(p, v).None?
    ensures SuccIndex(p + [Successor(v, 1)], v) == Some(|p|)
    ensures forall u :: u != v ==> SuccIndex(p + [Successor(v, 1)], u) == SuccIndex(p, u)
  {
    var r := p + [Successor(v, 1)];
    forall u | u != v {
      AppendOtherIndex(p, Successor(v, 1), u);
    }
    assert forall j :: 0 <= j < |p| ==> r[j] == p[j];
    SuccIndexFirst(r, v, |p|);
  }

  /** Appending an entry for another word does not move the entry for u. */
  lemma AppendOtherIndex(p: seq<Successor>, e: Successor, u: string)
    requires e.word != u
    ensures SuccIndex(p + [e], u) == SuccIndex(p, u)
  {
    var a, b := SuccIndex(p + [e], u), SuccIndex(p, u);
    assert (p + [e])[|p|] == e;
    if a.Some? {
      assert a.value < |p| && p[a.value].word == u;
    }
    if b.Some? {
      assert (p + [e])[b.value].word == u;
    }
    if a.Some? && b.Some? {
      assert !(a.value < b.value) && !(b.value < a.value);
    }
  }

  /** fill_dictionary_helper's effect: a new record with count 1 for an unseen word, one more occurrence for a seen one. */
  function AddOccurrence(d: seq<WordStruct>, w: string): (r: seq<WordStruct>)
  {
    match IndexOf(d, w)
    case None => d + [WordStruct(w, 1, [])]
    case Some(k) => d[k := d[k].(count := d[k].count + 1)]
  }

  /** add_word_to_probability_list's effect on the record of the previous word, when there is one. */
  function Link(d: seq<WordStruct>, prev: Option<string>, w: string): (r: seq<WordStruct>)
  {
    if prev.None? then d
    else match IndexOf(d, prev.value)
      case None => d
      case Some(k) => d[k := d[k].(probs := Bump(d[k].probs, w))]
  }

  /** Reading the word w, which follows prev on its line (None for a line's first word). */
  function Step(d: seq<WordStruct>, w: string, prev: Option<string>): seq<WordStruct>
  {
    Link(AddOccurrence(d, w), prev, w)
  }

  /** The word before the end of a line read so far. */
  function LastWord(line: seq<string>): Option<string>
  {
    if line == [] then None else Some(line[|line| - 1])
  }

  /** The dictionary d after reading the words of one line. */
  function FillLine(d: seq<WordStruct>, line: seq<string>): seq<WordStruct>
  {
    if line == [] then d
    else Step(FillLine(d, line[..|line| - 1]), line[|line| - 1], LastWord(line[..|line| - 1]))
  }

  /** The dictionary after reading the lines, starting empty. */
  function Fill(lines: seq<seq<string>>): seq<WordStruct>
  {
    if lines == [] then [] else FillLine(Fill(lines[..|lines| - 1]), lines[|lines| - 1])
  }

  /** All words of the lines, in order. */
  function Flatten(lines: seq<seq<string>>): (r: seq<string>)
  {
    if lines == [] then [] else Flatten(lines[..|lines| - 1]) + lines[|lines| - 1]
  }

  /** The words of ws without repeats, in order of first appearance. */
  function Distinct(ws: seq<string>): (r: seq<string>)
  {
    if ws == [] then []
    else
      var rest := Distinct(ws[..|ws| - 1]);
      if ws[|ws| - 1] in rest then rest else rest + [ws[|ws| - 1]]
  }

  /** How often v directly follows u on one line. */
  function LinePairs(line: seq<string>, u: string, v: string): nat
  {
    if |line| < 2 then 0
    else LinePairs(line[..|line| - 1], u, v) + (if line[|line| - 2] == u && line[|line| - 1] == v then 1 else 0)
  }

  /** How often v directly follows u on the same line, over all lines. */
  function Pairs(lines: seq<seq<string>>, u: string, v: string): nat
  {
    if lines == [] then 0 else Pairs(lines[..|lines| - 1], u, v) + LinePairs(lines[|lines| - 1], u, v)
  }

  function Keys(d: seq<WordStruct>): (r: seq<string>)
    ensures |r| == |d| && forall i :: 0 <= i < |d| ==> r[i] == d[i].word
  {
    seq(|d|, i requires 0 <= i < |d| => d[i].word)
  }

  /** s has no repeated element. */
  predicate NoDup(s: seq<string>)
  {
    forall i, j :: 0 <= i < j < |s| ==> s[i] != s[j]
  }

  /** One record per distinct word read, in order of first appearance. */
  ghost predicate KeysOf(d: seq<WordStruct>, lines: seq<seq<string>>)
  {
    Keys(d) == Distinct(Flatten(lines))
  }

  /** Each record counts the occurrences of its word. */
  ghost predicate CountsOf(d: seq<WordStruct>, lines: seq<seq<string>>)
  {
    forall i :: 0 <= i < |d| ==> d[i].count == multiset(Flatten(lines))[d[i].word]
  }

  /** Each record counts, for every v, how often v followed its word on a line. */
  ghost predicate SuccsOf(d: seq<WordStruct>, lines: seq<seq<string>>)
  {
    forall i, v :: 0 <= i < |d| ==> SuccCount(d[i].probs, v) == Pairs(lines, d[i].word, v)
  }

  /** d is the dictionary of the words of the lines. */
  ghost predicate DictOf(d: seq<WordStruct>, lines: seq<seq<string>>)
  {
    KeysOf(d, lines) && CountsOf(d, lines) && SuccsOf(d, lines)
  }

  /** Distinct keeps exactly the words of ws, each once. */
  lemma {:induction false} DistinctFacts(ws: seq<string>)
    ensures NoDup(Distinct(ws))
    ensures forall w :: w in Distinct(ws) <==> w in ws
  {
    if ws != [] {
      DistinctFacts(ws[..|ws| - 1]);
      assert ws == ws[..|ws| - 1] + [ws[|ws| - 1]];
    }
  }

  /** A word is among the keys exactly when IndexOf finds it. */
  lemma KeysIndex(d: seq<WordStruct>, w: string)
    ensures w in Keys(d) <==> IndexOf(d, w).Some?
  {
    if w in Keys(d) {
      var j :| 0 <= j < |d| && Keys(d)[j] == w;
      assert d[j].word == w;
    }
  }

  /** fill_dictionary_helper's effect record by record, when no word has two records. */
  lemma AddOccurrenceFacts(d: seq<WordStruct>, w: string)
    requires NoDup(Keys(d))
    ensures Keys(AddOccurrence(d, w)) == if w in Keys(d) then Keys(d) else Keys(d) + [w]
    ensures |AddOccurrence(d, w)| == if w in Keys(d) then |d| else |d| + 1
    ensures forall i :: 0 <= i < |d| ==>
      (AddOccurrence(d, w)[i] == d[i].(count := d[i].count + if d[i].word == w then 1 else 0))
    ensures w !in Keys(d) ==> AddOccurrence(d, w)[|d|] == WordStruct(w, 1, [])
  {
    KeysIndex(d, w);
    var r := AddOccurrence(d, w);
    match IndexOf(d, w)
    case None =>
      assert Keys(r) == Keys(d) + [w];
    case Some(k) =>
      assert Keys(r) == Keys(d);
      forall i | 0 <= i < |d| && i != k
        ensures d[i].word != w
      {
        assert Keys(d)[i] != Keys(d)[k];
      }
  }

  /** add_word_to_probability_list's effect record by record, when no word has two records. */
  lemma LinkFacts(d: seq<WordStruct>, p: string, w: string)
    requires NoDup(Keys(d)) && p in Keys(d)
    ensures Keys(Link(d, Some(p), w)) == Keys(d) && |Link(d, Some(p), w)| == |d|
    ensures forall i :: 0 <= i < |d| ==>
      (Link(d, Some(p), w)[i] == d[i].(probs := if d[i].word == p then Bump(d[i].probs, w) else d[i].probs))
  {
    KeysIndex(d, p);
    var k := IndexOf(d, p).value;
    var r := Link(d, Some(p), w);
    assert Keys(r) == Keys(d);
    forall i | 0 <= i < |d| && i != k
      ensures d[i].word != p
    {
      assert Keys(d)[i] != Keys(d)[k];
    }
  }

  /** Appending w to the last line read appends w to the words and adds the pair (last word, w). */
  lemma ExtendLine(init: seq<seq<string>>, line: seq<string>, w: string)
    ensures Flatten(init + [line + [w]]) == Flatten(init + [line]) + [w]
    ensures forall u, v ::
      (Pairs(init + [line + [w]], u, v) == Pairs(init + [line], u, v) + (if LastWord(line) == Some(u) && w == v then 1 else 0))
    ensures LastWord(line).Some? ==> LastWord(line).value in Flatten(init + [line])
  {
    assert (init + [line + [w]])[..|init|] == init;
    assert (init + [line])[..|init|] == init;
    var l := line + [w];
    assert l[..|l| - 1] == line;
    forall u, v
      ensures LinePairs(l, u, v) == LinePairs(line, u, v) + (if LastWord(line) == Some(u) && w == v then 1 else 0)
    {
      if |line| == 1 {
        assert LinePairs(line, u, v) == 0;
      }
    }
  }

  /** Distinct of the words with w appended. */
  lemma DistinctSnoc(ws: seq<string>, w: string)
    ensures Distinct(ws + [w]) == if w in ws then Distinct(ws) else Distinct(ws) + [w]
  {
    assert (ws + [w])[..|ws|] == ws;
    DistinctFacts(ws);
  }

  /** A sequence without repeats stays so when an element not in it is appended. */
  lemma NoDupSnoc(s: seq<string>, w: string)
    requires NoDup(s) && w !in s
    ensures NoDup(s + [w])
  {
    var t := s + [w];
    forall i, j | 0 <= i < j < |t|
      ensures t[i] != t[j]
    {
      if j == |s| {
        assert t[i] == s[i];
      } else {
        assert t[i] == s[i] && t[j] == s[j];
      }
    }
  }

  /**
   * Reading w after prev, record by record, when no word has two records and
   * prev has one: the keys grow by w when it is new, w's record counts one
   * more occurrence, prev's record gets one more w, and a new record for w
   * has count 1 and no successors.
   */
  lemma StepFacts(d: seq<WordStruct>, w: string, prev: Option<string>)
    requires NoDup(Keys(d)) && (prev.Some? ==> prev.value in Keys(d))
    ensures Keys(Step(d, w, prev)) == if w in Keys(d) then Keys(d) else Keys(d) + [w]
    ensures |Step(d, w, prev)| == if w in Keys(d) then |d| else |d| + 1
    ensures forall i :: 0 <= i < |d| ==>
      (Step(d, w, prev)[i] == WordStruct(d[i].word, d[i].count + (if d[i].word == w then 1 else 0),
                                         if prev == Some(d[i].word) then Bump(d[i].probs, w) else d[i].probs))
    ensures w !in Keys(d) ==> Step(d, w, prev)[|d|] == WordStruct(w, 1, [])
  {
    AddOccurrenceFacts(d, w);
    var d1 := AddOccurrence(d, w);
    if prev.Some? {
      assert prev.value in Keys(d1);
      if w !in Keys(d) {
        NoDupSnoc(Keys(d), w);
        assert prev.value != w;
      }
      LinkFacts(d1, prev.value, w);
    }
  }

  /**
   * Reading w after the words of init and line, record by record: StepFacts
   * with the keys the distinct words read so far.
   */
  lemma StepShape(d: seq<WordStruct>, init: seq<seq<string>>, line: seq<string>, w: string)
    requires KeysOf(d, init + [line])
    ensures KeysOf(Step(d, w, LastWord(line)), init + [line + [w]])
    ensures |Step(d, w, LastWord(line))| == if w in Flatten(init + [line]) then |d| else |d| + 1
    ensures forall i :: 0 <= i < |d| ==>
      (Step(d, w, LastWord(line))[i] == WordStruct(d[i].word, d[i].count + (if d[i].word == w then 1 else 0),
                                                   if LastWord(line) == Some(d[i].word) then Bump(d[i].probs, w) else d[i].probs))
    ensures w !in Flatten(init + [line]) ==> Step(d, w, LastWord(line))[|d|] == WordStruct(w, 1, [])
  {
    var F := Flatten(init + [line]);
    ExtendLine(init, line, w);
    DistinctFacts(F);
    DistinctSnoc(F, w);
    StepFacts(d, w, LastWord(line));
  }

  /** Reading one more word keeps the counts the occurrence counts. */
  lemma StepCounts(d: seq<WordStruct>, init: seq<seq<string>>, line: seq<string>, w: string)
    requires KeysOf(d, init + [line]) && CountsOf(d, init + [line])
    ensures CountsOf(Step(d, w, LastWord(line)), init + [line + [w]])
  {
    StepShape(d, init, line, w);
    ExtendLine(init, line, w);
    var F := Flatten(init + [line]);
    var r := Step(d, w, LastWord(line));
    assert multiset(F + [w]) == multiset(F) + multiset{w};
    forall i | 0 <= i < |r|
      ensures r[i].count == multiset(F + [w])[r[i].word]
    {
      if i == |d| {
        assert multiset(F)[w] == 0;
      } else {
        assert r[i].count == d[i].count + (if d[i].word == w then 1 else 0);
      }
    }
  }

  /** Reading one more word keeps the successor counts the pair counts. */
  lemma StepSuccs(d: seq<WordStruct>, init: seq<seq<string>>, line: seq<string>, w: string)
    requires KeysOf(d, init + [line]) && SuccsOf(d, init + [line])
    ensures SuccsOf(Step(d, w, LastWord(line)), init + [line + [w]])
  {
    StepShape(d, init, line, w);
    ExtendLine(init, line, w);
    var before := init + [line];
    var r := Step(d, w, LastWord(line));
    forall i, v | 0 <= i < |r|
      ensures SuccCount(r[i].probs, v) == Pairs(init + [line + [w]], r[i].word, v)
    {
      if i == |d| {
        assert w !in Flatten(before);
        PairsOfAbsent(before, w, v);
        assert LastWord(line) != Some(w);
      } else {
        var u := d[i].word;
        assert r[i].word == u;
        assert Pairs(init + [line + [w]], u, v) == Pairs(before, u, v) + (if LastWord(line) == Some(u) && w == v then 1 else 0);
        if LastWord(line) == Some(u) {
          assert r[i].probs == Bump(d[i].probs, w);
        } else {
          assert r[i].probs == d[i].probs;
        }
      }
    }
  }

  /** No pair starts with a word that does not occur. */
  lemma {:induction false} PairsOfAbsent(lines: seq<seq<string>>, u: string, v: string)
    requires u !in Flatten(lines)
    ensures Pairs(lines, u, v) == 0
  {
    if lines != [] {
      var init, last := lines[..|lines| - 1], lines[|lines| - 1];
      assert Flatten(lines) == Flatten(init) + last;
      PairsOfAbsent(init, u, v);
      LinePairsOfAbsent(last, u, v);
    }
  }

  lemma {:induction false} LinePairsOfAbsent(line: seq<string>, u: string, v: string)
    requires u !in line
    ensures LinePairs(line, u, v) == 0
  {
    if |line| >= 2 {
      LinePairsOfAbsent(line[..|line| - 1], u, v);
    }
  }

  /** Reading a line word by word keeps the dictionary the dictionary of the words read. */
  lemma {:induction false} FillLineDict(d: seq<WordStruct>, init: seq<seq<string>>, line: seq<string>)
    requires DictOf(d, init + [[]])
    ensures DictOf(FillLine(d, line), init + [line])
  {
    if line != [] {
      var l, w := line[..|line| - 1], line[|line| - 1];
      assert line == l + [w];
      FillLineDict(d, init, l);
      var e := FillLine(d, l);
      StepShape(e, init, l, w);
      StepCounts(e, init, l, w);
      StepSuccs(e, init, l, w);
    }
  }

  /**
   * The dictionary of fill_dictionary: one record per distinct word in order
   * of first appearance, with its number of occurrences and, for every
   * following word, the number of times it followed on the same line.
   */
  lemma {:induction false} FillIsDict(lines: seq<seq<string>>)
    ensures DictOf(Fill(lines), lines)
    ensures NoDup(Keys(Fill(lines)))
  {
    if lines != [] {
      var init, last := lines[..|lines| - 1], lines[|lines| - 1];
      assert init + [last] == lines;
      FillIsDict(init);
      EmptyLine(init);
      FillLineDict(Fill(init), init, last);
      assert Fill(lines) == FillLine(Fill(init), last);
    }
    assert Keys(Fill(lines)) == Distinct(Flatten(lines));
    DistinctFacts(Flatten(lines));
  }

  /** An empty line adds nothing. */
  lemma EmptyLine(init: seq<seq<string>>)
    ensures Flatten(init + [[]]) == Flatten(init)
    ensures forall u, v :: Pairs(init + [[]], u, v) == Pairs(init, u, v)
    ensures DictOf(Fill(init), init) ==> DictOf(Fill(init), init + [[]])
  {
    assert (init + [[]])[..|init|] == init;
  }

  /**
   * The lines as far as fill_dictionary reads them with a budget of n words:
   * each line cut where the budget runs out.
   */
  function Limit(lines: seq<seq<string>>, n: nat): (r: seq<seq<string>>)
    ensures |r| == |lines|
  {
    if lines == [] then []
    else
      var init := Limit(lines[..|lines| - 1], n);
      var last := lines[|lines| - 1];
      init + [last[..Min(|last|, Left(n, |Flatten(init)|))]]
  }

  function Min(a: int, b: int): int
  {
    if a < b then a else b
  }

  /** What is left of a budget of n words after used of them. */
  function Left(n: nat, used: nat): nat
  {
    if used >= n then 0 else n - used
  }

  /** The lines fill_dictionary reads for words_to_read: all of them for -1, none for other negatives. */
  function Taken(lines: seq<seq<string>>, wordsToRead: int): (r: seq<seq<string>>)
    ensures wordsToRead == -1 ==> r == lines
  {
    if wordsToRead == -1 then lines else Limit(lines, if wordsToRead < 0 then 0 else wordsToRead)
  }

  /** With a budget of n, at most n words are read, and each line read is a prefix of its line. */
  lemma {:induction false} LimitBound(lines: seq<seq<string>>, n: nat)
    ensures |Flatten(Limit(lines, n))| <= n
    ensures forall i :: 0 <= i < |lines| ==> Limit(lines, n)[i] <= lines[i]
  {
    if lines != [] {
      var init := lines[..|lines| - 1];
      LimitBound(init, n);
      var li := Limit(init, n);
      var last := lines[|lines| - 1];
      var cut := last[..Min(|last|, Left(n, |Flatten(li)|))];
      var r := Limit(lines, n);
      assert r == li + [cut];
      FlattenSnoc(li, cut);
      forall i | 0 <= i < |lines| ensures r[i] <= lines[i] {
        if i < |li| {
          assert r[i] == li[i] && lines[i] == init[i];
        }
      }
    }
  }

  /** With a budget of n, exactly min(n, word count) words are read. */
  lemma {:induction false} LimitCount(lines: seq<seq<string>>, n: nat)
    ensures |Flatten(Limit(lines, n))| == Min(n, |Flatten(lines)|)
  {
    if lines != [] {
      var init := lines[..|lines| - 1];
      var last := lines[|lines| - 1];
      LimitCount(init, n);
      var li := Limit(init, n);
      var r := Limit(lines, n);
      assert r[..|li|] == li;
      FlattenSnoc(li, r[|r| - 1]);
      FlattenSnoc(init, last);
      assert lines == init + [last];
    }
  }

  /** A budget of at least the word count reads every line whole. */
  lemma {:induction false} LimitAll(lines: seq<seq<string>>, n: nat)
    requires |Flatten(lines)| <= n
    ensures Limit(lines, n) == lines
  {
    if lines != [] {
      var init := lines[..|lines| - 1];
      var last := lines[|lines| - 1];
      assert lines == init + [last];
      FlattenSnoc(init, last);
      LimitAll(init, n);
      assert last[..Min(|last|, Left(n, |Flatten(init)|))] == last;
    }
  }

  /**
   * words_to_read == -1 reads every word, and so does a words_to_read at
   * least the file's word count; any other value reads exactly
   * min(words_to_read, word count) words (none when it is negative), a
   * prefix of each line.
   */
  lemma TakenBound(lines: seq<seq<string>>, wordsToRead: int)
    ensures wordsToRead == -1 ==> Flatten(Taken(lines, wordsToRead)) == Flatten(lines)
    ensures wordsToRead != -1 ==> |Flatten(Taken(lines, wordsToRead))| <= (if wordsToRead < 0 then 0 else wordsToRead)
    ensures wordsToRead >= 0 ==> |Flatten(Taken(lines, wordsToRead))| == Min(wordsToRead, |Flatten(lines)|)
    ensures wordsToRead >= |Flatten(lines)| ==> Taken(lines, wordsToRead) == lines
    ensures |Taken(lines, wordsToRead)| == |lines|
    ensures forall i :: 0 <= i < |lines| ==> Taken(lines, wordsToRead)[i] <= lines[i]
  {
    if wordsToRead != -1 {
      var n := if wordsToRead < 0 then 0 else wordsToRead;
      LimitBound(lines, n);
      LimitCount(lines, n);
      if wordsToRead >= |Flatten(lines)| {
        LimitAll(lines, n);
      }
    }
  }

  /** The linked list of records: its nodes first to last, and its size. */
  class Dictionary {
    var words: seq<WordStruct>
    var size: int

    ghost predicate Valid()
      reads this
    {
      size == |words|
    }

    /** The empty list: no first or last node, size 0. */
    constructor ()
      ensures Valid() && words == []
    {
      words := [];
      size := 0;
    }

    /** add: links a new node holding data after the last one; 1 when the node cannot be allocated. */
    method Add(data: WordStruct, allocOk: bool) returns (r: int)
      requires Valid()
      modifies this
      ensures Valid()
      ensures allocOk ==> r == 0 && words == old(words) + [data] && size == old(size) + 1
      ensures allocOk ==> words[|words| - 1] == data && words[0] == (if old(words) == [] then data else old(words)[0])
      ensures !allocOk ==> r == 1 && words == old(words)
    {
      if !allocOk {
        return 1;
      }
      words := words + [data];
      size := size + 1;
      return 0;
    }

    /** is_node_exist: the first node from first to last whose word is w. */
    method IsNodeExist(w: string) returns (r: Option<nat>)
      requires Valid()
      ensures r == IndexOf(words, w)
      ensures r.Some? ==> r.value < |words| && words[r.value].word == w
      ensures r.None? ==> forall j :: 0 <= j < |words| ==> words[j].word != w
    {
      if size == 0 {
        return None;
      }
      var node := 0;
      while node != size - 1
        invariant 0 <= node < size
        invariant forall j :: 0 <= j < node ==> words[j].word != w
      {
        if words[node].word == w {
          IndexOfFirst(words, w, node);
          return Some(node);
        }
        node := node + 1;
      }
      if words[node].word == w {
        IndexOfFirst(words, w, node);
        return Some(node);
      }
      return None;
    }

    /**
     * add_word_to_probability_list: one more occurrence of second after the
     * word at index first; 0 when second already had an entry, 1 when one is
     * appended.
     */
    method AddWordToProbabilityList(first: nat, second: string) returns (r: int)
      requires Valid() && first < |words|
      modifies this
      ensures Valid()
      ensures words == old(words)[first := old(words[first]).(probs := Bump(old(words[first].probs), second))]
      ensures r == (if SuccIndex(old(words[first].probs), second).Some? then 0 else 1)
    {
      var p := words[first].probs;
      if p == [] {
        assert SuccIndex(p, second).None? && Bump(p, second) == [Successor(second, 1)];
        words := words[first := words[first].(probs := [Successor(second, 1)])];
        return 1;
      }
      var i := 0;
      while i < |p|
        invariant 0 <= i <= |p|
        invariant forall j :: 0 <= j < i ==> p[j].word != second
      {
        if p[i].word == second {
          SuccIndexFirst(p, second, i);
          words := words[first := words[first].(probs := p[i := p[i].(count := p[i].count + 1)])];
          return 0;
        }
        i := i + 1;
      }
      words := words[first := words[first].(probs := p + [Successor(second, 1)])];
      return 1;
    }

    /**
     * fill_dictionary_helper: a new record with count 1 for a word with no
     * node (returned as the new node's index), one more occurrence
     * otherwise (returning newWord unchanged).
     */
    method FillDictionaryHelper(w: string, newWord: nat, nodeToCheck: Option<nat>) returns (r: nat)
      requires Valid() && nodeToCheck == IndexOf(words, w)
      modifies this
      ensures Valid() && words == AddOccurrence(old(words), w)
      ensures nodeToCheck.None? ==> r == |old(words)| && |words| == |old(words)| + 1
      ensures nodeToCheck.Some? ==> r == newWord && |words| == |old(words)|
      ensures IndexOf(words, w) == Some(if nodeToCheck.None? then r else nodeToCheck.value)
    {
      if nodeToCheck.None? {
        var status := Add(WordStruct(w, 1, []), true);
        IndexOfAppended(old(words), WordStruct(w, 1, []));
        r := |words| - 1;
      } else {
        var k := nodeToCheck.value;
        words := words[k := words[k].(count := words[k].count + 1)];
        r := newWord;
        SameKeysSameIndex(old(words), words, w);
      }
    }

    /**
     * fill_dictionary: every line, word by word while fewer than
     * words_to_read words have been read (any number for -1); the first word
     * of a line has no predecessor, every later one is linked to the one
     * before it.
     */
    method FillDictionary(lines: seq<seq<string>>, wordsToRead: int)
      requires Valid() && words == []
      modifies this
      ensures Valid() && words == Fill(Taken(lines, wordsToRead))
    {
      var budget: nat := if wordsToRead < 0 then 0 else wordsToRead;
      var i := 0;
      if wordsToRead == -1 {
        i := -2;
      }
      var newWord: nat := 0;
      var firstWord: nat := 0;
      var li := 0;
      ghost var taken: seq<seq<string>> := [];
      while li < |lines|
        invariant 0 <= li <= |lines| && Valid()
        invariant taken == Taken(lines[..li], wordsToRead)
        invariant words == Fill(taken)
        invariant wordsToRead == -1 ==> i == -2
        invariant wordsToRead != -1 ==> i == |Flatten(taken)| <= budget
      {
        var wi, i' := ReadLine(lines[li], i, wordsToRead);
        ghost var cut := lines[li][..wi];
        NextLineTaken(lines, li, wordsToRead, taken, wi, i');
        FlattenSnoc(taken, cut);
        FillSnoc(taken, cut);
        taken := taken + [cut];
        i := i';
        li := li + 1;
      }
      assert lines[..li] == lines;
    }

    /**
     * fill_dictionary's word loop over one line: words while fewer than
     * words_to_read have been read (i counts them, and stays -2 for -1); the
     * first word has no predecessor, every later one is linked to the one
     * before it. Returns how many words of the line were read and the count.
     */
    method ReadLine(line: seq<string>, i0: int, wordsToRead: int) returns (wi: nat, i: int)
      requires Valid()
      requires wordsToRead == -1 ==> i0 == -2
      requires wordsToRead != -1 ==> 0 <= i0 <= (if wordsToRead < 0 then 0 else wordsToRead)
      modifies this
      ensures Valid() && wi <= |line| && words == FillLine(old(words), line[..wi])
      ensures wordsToRead == -1 ==> i == -2 && wi == |line|
      ensures wordsToRead != -1 ==> i == i0 + wi <= (if wordsToRead < 0 then 0 else wordsToRead)
      ensures wordsToRead != -1 ==> wi == |line| || i >= wordsToRead
    {
      ghost var d := words;
      i := i0;
      wi := 0;
      var flag := false;
      var firstWord: nat := 0;
      while wi < |line| && i < wordsToRead
        invariant 0 <= wi <= |line| && Valid()
        invariant words == FillLine(d, line[..wi])
        invariant wordsToRead == -1 ==> i == -2
        invariant wordsToRead != -1 ==> i == i0 + wi <= (if wordsToRead < 0 then 0 else wordsToRead)
        invariant flag <==> wi > 0
        invariant flag ==> IndexOf(words, line[wi - 1]) == Some(firstWord)
      {
        var w := line[wi];
        if wordsToRead != -1 {
          i := i + 1;
        }
        ghost var before := words;
        firstWord := ReadWord(w, flag, firstWord);
        flag := true;
        ReadWordIsStep(d, line, wi, before);
        wi := wi + 1;
      }
    }

    /**
     * The body of fill_dictionary's word loop: look the word up, record the
     * occurrence and, after the first word of the line, link it to the
     * previous word's record. Returns the index of the word's record.
     */
    method ReadWord(w: string, flag: bool, firstWord: nat) returns (r: nat)
      requires Valid()
      requires flag ==> firstWord < |words| && IndexOf(words, words[firstWord].word) == Some(firstWord)
      modifies this
      ensures Valid()
      ensures words == Step(old(words), w, if flag then Some(old(words)[firstWord].word) else None)
      ensures IndexOf(words, w) == Some(r)
    {
      ghost var d := words;
      var nodeToCheck := IsNodeExist(w);
      var newWord := FillDictionaryHelper(w, 0, nodeToCheck);
      var secondWord := if nodeToCheck.None? then newWord else nodeToCheck.value;
      if flag {
        ghost var d1 := words;
        assert d1[firstWord].word == d[firstWord].word;
        AddOccurrenceKeepsIndex(d, w, d[firstWord].word);
        LinkAt(d1, d[firstWord].word, firstWord, w);
        var status := AddWordToProbabilityList(firstWord, w);
        SameKeysSameIndex(d1, words, w);
      }
      r := secondWord;
    }
  }

  /** An index whose word is w with no w before it is the one IndexOf finds. */
  lemma IndexOfFirst(d: seq<WordStruct>, w: string, k: nat)
    requires k < |d| && d[k].word == w && forall j :: 0 <= j < k ==> d[j].word != w
    ensures IndexOf(d, w) == Some(k)
  {
    var r := IndexOf(d, w);
    assert !(r.value < k);
  }

  lemma SuccIndexFirst(p: seq<Successor>, v: string, k: nat)
    requires k < |p| && p[k].word == v && forall j :: 0 <= j < k ==> p[j].word != v
    ensures SuccIndex(p, v) == Some(k)
  {
    var r := SuccIndex(p, v);
    assert !(r.value < k);
  }

  /** Linking w after a word whose record is at index k bumps that record's entry for w. */
  lemma LinkAt(d: seq<WordStruct>, p: string, k: nat, w: string)
    requires IndexOf(d, p) == Some(k)
    ensures Link(d, Some(p), w) == d[k := d[k].(probs := Bump(d[k].probs, w))]
  {
  }

  /** Records with the same words at every index are searched alike. */
  lemma SameKeysSameIndex(d: seq<WordStruct>, e: seq<WordStruct>, w: string)
    requires |d| == |e| && forall j :: 0 <= j < |d| ==> d[j].word == e[j].word
    ensures IndexOf(d, w) == IndexOf(e, w)
  {
    var a, b := IndexOf(d, w), IndexOf(e, w);
    if a.Some? && b.Some? {
      assert !(a.value < b.value) && !(b.value < a.value);
    }
  }

  /** A record appended for a word with no record is found at the end. */
  lemma IndexOfAppended(d: seq<WordStruct>, x: WordStruct)
    requires IndexOf(d, x.word).None?
    ensures IndexOf(d + [x], x.word) == Some(|d|)
  {
    IndexOfFirst(d + [x], x.word, |d|);
  }

  /** Recording an occurrence of w does not move the record of a word that has one. */
  lemma AddOccurrenceKeepsIndex(d: seq<WordStruct>, w: string, u: string)
    requires IndexOf(d, u).Some?
    ensures IndexOf(AddOccurrence(d, w), u) == IndexOf(d, u)
  {
    var k := IndexOf(d, u).value;
    IndexOfFirst(AddOccurrence(d, w), u, k);
  }

  /**
   * After the word loop has read wi words of a line, reading word wi is the
   * Step of the specification.
   */
  lemma ReadWordIsStep(d: seq<WordStruct>, line: seq<string>, wi: nat, before: seq<WordStruct>)
    requires wi < |line| && before == FillLine(d, line[..wi])
    ensures FillLine(d, line[..wi + 1]) == Step(before, line[wi], if wi == 0 then None else Some(line[wi - 1]))
  {
    var l := line[..wi + 1];
    assert l[..|l| - 1] == line[..wi];
  }

  /** The dictionary of the lines with one more line appended. */
  lemma FillSnoc(lines: seq<seq<string>>, line: seq<string>)
    ensures Fill(lines + [line]) == FillLine(Fill(lines), line)
  {
    assert (lines + [line])[..|lines|] == lines;
  }

  /** The line cut where fill_dictionary's word loop stopped is the next line of Taken. */
  lemma NextLineTaken(lines: seq<seq<string>>, li: nat, wordsToRead: int, taken: seq<seq<string>>, wi: nat, i: int)
    requires li < |lines| && wi <= |lines[li]| && taken == Taken(lines[..li], wordsToRead)
    requires wordsToRead == -1 ==> wi == |lines[li]|
    requires wordsToRead != -1 ==> i == |Flatten(taken)| + wi && (wi == |lines[li]| || i >= wordsToRead)
    requires wordsToRead != -1 ==> i <= (if wordsToRead < 0 then 0 else wordsToRead)
    ensures taken + [lines[li][..wi]] == Taken(lines[..li + 1], wordsToRead)
  {
    var L := lines[..li + 1];
    assert L[..|L| - 1] == lines[..li] && L[|L| - 1] == lines[li];
    if wordsToRead == -1 {
      assert lines[li][..wi] == lines[li];
      assert L == lines[..li] + [lines[li]];
    } else {
      var n: nat := if wordsToRead < 0 then 0 else wordsToRead;
      assert Limit(L, n) == Limit(lines[..li], n) + [lines[li][..Min(|lines[li]|, Left(n, |Flatten(taken)|))]];
      assert wi == Min(|lines[li]|, Left(n, |Flatten(taken)|));
    }
  }

  /** The words of the lines with one more line appended. */
  lemma FlattenSnoc(lines: seq<seq<string>>, line: seq<string>)
    ensures Flatten(lines + [line]) == Flatten(lines) + line
  {
    assert (lines + [line])[..|lines|] == lines;
  }
}

=== FILE: vector.dfy ===
/**
 * The generic growable array of ex4/vector.c.
 *
 * The vector owns its elements, rejects a value that is already present,
 * doubles its capacity when the load factor passes 0.75 and halves it when
 * the load factor drops below 0.25. Allocation outcomes are parameters: each
 * `...Ok` flag says whether the corresponding realloc or element copy
 * succeeds.
 *
 * `Vec` and the functions over it are the specification; the class
 * `Vector` is the in-place implementation over an array and is proved to
 * follow them. The hash map keeps its buckets as `Vec` values.
 */
module Vector {
  import opened Wrappers
  import opened Sizing

  const VECTOR_INITIAL_CAP: nat := 16

  /** The observable state of a vector: its live elements and its capacity. */
  datatype Vec<T> = Vec(elems: seq<T>, capacity: nat)

  /** No element occurs twice. */
  predicate NoDup<T(==)>(s: seq<T>)
  {
    forall i, j :: 0 <= i < j < |s| ==> s[i] != s[j]
  }

  /**
   * The vector invariant: size <= capacity, the capacity is a power of two,
   * the load factor never exceeds 0.75, and elements are pairwise distinct.
   */
  predicate VecValid<T(==)>(v: Vec<T>)
  {
    |v.elems| <= v.capacity && IsPow2(v.capacity) && 4 * |v.elems| <= 3 * v.capacity && NoDup(v.elems)
  }

  /** vector_alloc on success: no elements, VECTOR_INITIAL_CAP slots. */
  function Empty<T>(): Vec<T>
  {
    Vec([], VECTOR_INITIAL_CAP)
  }

  /**
   * vector_push_back: reject a duplicate; otherwise provisionally grow the
   * size, double the capacity when the load factor passes 0.75 (growOk: the
   * realloc succeeds), copy the value (copyOk: the copy succeeds). A failed
   * copy after a successful growth keeps the larger capacity.
   */
  function VecPushBack<T(==)>(v: Vec<T>, x: T, growOk: bool, copyOk: bool): (Vec<T>, bool)
  {
    if x in v.elems then (v, false)
    else
      var grow := AboveMaxLoad(|v.elems| + 1, v.capacity);
      var cap := if grow && growOk then v.capacity * VECTOR_GROWTH_FACTOR else v.capacity;
      if copyOk && (!grow || growOk) then (Vec(v.elems + [x], cap), true)
      else (Vec(v.elems, cap), false)
  }

  /**
   * vector_erase: an index outside the live range fails; otherwise the size
   * drops by one, the capacity halves when the load factor falls below 0.25
   * (shrinkOk: that realloc succeeds, else nothing changes), and the later
   * elements move down one place.
   */
  function VecErase<T>(v: Vec<T>, ind: nat, shrinkOk: bool): (Vec<T>, bool)
  {
    if ind >= |v.elems| then (v, false)
    else
      var shrink := BelowMinLoad(|v.elems| - 1, v.capacity);
      if shrink && !shrinkOk then (v, false)
      else (Vec(v.elems[..ind] + v.elems[ind + 1..], if shrink then v.capacity / VECTOR_GROWTH_FACTOR else v.capacity), true)
  }

  /** vector_clear: every element goes, the capacity stays. */
  function VecClear<T>(v: Vec<T>): Vec<T>
  {
    Vec([], v.capacity)
  }

  lemma EmptyValid<T>()
    ensures VecValid(Empty<T>())
  {
    assert IsPow2(2) && IsPow2(4) && IsPow2(8);
  }

  /** Pushing a value that is already present changes nothing and reports failure. */
  lemma PushBackDuplicate<T>(v: Vec<T>, x: T, growOk: bool, copyOk: bool)
    requires x in v.elems
    ensures VecPushBack(v, x, growOk, copyOk) == (v, false)
  {
  }

  /**
   * A successful push puts x at index old size, keeps the earlier elements,
   * and succeeds exactly when x is new and every allocation it needs succeeds.
   */
  lemma PushBackAppends<T>(v: Vec<T>, x: T, growOk: bool, copyOk: bool)
    ensures var (v', ok) := VecPushBack(v, x, growOk, copyOk);
      && (ok <==> x !in v.elems && copyOk && (growOk || !AboveMaxLoad(|v.elems| + 1, v.capacity)))
      && (ok ==> |v'.elems| == |v.elems| + 1 && v'.elems[|v.elems|] == x && v'.elems[..|v.elems|] == v.elems)
      && (!ok ==> v'.elems == v.elems)
  {
    var (v', ok) := VecPushBack(v, x, growOk, copyOk);
    if ok {
      assert v'.elems == v.elems + [x];
      assert v'.elems[..|v.elems|] == v.elems;
    }
  }

  /**
   * The capacity doubles exactly when a new value pushes the load factor past
   * 0.75 and the realloc succeeds; otherwise it is unchanged.
   */
  lemma PushBackCapacity<T>(v: Vec<T>, x: T, growOk: bool, copyOk: bool)
    ensures VecPushBack(v, x, growOk, copyOk).0.capacity ==
      if x !in v.elems && AboveMaxLoad(|v.elems| + 1, v.capacity) && growOk then 2 * v.capacity else v.capacity
  {
  }

  /** push_back keeps the vector invariant, whatever the allocations do. */
  lemma {:induction false} PushBackValid<T>(v: Vec<T>, x: T, growOk: bool, copyOk: bool)
    requires VecValid(v)
    ensures VecValid(VecPushBack(v, x, growOk, copyOk).0)
  {
    var (v', ok) := VecPushBack(v, x, growOk, copyOk);
    if x !in v.elems {
      var n := |v.elems|;
      if AboveMaxLoad(n + 1, v.capacity) && growOk {
        Pow2Double(v.capacity);
      }
      if ok {
        NoDupAppend(v.elems, x);
        LoadAfterPush(n, v.capacity);
      }
    }
  }

  /** Appending a new element keeps the elements distinct. */
  lemma NoDupAppend<T>(s: seq<T>, x: T)
    requires NoDup(s) && x !in s
    ensures NoDup(s + [x])
  {
    var t := s + [x];
    forall i, j | 0 <= i < j < |t|
      ensures t[i] != t[j]
    {
      assert t[i] == s[i];
    }
  }

  /**
   * From a load of at most 0.75, one more element fits at most 0.75 of the
   * capacity, or of twice the capacity when it passes 0.75.
   */
  lemma LoadAfterPush(n: nat, c: nat)
    requires IsPow2(c) && 4 * n <= 3 * c
    ensures !AboveMaxLoad(n + 1, c) ==> n + 1 <= c
    ensures AboveMaxLoad(n + 1, c) ==> n + 1 <= 2 * c && 4 * (n + 1) <= 3 * (2 * c)
  {
    Pow2Positive(c);
  }

  /** Erase removes exactly the element at ind, keeping the order of the others. */
  lemma EraseRemoves<T>(v: Vec<T>, ind: nat, shrinkOk: bool)
    ensures var (v', ok) := VecErase(v, ind, shrinkOk);
      && (ok <==> ind < |v.elems| && (shrinkOk || !BelowMinLoad(|v.elems| - 1, v.capacity)))
      && (ok ==> |v'.elems| == |v.elems| - 1
                 && (forall i :: 0 <= i < ind ==> v'.elems[i] == v.elems[i])
                 && (forall i :: ind <= i < |v'.elems| ==> v'.elems[i] == v.elems[i + 1]))
      && (!ok ==> v' == v)
  {
  }

  /** The capacity halves exactly when a successful erase leaves the load factor below 0.25. */
  lemma EraseCapacity<T>(v: Vec<T>, ind: nat, shrinkOk: bool)
    ensures var (v', ok) := VecErase(v, ind, shrinkOk);
      v'.capacity == if ok && BelowMinLoad(|v.elems| - 1, v.capacity) then v.capacity / 2 else v.capacity
  {
  }

  /** Erase keeps the vector invariant; in particular the capacity never reaches 0. */
  lemma {:induction false} EraseValid<T>(v: Vec<T>, ind: nat, shrinkOk: bool)
    requires VecValid(v)
    ensures VecValid(VecErase(v, ind, shrinkOk).0)
  {
    var (v', ok) := VecErase(v, ind, shrinkOk);
    if ok {
      var n := |v.elems|;
      assert v'.elems == v.elems[..ind] + v.elems[ind + 1..];
      forall i, j | 0 <= i < j < |v'.elems| ensures v'.elems[i] != v'.elems[j] {
        var i' := if i < ind then i else i + 1;
        var j' := if j < ind then j else j + 1;
        assert v'.elems[i] == v.elems[i'] && v'.elems[j] == v.elems[j'];
      }
      if BelowMinLoad(n - 1, v.capacity) {
        if v.capacity == 1 {
          assert false;
        }
        Pow2Half(v.capacity);
      }
    }
  }

  /** Clearing twice is clearing once, and a cleared vector has no elements and the same capacity. */
  lemma ClearIdempotent<T>(v: Vec<T>)
    ensures VecClear(VecClear(v)) == VecClear(v)
    ensures VecClear(v).elems == [] && VecClear(v).capacity == v.capacity
  {
  }

  /**
   * The in-place vector: `data` is the realloc'd buffer of `capacity` slots,
   * the first `size` of which hold the live elements.
   */
  class Vector<T(0,==)> {
    var data: array<T>
    var size: nat
    var capacity: nat

    ghost predicate Valid()
      reads this, data
    {
      size <= data.Length && data.Length == capacity && VecValid(Model())
    }

    /** A buffer of the right length standing for a valid Vec makes the vector valid. */
    lemma ValidFrom(v: Vec<T>)
      requires size <= data.Length && data.Length == capacity && Model() == v && VecValid(v)
      ensures Valid()
    {
    }

    /** The specification value this vector stands for. */
    ghost function Model(): Vec<T>
      reads this, data
      requires size <= data.Length
    {
      Vec(data[..size], capacity)
    }

    /** vector_alloc once the struct and its buffer are allocated. */
    constructor ()
      ensures Valid() && fresh(data)
      ensures Model() == Empty()
    {
      data := new T[VECTOR_INITIAL_CAP];
      size := 0;
      capacity := VECTOR_INITIAL_CAP;
      new;
      EmptyValid<T>();
    }

    /**
     * update_capacity: set the capacity and realloc the buffer; when the
     * realloc fails the old capacity is restored and 0 returned. The realloc
     * keeps the first min(old, new) slots.
     */
    method UpdateCapacity(newCapacity: nat, allocOk: bool) returns (ok: bool)
      modifies this
      ensures ok == allocOk && size == old(size)
      ensures ok ==> capacity == newCapacity && fresh(data) && data.Length == newCapacity
      ensures ok ==> var n := if old(data.Length) < newCapacity then old(data.Length) else newCapacity;
                     data[..n] == old(data[..n])
      ensures !ok ==> capacity == old(capacity) && data == old(data)
    {
      var oldCapacity := capacity;
      capacity := newCapacity;
      if !allocOk {
        capacity := oldCapacity;
        return false;
      }
      var temp := new T[newCapacity];
      var n := if data.Length < newCapacity then data.Length else newCapacity;
      forall i | 0 <= i < n {
        temp[i] := data[i];
      }
      data := temp;
      return true;
    }

    /** vector_at: the live element at ind, or None past the end. */
    function At(ind: nat): (r: Option<T>)
      reads this, data
      requires Valid()
      ensures ind < size ==> r == Some(Model().elems[ind])
      ensures ind >= size ==> r == None
    {
      if size <= ind then None else Some(data[ind])
    }

    /** vector_get_load_factor: size / capacity, which the vector keeps at most 0.75. */
    function LoadFactor(): (r: real)
      reads this, data
      requires Valid()
      ensures 0.0 <= r <= MAX_LOAD_FACTOR
      ensures r == 0.0 <==> size == 0
    {
      LoadFactorBounds(size, capacity);
      Sizing.LoadFactor(size, capacity)
    }

    /** vector_find: the smallest index holding value, or -1 when there is none. */
    method Find(value: T) returns (r: int)
      requires Valid()
      ensures -1 <= r < size
      ensures r == -1 <==> value !in data[..size]
      ensures r >= 0 ==> data[r] == value && value !in data[..r]
    {
      var j := 0;
      while j < size
        invariant 0 <= j <= size
        invariant value !in data[..j]
      {
        if data[j] == value {
          return j;
        }
        j := j + 1;
      }
      assert data[..j] == data[..size];
      return -1;
    }

    /** vector_push_back, following the specification function VecPushBack. */
    method PushBack(value: T, growOk: bool, copyOk: bool) returns (ok: bool)
      requires Valid()
      modifies this, data
      ensures Valid()
      ensures (Model(), ok) == VecPushBack(old(Model()), value, growOk, copyOk)
    {
      var found := Find(value);
      if found != -1 {
        return false;
      }
      ok := PushNew(value, growOk, copyOk);
    }

    /** vector_push_back once value is known to be absent. */
    method PushNew(value: T, growOk: bool, copyOk: bool) returns (ok: bool)
      requires Valid() && value !in Model().elems
      modifies this, data
      ensures Valid()
      ensures (Model(), ok) == VecPushBack(old(Model()), value, growOk, copyOk)
    {
      ghost var before := Model();
      ghost var after := VecPushBack(before, value, growOk, copyOk).0;
      PushBackValid(before, value, growOk, copyOk);
      size := size + 1;
      var check := true;
      if AboveMaxLoad(size, capacity) {
        check := UpdateCapacity(capacity * VECTOR_GROWTH_FACTOR, growOk);
      }
      assert data[..size - 1] == before.elems;
      assert capacity == after.capacity;
      if !copyOk {
        size := size - 1;
        ok := false;
        ValidFrom(after);
      } else if check {
        data[size - 1] := value;
        assert data[..size] == before.elems + [value];
        ok := true;
        ValidFrom(after);
      } else {
        size := size - 1;
        ok := false;
        ValidFrom(after);
      }
    }

    /**
     * The shift loop of vector_erase: slots ind+1..last move down one place
     * and the vacated slot `last` is cleared.
     */
    method ShiftDown(ind: nat, last: nat)
      requires ind <= last < data.Length
      modifies data
      ensures data[..last] == old(data[..last + 1])[..ind] + old(data[..last + 1])[ind + 1..]
      ensures data[last + 1..] == old(data[last + 1..])
    {
      ghost var before := data[..last + 1];
      var j := ind;
      while j < last + 1
        invariant ind <= j <= last + 1
        invariant forall t :: 0 <= t < ind ==> data[t] == before[t]
        invariant forall t :: ind <= t < j && t < last ==> data[t] == before[t + 1]
        invariant forall t :: j <= t <= last ==> data[t] == before[t]
        invariant data[last + 1..] == old(data[last + 1..])
        modifies data
      {
        if j == last {
          var cleared: T := *;
          data[j] := cleared;
        } else {
          data[j] := data[j + 1];
        }
        j := j + 1;
      }
      assert data[..last] == before[..ind] + before[ind + 1..];
    }

    /** vector_erase, following the specification function VecErase. */
    method Erase(ind: nat, shrinkOk: bool) returns (ok: bool)
      requires Valid()
      modifies this, data
      ensures Valid()
      ensures (Model(), ok) == VecErase(old(Model()), ind, shrinkOk)
    {
      if size <= ind {
        return false;
      }
      ok := EraseAt(ind, shrinkOk);
    }

    /** vector_erase once ind is known to be a live index. */
    method EraseAt(ind: nat, shrinkOk: bool) returns (ok: bool)
      requires Valid() && ind < size
      modifies this, data
      ensures Valid()
      ensures (Model(), ok) == VecErase(old(Model()), ind, shrinkOk)
    {
      ghost var before := Model();
      size := size - 1;
      var check := true;
      if BelowMinLoad(size, capacity) {
        if capacity == 1 {
          assert false;
        }
        check := UpdateCapacity(capacity / VECTOR_GROWTH_FACTOR, shrinkOk);
      }
      if !check {
        size := size + 1;
        return false;
      }
      assert size + 1 <= data.Length;
      assert data[..size + 1] == before.elems;
      ShiftDown(ind, size);
      assert data[..size] == before.elems[..ind] + before.elems[ind + 1..];
      EraseValid(before, ind, shrinkOk);
      return true;
    }

    /** vector_clear: release every live element; the capacity is unchanged. */
    method Clear()
      requires Valid()
      modifies this, data
      ensures Valid() && data == old(data)
      ensures Model() == VecClear(old(Model()))
    {
      var j := 0;
      // The free loop: elem_free_func releases slot j and the slot is set
      // to NULL. T has no NULL, so the freed slot gets an arbitrary value,
      // which Model() no longer reads once size is 0.
      while j < size
        invariant 0 <= j <= size
        modifies data
      {
        var cleared: T := *;
        data[j] := cleared;
        j := j + 1;
      }
      size := 0;
    }
  }

  /**
   * vector_alloc: NULL (None here) when a copy, compare or free callback is
   * missing or the allocation fails; otherwise an empty vector with
   * VECTOR_INITIAL_CAP slots.
   */
  method Alloc<T(0,==)>(hasCopy: bool, hasCmp: bool, hasFree: bool, allocOk: bool) returns (v: Vector?<T>)
    ensures v == null <==> !(hasCopy && hasCmp && hasFree && allocOk)
    ensures v != null ==> fresh(v) && fresh(v.data) && v.Valid() && v.size == 0 && v.capacity == VECTOR_INITIAL_CAP
  {
    if !hasCopy || !hasCmp || !hasFree {
      return null;
    }
    if !allocOk {
      return null;
    }
    v := new Vector();
  }
}

=== FILE: vl_string.dfy ===
/**
 * ex6/vl_string.h: a NUL-terminated string on top of vl_vector<char>. The
 * underlying vector always ends with '\0', so the string's size is the
 * vector's element count minus one. The string here uses the default static
 * capacity STATIC_CAPACITY, as the vl_string<> copies made by operator+ do.
 */
module VlStrings {
  import opened VlVectors

  /** The C string of s: its characters up to the first '\0'. */
  function CStr(s: seq<char>): (r: seq<char>)
    ensures |r| <= |s| && r == s[..|r|] && '\0' !in r
    ensures |r| < |s| ==> s[|r|] == '\0'
  {
    if s == [] || s[0] == '\0' then [] else [s[0]] + CStr(s[1..])
  }

  /** needle occurs in hay from index i on. */
  predicate OccursAt(needle: seq<char>, hay: seq<char>, i: int)
  {
    0 <= i <= |hay| - |needle| && hay[i..i + |needle|] == needle
  }

  /** needle occurs in hay as a contiguous run of characters. */
  predicate Occurs(needle: seq<char>, hay: seq<char>)
  {
    exists i | 0 <= i <= |hay| :: OccursAt(needle, hay, i)
  }

  /** A run that occurs in hay occurs in hay with more characters appended. */
  lemma OccursInExtension(needle: seq<char>, hay: seq<char>, more: seq<char>)
    requires Occurs(needle, hay)
    ensures Occurs(needle, hay + more)
  {
    var i :| 0 <= i <= |hay| && OccursAt(needle, hay, i);
    assert (hay + more)[i..i + |needle|] == needle;
    assert OccursAt(needle, hay + more, i);
  }

  class VlString {
    const vec: VlVector<char>

    /** The vector is valid and its last element is the terminator. */
    ghost predicate Valid()
      reads this, vec, vec.current
    {
      vec.Valid() && vec.staticCapacity == STATIC_CAPACITY
      && vec.size >= 1 && vec.current[vec.size - 1] == '\0'
    }

    /** The characters before the terminator. */
    ghost function Text(): seq<char>
      reads this, vec, vec.current
      requires Valid()
    {
      vec.current[..vec.size - 1]
    }

    /** The whole buffer in use, terminator included, is the text followed by '\0'. */
    lemma Terminated()
      requires Valid()
      ensures vec.Elems() == Text() + ['\0']
    {
      assert vec.Elems() == vec.current[..vec.size - 1] + [vec.current[vec.size - 1]];
    }

    /** The default constructor: the empty string, '\0' at index 0. */
    constructor ()
      ensures Valid() && Text() == [] && vec.current[0] == '\0'
      ensures fresh(vec) && fresh(vec.staticArr) && fresh(vec.heapArr)
    {
      vec := new VlVector<char>(STATIC_CAPACITY);
      new;
      vec.size := 1;
      vec.staticArr[0] := '\0';
    }

    /** The constructor from a C string: its characters, then '\0'. */
    constructor FromCString(str: seq<char>)
      requires '\0' !in str
      ensures Valid() && Text() == str && |Text()| == |str|
      ensures fresh(vec) && fresh(vec.staticArr) && fresh(vec.heapArr)
    {
      vec := new VlVector<char>.FromRange(STATIC_CAPACITY, str + ['\0']);
      new;
      assert vec.Elems() == str + ['\0'];
      assert vec.current[..vec.size - 1] == vec.Elems()[..|str|];
    }

    /** The copy constructor. */
    constructor Clone(other: VlString)
      requires other.Valid()
      ensures Valid() && Text() == other.Text()
      ensures fresh(vec) && fresh(vec.staticArr) && fresh(vec.heapArr)
    {
      vec := new VlVector<char>.Clone(other.vec);
      new;
      assert vec.current[..vec.size] == other.vec.current[..other.vec.size];
      assert vec.current[vec.size - 1] == vec.current[..vec.size][vec.size - 1];
      assert vec.current[..vec.size - 1] == vec.current[..vec.size][..vec.size - 1];
      assert other.vec.current[..other.vec.size - 1] == other.vec.current[..other.vec.size][..other.vec.size - 1];
    }

    /** size(): the element count of the vector minus the terminator. */
    function Size(): (r: nat)
      reads this, vec, vec.current
      requires Valid()
      ensures r == |Text()| && r == |vec.Elems()| - 1
    {
      vec.size - 1
    }

    /** empty(): the text is empty. */
    function Empty(): (r: bool)
      reads this, vec, vec.current
      requires Valid()
      ensures r <==> Text() == []
    {
      Size() == 0
    }

    /**
     * contains(str): strstr finds str in the buffer, which it reads as a C
     * string, up to the first '\0'.
     */
    function Contains(str: seq<char>): (r: bool)
      reads this, vec, vec.current
      requires Valid() && '\0' !in str
      ensures r ==> Occurs(str, Text())
      ensures '\0' !in Text() ==> (r <==> Occurs(str, Text()))
      ensures str == [] ==> r
    {
      assert vec.current[..vec.size] == Text() + ['\0'];
      CStrSearch(Text(), str);
      Occurs(str, CStr(vec.current[..vec.size]))
    }

    /** push_back(c): c before the terminator, which moves one place to the right. */
    method PushBack(c: char)
      requires Valid()
      modifies vec, vec.current
      ensures Valid() && Text() == old(Text()) + [c]
      ensures old(vec.ToIncrease(1)) ==> vec.isHeap && vec.Capacity() == vec.CapC(old(vec.size), 1)
    {
      ghost var t := Text();
      vec.Reserve(1);
      assert vec.current[..vec.size - 1] == t;
      vec.current[vec.size - 1] := c;
      vec.current[vec.size] := '\0';
      vec.size := vec.size + 1;
      assert vec.current[..vec.size - 1] == t + [c];
    }

    /** delete_last: the terminator moves over the last character. */
    method DeleteLast()
      requires vec.Storage() && vec.size >= 2 && vec.current[vec.size - 1] == '\0'
      modifies vec, vec.current
      ensures vec.Storage() && vec.size == old(vec.size) - 1 && vec.current == old(vec.current)
      ensures vec.isHeap == old(vec.isHeap) && vec.heapCapacity == old(vec.heapCapacity) && vec.heapArr == old(vec.heapArr)
      ensures vec.current[..vec.size - 1] == old(vec.current[..vec.size - 2])
      ensures vec.current[vec.size - 1] == '\0'
    {
      vec.current[vec.size - 2] := vec.current[vec.size - 1];
      vec.size := vec.size - 1;
    }

    /** pop_back: nothing on the empty string; otherwise the last character goes. */
    method PopBack()
      requires Valid()
      modifies vec, vec.current, vec.staticArr
      ensures Valid()
      ensures old(Text()) == [] ==> Text() == []
      ensures old(Text()) != [] ==> Text() == old(Text()[..|Text()| - 1])
      ensures old(vec.size) == vec.staticCapacity + 1 ==> !vec.isHeap && vec.heapCapacity == 0
      ensures old(vec.size) != vec.staticCapacity + 1 ==>
                vec.isHeap == old(vec.isHeap) && vec.heapCapacity == old(vec.heapCapacity)
                && vec.heapArr == old(vec.heapArr) && vec.Capacity() == old(vec.Capacity())
    {
      if Empty() {
        return;
      }
      if vec.ToDecrease(1) {
        DeleteLast();
        ghost var t := vec.current[..vec.size];
        vec.CopyToStack();
        assert vec.current[..vec.size] == t;
        assert vec.current[..vec.size - 1] == t[..vec.size - 1];
      } else {
        DeleteLast();
      }
    }

    /** clear: the empty string, '\0' at index 0 of the static buffer. */
    method Clear()
      requires Valid()
      modifies vec, vec.staticArr
      ensures Valid() && Text() == [] && !vec.isHeap
    {
      vec.size := 1;
      if vec.isHeap {
        vec.isHeap := false;
        vec.current := vec.staticArr;
      }
      vec.staticArr[0] := '\0';
    }

    /** operator+=(const char*): the characters of str and a new terminator written over the old one. */
    method AppendCString(str: seq<char>)
      requires Valid() && '\0' !in str
      modifies vec, vec.current
      ensures Valid() && Text() == old(Text()) + str && Size() == old(Size()) + |str|
      ensures old(vec.ToIncrease(|str|)) ==> vec.isHeap && vec.Capacity() == vec.CapC(old(vec.size), |str|)
    {
      ghost var t := Text();
      var n := |str|;
      vec.Reserve(n);
      var arr := vec.current;
      var p := vec.size - 1;
      assert arr[..p] == t;
      CopyInto(arr, p, str + ['\0'], p + n + 1);
      AppendedText(arr[..], p, t, str);
      vec.size := vec.size + n;
    }

    /** operator+=(char): push_back. */
    method AppendChar(c: char)
      requires Valid()
      modifies vec, vec.current
      ensures Valid() && Text() == old(Text()) + [c]
    {
      PushBack(c);
    }

    /** operator+(const char*): a new string holding this text followed by str; this string is not modified. */
    method PlusCString(str: seq<char>) returns (r: VlString)
      requires Valid() && '\0' !in str
      ensures fresh(r) && fresh(r.vec) && r.Valid() && r.Text() == Text() + str
    {
      r := new VlString.Clone(this);
      r.AppendCString(str);
    }

    /** operator+(char): a new string holding this text followed by c; this string is not modified. */
    method PlusChar(c: char) returns (r: VlString)
      requires Valid()
      ensures fresh(r) && fresh(r.vec) && r.Valid() && r.Text() == Text() + [c]
    {
      r := new VlString.Clone(this);
      r.PushBack(c);
    }
  }

  /** A buffer holding t, then str and '\0' from index |t| on, holds t + str and then '\0'. */
  lemma AppendedText(a: seq<char>, p: nat, t: seq<char>, str: seq<char>)
    requires p + |str| + 1 <= |a| && a[..p] == t && a[p..p + |str| + 1] == str + ['\0']
    ensures a[..p + |str|] == t + str && a[p + |str|] == '\0'
  {
    assert a[p + |str|] == a[p..p + |str| + 1][|str|];
    assert a[..p + |str|] == a[..p] + a[p..p + |str| + 1][..|str|];
  }

  /** The C string of a text followed by '\0' is a prefix of the text, all of it when the text has no '\0'. */
  lemma {:induction false} CStrOfTerminated(t: seq<char>)
    ensures |CStr(t + ['\0'])| <= |t| && CStr(t + ['\0']) == t[..|CStr(t + ['\0'])|]
    ensures '\0' !in t ==> CStr(t + ['\0']) == t
  {
    var s := t + ['\0'];
    if t != [] && t[0] != '\0' {
      assert s[1..] == t[1..] + ['\0'];
      CStrOfTerminated(t[1..]);
    }
  }

  /** Searching the C string of a terminated text finds only runs of the text, and all of them when the text has no '\0'. */
  lemma CStrSearch(t: seq<char>, str: seq<char>)
    ensures Occurs(str, CStr(t + ['\0'])) ==> Occurs(str, t)
    ensures '\0' !in t ==> (Occurs(str, CStr(t + ['\0'])) <==> Occurs(str, t))
    ensures str == [] ==> Occurs(str, CStr(t + ['\0']))
  {
    var hay := CStr(t + ['\0']);
    CStrOfTerminated(t);
    if Occurs(str, hay) {
      var i :| 0 <= i <= |hay| && OccursAt(str, hay, i);
      assert t[i..i + |str|] == str;
      assert OccursAt(str, t, i);
    }
    if str == [] {
      assert OccursAt(str, hay, 0);
    }
  }
}

=== FILE: vl_vector.dfy ===
/**
 * ex6/vl_vector.h: a vector with a small-buffer optimisation. Up to
 * StaticCapacity elements live in a fixed array inside the object; beyond
 * that they move to a heap array whose capacity follows cap_c, and they move
 * back when the size drops to StaticCapacity again.
 */
module VlVectors {
  import opened Wrappers

  /** STATIC_CAPACITY, the default of the StaticCapacity template parameter. */
  const STATIC_CAPACITY: nat := 16

  class VlVector<T(0,==)> {
    const staticCapacity: nat
    var size: nat
    var heapCapacity: nat
    const staticArr: array<T>
    var heapArr: array<T>
    var current: array<T>
    var isHeap: bool

    /** The buffer layout: current is the static array or the heap array, as isHeap says. */
    ghost predicate Storage()
      reads this
    {
      staticArr.Length == staticCapacity && staticArr != heapArr
      && (isHeap ==> heapArr.Length == heapCapacity)
      && current == (if isHeap then heapArr else staticArr)
      && size <= current.Length
    }

    /** Storage, plus: the elements are on the heap exactly when they do not fit the static array. */
    ghost predicate Valid()
      reads this
    {
      Storage() && (isHeap <==> size > staticCapacity)
    }

    /** The elements, in order. */
    ghost function Elems(): seq<T>
      reads this, current
      requires size <= current.Length
    {
      current[..size]
    }

    /** cap_c: the capacity for size + k elements. */
    function CapC(size: nat, k: nat): (r: nat)
      ensures r >= size + k && r >= staticCapacity
      ensures size + k <= staticCapacity ==> r == staticCapacity
      ensures size + k > staticCapacity ==> r < 2 * (size + k)
    {
      if size + k <= staticCapacity then staticCapacity else (3 * (size + k)) / 2
    }

    /** capacity(): the heap capacity on the heap, StaticCapacity otherwise. */
    function Capacity(): (r: nat)
      reads this
      ensures Valid() ==> size <= r && (isHeap <==> r > staticCapacity)
    {
      if isHeap then heapCapacity else staticCapacity
    }

    /**
     * to_increase: k more elements do not fit the current capacity. When
     * they do not, they need the heap; when they do, the buffer in use
     * holds them.
     */
    predicate ToIncrease(k: nat): (r: bool)
      reads this
      ensures Valid() && r ==> size + k > staticCapacity
      ensures Valid() && !r ==> size + k <= current.Length
    {
      size + k > Capacity()
    }

    /**
     * to_decrease: removing k elements brings a heap-sized vector back
     * within StaticCapacity. The size_t difference size - k wraps round
     * when k > size, which the first test then rejects.
     */
    predicate ToDecrease(k: nat): (r: bool)
      reads this
      ensures Valid() && k <= size ==> (r <==> isHeap && size - k <= staticCapacity)
      ensures k > size ==> !r
    {
      if k > size then false
      else if size - k > staticCapacity then false
      else size > staticCapacity && size - k <= staticCapacity
    }

    /** The default constructor: no elements, static storage. */
    constructor (staticCapacity: nat)
      ensures Valid() && fresh(staticArr) && fresh(heapArr)
      ensures Elems() == [] && !isHeap && Capacity() == staticCapacity
      ensures this.staticCapacity == staticCapacity
    {
      this.staticCapacity := staticCapacity;
      size := 0;
      heapCapacity := 0;
      staticArr := new T[staticCapacity];
      heapArr := new T[0];
      new;
      current := staticArr;
      isHeap := false;
    }

    /** The sequence-based constructor: the elements of src, on the heap when they exceed StaticCapacity. */
    constructor FromRange(staticCapacity: nat, src: seq<T>)
      ensures Valid() && fresh(staticArr) && fresh(heapArr)
      ensures Elems() == src && this.staticCapacity == staticCapacity
      ensures isHeap ==> Capacity() == CapC(0, |src|)
    {
      this.staticCapacity := staticCapacity;
      staticArr := new T[staticCapacity];
      var n := |src|;
      if n > staticCapacity {
        var newCap := if 0 + n <= staticCapacity then staticCapacity else (3 * (0 + n)) / 2;
        heapArr := new T[newCap];
        isHeap := true;
        heapCapacity := newCap;
        size := n;
      } else {
        heapArr := new T[0];
        isHeap := false;
        size := n;
        heapCapacity := 0;
      }
      new;
      current := if isHeap then heapArr else staticArr;
      var i := 0;
      while i < n
        invariant 0 <= i <= n
        invariant Valid() && size == n
        invariant current[..i] == src[..i]
        modifies current
      {
        current[i] := src[i];
        i := i + 1;
      }
    }

    /** The copy constructor, with a heap buffer as large as the source's capacity. */
    constructor Clone(other: VlVector<T>)
      requires other.Valid()
      ensures Valid() && fresh(staticArr) && fresh(heapArr)
      ensures Elems() == other.Elems() && staticCapacity == other.staticCapacity
      ensures Capacity() == other.Capacity()
    {
      staticCapacity := other.staticCapacity;
      size := other.size;
      heapCapacity := other.heapCapacity;
      isHeap := other.isHeap;
      staticArr := new T[other.staticCapacity];
      if other.isHeap {
        heapArr := new T[other.heapCapacity];
      } else {
        heapArr := new T[0];
      }
      new;
      current := if isHeap then heapArr else staticArr;
      var i := 0;
      while i < size
        invariant 0 <= i <= size
        invariant Valid() && size == other.size
        invariant current[..i] == other.current[..i]
        modifies current
      {
        current[i] := other.current[i];
        i := i + 1;
      }
    }

    /** copy_to_heap: move the elements into a fresh heap array of newCapacity slots. */
    method CopyToHeap(newCapacity: nat)
      requires Storage() && size <= newCapacity
      modifies this
      ensures Storage() && isHeap && heapCapacity == newCapacity && fresh(heapArr)
      ensures size == old(size) && Elems() == old(Elems())
    {
      var temp := new T[newCapacity];
      var i := 0;
      while i < size
        invariant 0 <= i <= size
        invariant temp[..i] == current[..i]
        modifies temp
      {
        temp[i] := current[i];
        i := i + 1;
      }
      assert temp[..size] == current[..size];
      heapArr := temp;
      current := heapArr;
      heapCapacity := newCapacity;
      isHeap := true;
    }

    /**
     * The growth step of push_back, insert and the string's operator+=:
     * when k more elements do not fit, copy_to_heap with cap_c(size, k).
     */
    method Reserve(k: nat)
      requires Valid()
      modifies this
      ensures Storage() && size == old(size) && Elems() == old(Elems())
      ensures size + k <= current.Length
      ensures isHeap <==> size + k > staticCapacity
      ensures old(ToIncrease(k)) ==> isHeap && Capacity() == CapC(old(size), k) && fresh(current)
      ensures !old(ToIncrease(k)) ==> Capacity() == old(Capacity()) && current == old(current)
    {
      if ToIncrease(k) {
        CopyToHeap(CapC(size, k));
      }
    }

    /** copy_to_stack: move the elements back into the static array. */
    method CopyToStack()
      requires Storage() && isHeap && size <= staticCapacity
      modifies this, staticArr
      ensures Storage() && !isHeap && heapCapacity == 0
      ensures size == old(size) && Elems() == old(Elems())
    {
      var i := 0;
      while i < size
        invariant 0 <= i <= size
        invariant staticArr[..i] == heapArr[..i]
        modifies staticArr
      {
        staticArr[i] := heapArr[i];
        i := i + 1;
      }
      assert staticArr[..size] == heapArr[..size];
      heapCapacity := 0;
      current := staticArr;
      isHeap := false;
    }

    /** size(): the number of elements. */
    function Size(): (r: nat)
      reads this, current
      requires Valid()
      ensures r == |Elems()|
    {
      size
    }

    /** empty(): there is no element. */
    function Empty(): (r: bool)
      reads this, current
      requires Valid()
      ensures r <==> Elems() == []
    {
      size == 0
    }

    /** at(index): element index, or the out_of_range error. */
    function At(index: nat): (r: Result<T>)
      reads this, current
      requires Valid()
      ensures index < |Elems()| ==> r == Ok(Elems()[index])
      ensures index >= |Elems()| ==> r.Err?
    {
      if index >= size then Err("Error: index out of range") else Ok(current[index])
    }

    /**
     * push_back: elem after the others. When it does not fit, the elements
     * move to a heap array of capacity cap_c(size, 1).
     */
    method PushBack(elem: T)
      requires Valid()
      modifies this, current
      ensures Valid() && Elems() == old(Elems()) + [elem]
      ensures old(ToIncrease(1)) ==> isHeap && Capacity() == CapC(old(size), 1)
      ensures !old(ToIncrease(1)) ==> isHeap == old(isHeap) && Capacity() == old(Capacity()) && current == old(current)
    {
      if ToIncrease(1) {
        CopyToHeap(CapC(size, 1));
        heapArr[size] := elem;
        size := size + 1;
      } else {
        current[size] := elem;
        size := size + 1;
      }
    }

    /** insert(position, elem): elem at index location, the later elements one place to the right. */
    method Insert(location: nat, elem: T) returns (r: nat)
      requires Valid() && location <= size
      modifies this, current
      ensures Valid() && r == location
      ensures Elems() == old(Elems()[..location]) + [elem] + old(Elems()[location..])
      ensures old(ToIncrease(1)) ==> isHeap && Capacity() == CapC(old(size), 1)
      ensures !old(ToIncrease(1)) ==> Capacity() == old(Capacity())
    {
      ghost var e := Elems();
      Reserve(1);
      var arr := current;
      ShiftRight(arr, location, size, 1);
      arr[location] := elem;
      size := size + 1;
      Splice(arr, size, e, location, [elem]);
      r := location;
    }

    /** insert(position, first, last): the elements of src spliced in at index location. */
    method InsertRange(location: nat, src: seq<T>) returns (r: nat)
      requires Valid() && location <= size
      modifies this, current
      ensures Valid() && r == location
      ensures Elems() == old(Elems()[..location]) + src + old(Elems()[location..])
      ensures old(ToIncrease(|src|)) ==> isHeap && Capacity() == CapC(old(size), |src|)
      ensures !old(ToIncrease(|src|)) ==> Capacity() == old(Capacity())
    {
      ghost var e := Elems();
      var n := |src|;
      Reserve(n);
      var arr := current;
      ShiftRight(arr, location, size, n);
      CopyInto(arr, location, src, size + n);
      size := size + n;
      Splice(arr, size, e, location, src);
      r := location;
    }

    /** pop_back: nothing when empty; otherwise the last element goes, and storage returns to the static array at StaticCapacity. */
    method PopBack()
      requires Valid()
      modifies this, staticArr
      ensures Valid()
      ensures old(size) == 0 ==> Elems() == old(Elems())
      ensures old(size) > 0 ==> Elems() == old(Elems()[..size - 1])
      ensures old(isHeap) && !isHeap ==> old(size) == staticCapacity + 1
      ensures old(size) == staticCapacity + 1 ==> !isHeap && heapCapacity == 0
      ensures old(size) != staticCapacity + 1 ==> isHeap == old(isHeap) && heapCapacity == old(heapCapacity)
                                                  && heapArr == old(heapArr) && Capacity() == old(Capacity())
    {
      if size == 0 {
        return;
      }
      if ToDecrease(1) {
        size := size - 1;
        CopyToStack();
      } else {
        size := size - 1;
      }
    }

    /** erase(position): the element at index location goes, the later ones move one place to the left. */
    method Erase(location: nat) returns (r: nat)
      requires Valid() && location < size
      modifies this, current, staticArr
      ensures Valid() && r == location
      ensures Elems() == old(Elems()[..location]) + old(Elems()[location + 1..])
      ensures old(isHeap) && !isHeap ==> old(size) == staticCapacity + 1
      ensures old(size) == staticCapacity + 1 ==> !isHeap && heapCapacity == 0
      ensures old(size) != staticCapacity + 1 ==> isHeap == old(isHeap) && heapCapacity == old(heapCapacity)
                                                  && heapArr == old(heapArr) && Capacity() == old(Capacity())
    {
      ghost var e := Elems();
      var arr := current;
      ShiftLeft(arr, location, size);
      assert arr[..size - 1] == e[..location] + e[location + 1..];
      if ToDecrease(1) {
        size := size - 1;
        CopyToStack();
      } else {
        size := size - 1;
      }
      r := location;
    }

    /** clear: no elements, static storage; the heap capacity field is left as it was. */
    method Clear()
      requires Valid()
      modifies this
      ensures Valid() && Elems() == [] && !isHeap && Capacity() == staticCapacity
      ensures heapCapacity == old(heapCapacity)
    {
      if isHeap {
        isHeap := false;
        current := staticArr;
      }
      size := 0;
    }

    /** contains(elem): some element equals elem. */
    method Contains(elem: T) returns (r: bool)
      requires Valid()
      ensures r <==> elem in Elems()
    {
      var i := 0;
      while i < size
        invariant 0 <= i <= size
        invariant elem !in current[..i]
      {
        if current[i] == elem {
          return true;
        }
        i := i + 1;
      }
      return false;
    }

    /** operator==: the sizes agree and so does every element. */
    method Equals(other: VlVector<T>) returns (r: bool)
      requires Valid() && other.Valid()
      ensures r <==> Elems() == other.Elems()
    {
      if size == other.size {
        var i := 0;
        while i < size
          invariant 0 <= i <= size
          invariant current[..i] == other.current[..i]
        {
          if current[i] != other.current[i] {
            assert Elems()[i] != other.Elems()[i];
            return false;
          }
          i := i + 1;
        }
        return true;
      }
      return false;
    }
  }

  /** The shift loop of insert: a[location..size] moves n places to the right. */
  method ShiftRight<T>(a: array<T>, location: nat, size: nat, n: nat)
    requires location <= size && size + n <= a.Length
    modifies a
    ensures a[..location] == old(a[..location])
    ensures a[location + n..size + n] == old(a[location..size])
  {
    ghost var o := a[..];
    var i := size;
    while i > location
      invariant location <= i <= size
      invariant forall k :: 0 <= k < i ==> a[k] == o[k]
      invariant forall k :: i + n <= k < size + n ==> a[k] == o[k - n]
    {
      a[i + n - 1] := a[i - 1];
      i := i - 1;
    }
    assert a[..location] == o[..location];
    assert a[location + n..size + n] == o[location..size];
  }

  /** The shift loop of erase: a[location + 1..size] moves one place to the left. */
  method ShiftLeft<T>(a: array<T>, location: nat, size: nat)
    requires location < size <= a.Length
    modifies a
    ensures a[..location] == old(a[..location])
    ensures a[location..size - 1] == old(a[location + 1..size])
  {
    ghost var o := a[..];
    var i := location;
    while i + 1 < size
      invariant location <= i < size
      invariant forall k :: 0 <= k < location ==> a[k] == o[k]
      invariant forall k :: location <= k < i ==> a[k] == o[k + 1]
      invariant forall k :: i + 1 <= k < size ==> a[k] == o[k]
    {
      a[i] := a[i + 1];
      i := i + 1;
    }
    assert a[..location] == o[..location];
    assert a[location..size - 1] == o[location + 1..size];
  }

  /** The copy loop of the range insert: src written from index location on. */
  method CopyInto<T>(a: array<T>, location: nat, src: seq<T>, end: nat)
    requires location + |src| <= end <= a.Length
    modifies a
    ensures a[..location] == old(a[..location])
    ensures a[location..location + |src|] == src
    ensures a[location + |src|..end] == old(a[location + |src|..end])
  {
    var j := location;
    var i := 0;
    while i < |src|
      invariant 0 <= i <= |src| && j == location + i
      invariant a[..location] == old(a[..location])
      invariant a[location..j] == src[..i]
      invariant a[location + |src|..end] == old(a[location + |src|..end])
    {
      a[j] := src[i];
      j := j + 1;
      i := i + 1;
    }
  }

  /** An array that agrees with e before location, holds src next and the rest of e after that. */
  lemma Splice<T>(a: array<T>, end: nat, e: seq<T>, location: nat, src: seq<T>)
    requires location <= |e| && end == |e| + |src| <= a.Length
    requires a[..location] == e[..location]
    requires a[location..location + |src|] == src
    requires a[location + |src|..end] == e[location..]
    ensures a[..end] == e[..location] + src + e[location..]
  {
    assert a[..end] == a[..location] + a[location..location + |src|] + a[location + |src|..end];
  }
}

=== FILE: wrappers.dfy ===
/** Optional values and error results shared by every module of the model. */
module Wrappers {

  /** A value that may be absent: stands for a C pointer that may be NULL. */
  datatype Option<T> = None | Some(value: T)

  /** The outcome of an operation that can raise an error (a C++ exception). */
  datatype Result<T> = Ok(value: T) | Err(message: string)
}
